=== FILE: README.md ===
# GauntletManager core in Dafny

GauntletManager is a Discord bot that runs "watch challenges". A guild opens a
challenge. Participants propose titles (films, series) into named pools. Each
round draws one unused title per active participant. Participants rate the
title they were given before the round's deadline. Anyone who leaves a roll
unrated when the round ends fails the challenge. Proposers and watchers
collect karma from the scores. Results go out to a spreadsheet.

This project models the core of that system as pure functions over immutable
data. It has seven parts:

- `pools.dfy`, `challenges.dfy`, `contexts.dfy`, `rounds.dfy` model the JSON
  era engine of `challenge.py`:
  - `Pool` with `check_size`, `add`, `pop` and `pop_n`;
  - `Challenge` with its pools, titles, participants and checks;
  - `Context` with every command from `start_challenge` to `reroll`.
- `invariants.dfy` states the invariant of a challenge and proves that every
  `Context` command keeps it. The invariant says:
  - participants and pool titles are unique, and pools share no title;
  - every pooled title is registered;
  - a rolled title is never in an unused list again;
  - no title is rolled twice;
  - the open round holds a roll for exactly the active participants.
- `store.dfy` models the database era commands of `bot.py` over an abstract
  relational store. Each table is a list of rows, and ids come from a counter.
  It covers:
  - the `State.fetch…` gates;
  - `start_challenge` and `end_challenge`;
  - `remove_user` and `start_round`;
  - `_end_round` (failures and karma) and `extend_round`;
  - `rate`, `swap`, `_set_title`, `reroll` and `set_title`.

  It also proves that the `is_used` flags stay in step with the rolls.
- `karma.dfy` models the karma loop of `_end_round`. It has the code as
  written and a corrected accumulation, with the lemmas relating them.
- `commands.dfy` models the argument validators of `cogs.py`: the progress
  parser, colour, name, score and days. It also models the karma picture
  index. `table.dfy` models `table_format`.
- `scores.dfy`, `export.dfy` and `xlsx.dfy` model the two spreadsheet
  exports:
  - the colour bands of `score_col`;
  - the `update_stats` accumulator and the final average;
  - the round columns, with their FAILED and struck-through cells;
  - the unused-title columns;
  - the column-width bookkeeping of `XlsxExporter`.

  `sorting.dfy` models `sorted(..., key=name)`: a stable sort on code points.

Some inputs become parameters:

- The clock is an integer `now`. A round's deadline is a number in the same
  unit.
- In `challenge.py` a `timedelta` is an integer `delta`. In `bot.py`, `days`
  becomes `days * SecondsPerDay`.
- `random.randrange` / `random.choice` become a caller-supplied `pick: nat`,
  reduced modulo the list length. A sequence of draws becomes `rng: nat -> nat`.
- Python's `str()` of a float in the xlsx exporter becomes a `show` parameter.
  The round header text becomes a `heading` parameter.

Errors are one datatype (`Results.Error`). Each `BotErr` message is a
constructor. The Python crashes the code can hit are separate constructors:

- `KeyError` is `KeyMissing`;
- `IndexError` is `IndexOutOfRange`;
- `TypeError` on `None` is `NoneArithmetic`;
- `AttributeError` on a missing row is `NoneAttribute`.

Some behaviours of the code are worth stating plainly:

- `challenge.py` `add_user` registers an unknown user before its checks. The
  model returns the updated users even when the command then fails.
- `bot.py` updates karma incrementally in `_end_round` and never clamps it.
  - A proposer gets the raw score of each rating their title received from
    someone else.
  - They also get `watcher_delta` of the score of the roll they watched
    themselves this round.
  - As written, the loop keeps only the last update per proposer and raises
    `KeyError` for a proposer without a roll this round (see "Findings").
    `Store.EndRoundOf` models that; `Store.EndRoundIntended` models the
    corrected accumulation.
- `challenge.py` `extend_round` refuses an expired round, but `bot.py` fetches
  the last round with `allow_past_deadline=True` and extends it anyway.
- `bot.py` `remove_user` deletes the participant row while the challenge has
  no round. Once it has one, it only sets `failed_round_id` to the last
  round; the roll and its score stay. `challenge.py` refuses removal once the
  challenge has started.

## Model

| member | source | states |
|---|---|---|
| Pools.CheckSize | challenge.py:76-78 | a draw of `n` titles is allowed exactly when the pool has at least `n` unused titles, otherwise "Not enough titles in pool" |
| Pools.Add | challenge.py:80-82 | the new title is in both lists, each list gains exactly that one occurrence, and "unused titles are pool titles" is kept |
| Pools.Pop | challenge.py:84-86 | popping fails exactly on an empty unused list; otherwise the returned title plus the remaining unused titles are the old unused titles, and the pool's title list is untouched |
| Pools.PopN | challenge.py:88-90 | `pop_n(n)` fails exactly when `n` exceeds the unused titles; otherwise it returns `n` titles which, with the remaining unused titles, make up the old unused list |
| Pools.PopNProperties | challenge.py:88-90 | drawn titles come from the unused list; with distinct titles the draw has no repeats and none of them stays unused; unused titles remain pool titles |
| Pools.PopProperties | challenge.py:84-86 | the popped title was unused and is no longer unused when titles are distinct; nothing new becomes unused |
| Pools.PopNOne | challenge.py:84-90 | `pop_n(1)` is a single `pop` with the first random pick |
| Challenges.FindPool | challenge.py:105-108 | a pool is found exactly when its name is registered, and "Cannot find pool" is raised otherwise |
| Challenges.AddPool | challenge.py:110-113 | a duplicate name is refused; otherwise exactly one empty pool is appended and nothing else changes |
| Challenges.AddTitle | challenge.py:115-119 | an existing title name is refused first, then an unknown pool; on success the title is registered with its info and added to exactly the named pool |
| Challenges.AddParticipant | challenge.py:121-124 | a participant is refused exactly when already present; otherwise appended, keeping the roster duplicate-free |
| Challenges.LastRound | challenge.py:126-133 | no rounds gives "Create a new round first", a finished last round gives "The round has ended", and otherwise the last round is returned |
| Challenges.CheckNotStarted | challenge.py:135-137 | passes exactly when the challenge has no round |
| Challenges.CheckParticipant | challenge.py:139-143 | passes exactly for a participant who has not failed, with the not-participating error checked before the failed one |
| Challenges.Active | challenge.py:257-260 | the active participants are the roster with the failed members filtered out, order kept, so exactly the members who have not failed and without repeats |
| Challenges.ZipRolls | challenge.py:265 | the new rolls are keyed by exactly the active participants, unscored, each with one of the drawn titles |
| Challenges.ZipRollsAt | challenge.py:265 | with distinct participants, the k-th active participant's roll is the k-th drawn title, unscored |
| Challenges.ZipRollsDistinct | challenge.py:264-265 | distinct drawn titles give distinct participants distinct titles |
| Challenges.PurgeTitle | challenge.py:243-248 | deleting a title removes its first occurrence from every pool's title and unused lists and keeps the pool names |
| Challenges.PurgeTitles | challenge.py:222-224 | removing a user's titles as a batch strips every occurrence of each of them from every pool's lists and keeps the pool names |
| Challenges.PurgeEachIsPurgeTitles | challenge.py:222-248 | on pools without repeated titles, calling `remove_title` once per title, in any order, leaves the same pools as removing the batch at once |
| Challenges.ReturnTitle | challenge.py:306-309 | a rerolled-away title is appended to the unused list of the first pool that owns it and of no other; every other pool and every title list is unchanged, and with no owning pool nothing changes |
| Contexts.Current | challenge.py:169-172 | with no current challenge the error is "Create a new challenge first"; a dangling current name is a KeyError; otherwise the current challenge |
| Contexts.StartChallenge | challenge.py:174-189 | refused while a challenge is current or if the name is taken; otherwise the new challenge is current, has only an empty main pool and no participants, titles or rounds, and other challenges are untouched |
| Contexts.AddPool | challenge.py:198-201 | refused after the first round or for a duplicate name; otherwise only the current challenge changes, by the new pool |
| Contexts.RemovePool | challenge.py:203-208 | refused after the first round or for an unknown pool; otherwise exactly that pool is dropped from the current challenge |
| Contexts.AddUser | challenge.py:210-215 | the user is registered (default colour) whether or not the command then fails; it succeeds exactly before the first round for a newcomer, appending them |
| Contexts.RemoveUser | challenge.py:217-225 | refused after the first round or for a non-participant or failed user; otherwise every title the user proposed leaves the registry and all pools, and the user leaves the roster |
| Contexts.AddTitle | challenge.py:230-234 | refused after the first round or for a proposer who is not an active participant; otherwise it succeeds exactly as the challenge's `add_title` does |
| Contexts.RemoveTitle | challenge.py:236-248 | refused after the first round or for an unknown title; otherwise the title leaves the registry and every pool and nothing else changes |
| Rounds.CheckDeadline | challenge.py:62-64 | passes exactly when `now` is not past the round's end |
| Rounds.StartRound | challenge.py:250-268 | missing main pool is a KeyError, an open round blocks, no active participant or too few unused main titles fail; otherwise one unfinished round is appended whose rolls are keyed by exactly the active participants, unscored, from `now` to `now + delta` |
| Rounds.StartRoundDraws | challenge.py:264-265 | the rolled titles and the remaining unused main titles together are the old unused titles, are distinct and no longer unused; other pools are untouched |
| Rounds.EndRound | challenge.py:270-281 | needs an open round; afterwards the failed set gains exactly the participants with an unrated roll, stamped with this round's index, earlier failures keep their round, and the round is finished at `now` |
| Rounds.ExtendRound | challenge.py:283-287 | needs an open round not past its deadline; moves only its end by `delta` |
| Rounds.CheckOpenFor | challenge.py:290-293 | passes exactly for an active participant while the last round is open and not past its deadline, with the errors in the source's order |
| Rounds.Rate | challenge.py:289-294 | on success only the rater's score in the open round changes, to the given score; a rater without a roll is a KeyError |
| Rounds.Reroll | challenge.py:296-309 | fails on a closed round, a missing roll (KeyError), an unknown pool, or an empty pool; success touches only the current challenge and keeps the rounds count |
| Rounds.RerollShape | challenge.py:302-309 | a successful reroll gives the user the title popped from the named pool, keeps their score, leaves other rolls alone, and returns the old title to the unused list of the first pool (in the original pool order) whose titles include it, and to no other |
| Rounds.EndChallenge | challenge.py:191-196 | ends an open round as `end_round` would, clears the current challenge, and leaves no challenge with an open round behind |
| Invariants.StartChallengeValid | challenge.py:174-189 | starting a challenge keeps every challenge consistent |
| Invariants.AddPoolValid | challenge.py:198-201 | adding a pool keeps every challenge consistent |
| Invariants.RemovePoolValid | challenge.py:203-208 | removing a pool keeps every challenge consistent |
| Invariants.AddUserValid | challenge.py:210-215 | adding a user keeps every challenge consistent, even when the command fails |
| Invariants.RemoveUserValid | challenge.py:217-225 | removing a user and their titles keeps every challenge consistent |
| Invariants.RemoveUserOneByOne | challenge.py:217-225 | in a consistent context, removing the user's titles one by one in whatever order the dictionary yields them gives exactly the pools `RemoveUser` states |
| Invariants.AddTitleValid | challenge.py:230-234 | adding a title keeps every challenge consistent |
| Invariants.RemoveTitleValid | challenge.py:236-248 | removing a title keeps every challenge consistent |
| Invariants.StartRoundValid | challenge.py:250-268 | starting a round keeps every challenge consistent: the new rolls are fresh, distinct titles and cover exactly the active participants |
| Invariants.EndRoundValid | challenge.py:270-281 | ending a round keeps every challenge consistent |
| Invariants.ExtendRoundValid | challenge.py:283-287 | extending a round keeps every challenge consistent |
| Invariants.RateValid | challenge.py:289-294 | rating keeps every challenge consistent |
| Rounds.PopThenReturn | challenge.py:306-309 | after popping from pool `k`, the returned title goes to the first pool of the original order that owns it; names and title lists are kept |
| Invariants.RerolledDrawn | challenge.py:302-309 | after a reroll no rolled title, the new one included, is back in any unused list |
| Invariants.RerolledDistinct | challenge.py:302-309 | after a reroll no two rolls in any rounds share a title |
| Invariants.RerollValid | challenge.py:296-309 | rerolling keeps every challenge consistent |
| Invariants.EndChallengeValid | challenge.py:191-196 | ending the challenge keeps every challenge consistent |
| Invariants.OpenRoundHasRoll | challenge.py:289-304 | in a consistent context the `rolls[user.id]` lookups never raise KeyError: `rate` succeeds exactly when the open-round checks pass, and `reroll` never fails with KeyError |
| Karma.WatcherDeltaMonotone | bot.py:211 | the watcher delta never decreases and never rises faster than the score |
| Karma.WatcherDeltaValues | bot.py:211 | the watcher delta is the score up to 5 and a quarter of the excess above 5, so 10 gives 6.25 and it stays between 0 and the score |
| Karma.ByWatcher | bot.py:203 | the dictionary by watcher id holds a watcher exactly when some row has them, and holds that watcher's last row |
| Karma.DeltaBounds | bot.py:205-211 | with scores from 0 to 10, a rating by someone else gives between 0 and the score, a watcher bonus lies between 0 and 6.25, and one roll moves its proposer's karma by at most 16.25 |
| Karma.RowDelta | bot.py:205-211 | the corrected delta equals the written one wherever that succeeds, and is the direct gain alone where the proposer has no roll |
| Karma.ApplyAsWritten | bot.py:203-214 | the loop as written keeps the set of users and fails only with KeyError |
| Karma.AsWrittenFails | bot.py:203-208 | the loop as written raises exactly when some row's proposer has no roll of their own this round |
| Karma.AsWrittenIsLast | bot.py:204-214 | when the loop as written completes, each user has their karma from before the loop plus the delta of only their last row with a nonzero delta |
| Karma.Apply | bot.py:203-214 | the corrected update credits every user and no one else |
| Karma.ApplyIsSum | bot.py:204-214 | the corrected update gives each user their old karma plus the sum of the deltas of every row naming them as proposer |
| Karma.GainNonNegative | bot.py:204-214 | with non-negative scores nobody loses karma in a round |
| Karma.ApplyUntouched | bot.py:204-214 | a user who proposed none of the round's titles keeps their karma |
| Karma.AsWrittenAgrees | bot.py:203-214 | when each proposer heads at most one row and has a roll, the code as written and the corrected update agree |
| Karma.LostUpdateExample | bot.py:204-214 | two ratings of one proposer's titles: the code as written keeps only the last one's gain, the corrected update keeps both |
| Karma.MissingOwnRollExample | bot.py:208 | a title whose proposer has no roll this round makes the code as written raise KeyError, while the corrected update credits the rating |
| Store.Latest | db.py:150-155 | the last round of a challenge is its round with the greatest number, and none exactly when it has no round |
| Store.Fetch | bot.py:17-23 | no current challenge raises "Create a new challenge first"; a started challenge is refused unless allowed; otherwise the current challenge row |
| Store.FetchLastRound | bot.py:54-59 | no round raises "Create a new round first"; a finished round, or one past its deadline unless allowed, raises "Round has ended"; otherwise the last round |
| Store.FetchParticipant | bot.py:33-38 | a user without a participant row is "not participating", a failed one "has failed", otherwise their row in this challenge |
| Store.UnusedTitles | db.py:249-251 | exactly the pool's titles not marked used |
| Store.StartChallenge | bot.py:82-91 | refused while a challenge is current (an AttributeError if the current id names no row) or when the name exists in the guild; otherwise adds the challenge and its main pool and makes it current |
| Store.StartChallengeFresh | bot.py:82-91 | the new challenge is current, has not started, has no participants and owns exactly the main pool |
| Store.FinishRound | bot.py:197-201 | ending a round fails exactly the participants with an unrated roll in it, marks that round finished, and changes nothing else |
| Store.EndRoundOf | bot.py:196-214 | `_end_round` as written raises KeyError exactly when a proposer of the round's titles has no roll of their own; otherwise it finishes the round and leaves each user with their old karma plus the delta of their last nonzero row, changing nothing else |
| Store.EndRoundIntended | bot.py:196-214 | the corrected end of a round finishes it like the code and credits each user through the corrected accumulation |
| Store.EndRoundAgrees | bot.py:203-214 | when no user proposed two of the round's rolled titles and every proposer has a roll of their own, the code as written ends the round exactly as intended |
| Store.EndRound | bot.py:216-221 | `end_round` applies the gates (past the deadline allowed) and then ends the last round as written, KeyError included; success implies that round was open |
| Store.ExtendRound | bot.py:223-229 | extends the last open round by `days`, even past its deadline, and changes nothing else |
| Store.EndChallenge | bot.py:93-103 | needs a current challenge; ends an open last round first and aborts with its KeyError; otherwise stamps the challenge's finish time and clears the current challenge |
| Store.RemoveUser | bot.py:132-141 | a participant who has not failed is marked failed in the last round once rounds exist, and deleted before that |
| Store.RemoveUserStops | bot.py:132-141 | with one participant row per user and challenge, a removed user can no longer be fetched as a participant and is not among the active participants a round is started for |
| Store.ActiveParticipants | bot.py:173-175 | the participants that have not failed, in this challenge, with a known user |
| Store.Launch | bot.py:180-191 | launching appends the round ending `days` later, one unscored roll per active participant with their drawn title, marks exactly the drawn titles used, resets exactly the active participants' progress, and takes one fresh id |
| Store.RoundPlan | bot.py:166-180 | a planned round follows a finished one (numbered one past it, or 0), draws from an existing pool, and has at least one active participant and enough unused titles |
| Store.StartRound | bot.py:166-194 | `start_round` fails exactly when its plan does, and otherwise launches the round with titles drawn from the pool's unused list |
| Store.StartRoundNumbering | bot.py:168-182 | a successful start appends one unfinished round numbered one past the last (0 first), ending `days` later, which becomes the latest round |
| Store.StartRoundRolls | bot.py:184-186 | old rolls are kept and one unscored roll per active participant is added, in order, each for an unused title of the named pool |
| Store.StartRoundProgress | bot.py:185-190 | exactly the active participants have their progress reset; rounds, rolls, titles and the id counter are the only other changes |
| Store.StartRoundTitles | bot.py:184-191 | the new rolls have distinct titles, each previously unused and now marked used, and no other title changes |
| Store.StartRoundErrors | bot.py:166-178 | every failure of `start_round`, in order: the gate, an open round, a missing pool, no active participant, too few unused titles; otherwise success |
| Store.OpenFor | bot.py:232-234 | the shared gate of rate, swap, reroll and set_title: an open round before its deadline and an active participant, with errors in the source's order |
| Store.Rate | bot.py:231-239 | sets the score of exactly the rater's roll in the last round; a missing roll is an AttributeError |
| Store.RateClearsUnrated | bot.py:231-237 | after rating, `_end_round` will no longer fail the rater, and nobody else's standing changes |
| Store.Swap | bot.py:241-254 | fails as the gates of either user do; on success only the rolls change, and with one roll per round and participant every roll keeps everything but its title |
| Store.SwapExchanges | bot.py:246-252 | the two users' rolls in the last round exchange titles and nothing else changes |
| Store.SwapTwice | bot.py:241-254 | swapping the same two users twice restores the store |
| Store.SetTitleOf | bot.py:256-264 | a used title is refused; otherwise the roll takes the new title, the new title is marked used, the old one unused, and nothing else changes |
| Store.Reroll | bot.py:266-277 | fails on the gates, an unknown pool or a pool without unused titles; otherwise it picks an unused title of that pool and retitles the user's roll with it |
| Store.TitleOf | db.py:189-193 | a title is found by name among the challenge's pools, and none exactly when no such title exists |
| Store.SetTitle | bot.py:279-286 | fails on the gates or an unknown title, and otherwise retitles the user's roll as `_set_title` does |
| Store.SetTitleOfBookkept | bot.py:256-264 | retitling a roll keeps "every rolled title is marked used and no title is rolled twice" |
| Store.SwapBookkept | bot.py:241-254 | swapping keeps the `is_used` bookkeeping |
| Store.RateBookkept | bot.py:231-239 | rating keeps the `is_used` bookkeeping |
| Store.StartRoundBookkept | bot.py:184-191 | starting a round keeps the `is_used` bookkeeping |
| Store.RerollBookkept | bot.py:266-277 | rerolling keeps the `is_used` bookkeeping |
| Store.SetTitleBookkept | bot.py:279-286 | `set_title` keeps the `is_used` bookkeeping |
| Store.EndRoundBookkept | bot.py:216-221 | ending a round keeps the `is_used` bookkeeping |
| Store.ExtendRoundBookkept | bot.py:223-229 | extending a round keeps the `is_used` bookkeeping |
| Store.EndChallengeBookkept | bot.py:93-103 | ending the challenge keeps the `is_used` bookkeeping |
| Store.RemoveUserBookkept | bot.py:132-141 | removing a user keeps the `is_used` bookkeeping |
| Store.EndRoundKarma | bot.py:203-214 | the corrected end of a round adds to each user's karma the sum of the deltas of the titles they proposed |
| Store.EndRoundKarmaGrows | bot.py:204-214 | with non-negative scores the corrected end of a round never lowers anyone's karma |
| Commands.ParseProgress | cogs.py:463-474 | a rejected argument raises "Invalid progress" with the text; accepted values are below 100 |
| Commands.ParseProgressForms | cogs.py:464-474 | an argument is accepted, with a given meaning, exactly when it is `x/y`, `+`, `+x` or `x` with one- or two-digit numerals, optionally followed by one newline as `$` allows |
| Commands.ProgressRoundTrip | cogs.py:464-472 | rendering any progress value with numbers below 100 and parsing it back gives the same value |
| Commands.FractionRoundTrip | cogs.py:464-468 | `x/y` parses to progress `x` of `y` |
| Commands.IncrementRoundTrip | cogs.py:465-470 | `+n` parses to adding `n` |
| Commands.CheckColor | cogs.py:580-581 | a rejected colour raises "Invalid color" with the text |
| Commands.CheckColorForms | cogs.py:580-581 | a colour is accepted exactly when it is `#` and six hex digits, optionally followed by one newline |
| Commands.CheckName | cogs.py:604-607 | a name longer than 32 is "too long" before anything else; any other rejection is "bad symbols" |
| Commands.CheckNameForms | cogs.py:604-607 | a name is accepted exactly when it has at most 32 characters and is a non-empty run of Latin or basic Cyrillic letters, digits, `_` or `-`, optionally followed by one newline |
| Commands.CheckNameExamples | cogs.py:604-607 | Cyrillic names pass, `ё` is outside the class, empty and spaced names fail, and 33 characters is too long |
| Commands.CheckScoreAsWritten | cogs.py:542-547 | unparsable text is "Invalid score"; a parsed value is accepted exactly when it is neither below 0 nor above 10 |
| Commands.CheckScoreAcceptsNaN | cogs.py:546-547 | NaN passes the range check as written |
| Commands.CheckScore | cogs.py:542-547 | a score is accepted exactly when it parses to a finite number from 0 to 10 |
| Commands.CheckScoreAgrees | cogs.py:542-547 | for every parse result except NaN, the corrected check accepts, rejects and reports errors exactly as the written one |
| Commands.ExtendRoundLater | cogs.py:191-198 | a successful `!extend_round` moves the last round's deadline at least one day later and leaves every other round alone |
| Commands.PyIndex | cogs.py:456 | Python list indexing accepts exactly the indices from `-n` to `n - 1`, counting negative ones from the end |
| Commands.KarmaImageAsWritten | cogs.py:454-456 | the picture index as written, when it succeeds, names one of the ten pictures |
| Commands.KarmaImageAsWrittenRange | cogs.py:454-456 | the index as written works exactly for karma from -1000 up to below 1000, raising IndexError at 1000 and wrapping for negative karma |
| Commands.KarmaImageProperties | cogs.py:442-456 | the clamped index always names a picture, rises with karma, shows the top picture from 1000 on and the first below 0, and agrees with the written one from 0 to below 1000 |
| Table.FlattenAllAppend | cogs.py:51 | flattening a concatenation is the concatenation of the flattenings |
| Table.FlattenNested | cogs.py:45-51 | a nested tuple flattens as if its elements were spliced into the outer one |
| Table.ColWidth | cogs.py:55-59 | a column's width is the length of its longest cell (0 for no rows) |
| Table.Widths | cogs.py:55-59 | one width per column of the first row; no cell of a column is longer than its width, and some cell attains it unless the width is 0 |
| Table.Padded | cogs.py:67-68 | a cell keeps its text and is padded with spaces up to width plus spacing |
| Table.Format | cogs.py:44-70 | empty data, a shorter row or too short a spacing list raise IndexError; otherwise one padded line per row |
| Table.FormatLineCount | cogs.py:64-70 | a table of newline-free cells has exactly one line per row |
| Table.FormatShape | cogs.py:53-62 | a formatted table has data and every row is at least as wide as the first |
| Table.FormatAligned | cogs.py:64-70 | every cell of every row starts at its column's offset and fits within its line |
| Table.LineAligned | cogs.py:65-69 | within one line each cell starts at the sum of the previous widths and spacings |
| Scores.ScoreColorBands | export.py:27-35 | scores get red below 10/3, yellow below 20/3, green above; no score is grey; a higher score never gets a lower band (xlsx.py:109-117 is identical) |
| Scores.Step | export.py:93-104 | `update_stats` creates the entry even without a score, which then changes nothing; the four fields stay set together |
| Scores.Accumulate | export.py:130-132 | a participant's entry exists exactly when there was at least one round, and then has its fields set together |
| Scores.AccumulateRecords | export.py:93-104 | after the rounds an entry records the least and greatest score seen, their sum and their count, or nothing if none |
| Scores.FinalizeSummarizes | export.py:136 | the final statistics are the minimum, the maximum and the mean, with the mean between them |
| Scores.ExportedStats | export.py:130-141 | a participant's Min, Max and Avg summarize exactly the scores the rounds gave them |
| Scores.Scan | xlsx.py:218-227 | the xlsx loop has a sum exactly when it counted at least one score |
| Scores.ScanMatches | xlsx.py:218-227 | the xlsx loop computes the same min, max, sum and count as `update_stats` |
| Scores.ExportsAgree | xlsx.py:211-229 | the two exports show the same statistics for a participant; the xlsx one is all empty when there are no rounds |
| Sorting.SortByProperties | xlsx.py:245 | sorting by name orders by code point, keeps every participant, and keeps roster order among equal names |
| Export.UsersById | export.py:41 | the user dictionary holds exactly the participant ids of its pairs |
| Export.RollsById | export.py:118 | the roll dictionary holds exactly the participants with a roll, each mapped to one of their rolls |
| Export.TitlesById | export.py:115 | the title dictionary holds exactly the title ids, each mapped to its title |
| Export.SortedMembers | export.py:109 | the (user, participant) pairs come out ordered by user name, as a permutation of the input that keeps input order among equal names |
| Export.RoundCellCases | export.py:121-126 | FAILED marks exactly the participants without a roll; a rolled title is struck through exactly in the round its roller failed; only the title and proposer lookups can fail |
| Export.RoundCells | export.py:121-126 | the title column succeeds exactly when every participant's cell does, one cell per participant |
| Export.RoundStatsEntries | export.py:130-133 | one round updates each listed participant's entry once, with their score, and no other entry |
| Export.AllStatsPerParticipant | export.py:117-133 | after all rounds each participant's entry is the accumulation of their own scores, and absent with no rounds |
| Export.StatColumns | export.py:136-142 | the Min, Max and Avg columns summarize each participant's scores, empty when they have none |
| Export.UnusedCells | export.py:144-149 | a pool column has a cell, on the proposer's colour, for every unused title and for nothing else, and fails exactly when an unused title's proposer is unknown |
| Export.RoundColumns | export.py:117-134 | a round yields a title column and a score column, each one cell taller than the participants list, failing exactly when some participant's title cell does |
| Export.RoundColumnsCells | export.py:120-133 | under the round and Score headers, row `k + 1` holds participant `k`'s title cell and the cell of their score (or of no score) |
| Export.AllRoundColumns | export.py:117-134 | the round block fails exactly when some round's columns do; two columns per round, each of the participants' height |
| Export.AllRoundColumnsAt | export.py:117-134 | round `i` fills columns `2i` and `2i + 1` of the round block, in order |
| Export.PoolColumns | export.py:144-149 | the pool block fails exactly when some pool's unused cells do; pool `j`'s column is the "(unused titles)" header over its unused titles |
| Export.NamesColumn | export.py:108-113 | the participants column is the header followed by each name on its user's colour |
| Export.StatsColumns | export.py:137-142 | three statistics columns, each a header and one score cell per participant in its colour band |
| Export.SyncExport | export.py:106-153 | the sheet succeeds exactly when the round block and the pool block do; it is the names column, then the round block, the Min/Max/Avg columns and the pool columns, in that order, the first ones all of the participants' height |
| Export.SyncExportSucceeds | export.py:115-149 | the sheet fails exactly when a roll names a title that is not in the title list, or a rolled or unused title has an unknown proposer |
| Xlsx.StartSound | xlsx.py:121-133 | a fresh exporter starts with width 2, no cells and sound bookkeeping |
| Xlsx.Put | xlsx.py:138-141 | writing a cell moves down one row, widens the column to fit the text, and keeps the bookkeeping sound |
| Xlsx.WriteScore | xlsx.py:156-164 | a score cell is `-` or the number, centred on the score's colour |
| Xlsx.NextCol | xlsx.py:166-170 | moving on records the column's width, resets it to 2 and keeps the bookkeeping sound |
| Xlsx.WriteScores | xlsx.py:208-209 | a run of score cells fills consecutive rows with each score's value and format |
| Xlsx.NamesOf | xlsx.py:245 | each participant paired with their name, failing exactly on an unknown user |
| Xlsx.SortedParticipants | xlsx.py:245 | the participants sorted by name, failing exactly when a participant is unknown |
| Xlsx.SortedParticipantsOrder | xlsx.py:245 | the sorted list is ordered by name, holds exactly the participants with their names, and is stable |
| Xlsx.ExportUsers | xlsx.py:180-183 | the participants column is the header then each name on its user's colour |
| Xlsx.WriteNames | xlsx.py:182-183 | one cell per sorted participant with their name and colour, failing exactly on an unknown user |
| Xlsx.ClassifyCases | xlsx.py:188-204 | FAILED exactly after the round a participant failed in; their title struck through on red exactly in that round; otherwise the proposer's colour; the lookups are the only failures |
| Xlsx.WriteEntry | xlsx.py:190-204 | FAILED, a link or the plain title, written with the entry's format |
| Xlsx.WriteEntries | xlsx.py:188-204 | the title column succeeds exactly when every participant's entry does, one formatted cell each |
| Xlsx.ExportRound | xlsx.py:185-209 | a round writes a title column and a score column, ending below the last participant of the second |
| Xlsx.StatsOf | xlsx.py:211-229 | one (min, max, avg) triple per sorted participant, over their scores in every round |
| Xlsx.StatsSummarize | xlsx.py:211-229 | each exported triple summarizes the participant's scores, empty with no rounds |
| Xlsx.StatColumn | xlsx.py:233-236 | a statistics column ends by moving to a fresh column, keeping the bookkeeping sound |
| Xlsx.ExportStats | xlsx.py:231-236 | the statistics take exactly three columns and keep the bookkeeping sound |
| Xlsx.WriteUnused | xlsx.py:174-178 | a pool's unused titles go down the column in order, failing exactly on an unknown title or proposer |
| Xlsx.ExportPool | xlsx.py:172-178 | a pool column is the "(unused titles)" header then its unused titles; it fails exactly when one of them is not a known title or has an unknown proposer |
| Xlsx.ExportRounds | xlsx.py:250-252 | each round takes two columns and a break; the loop fails exactly when some participant's entry in some remaining round cannot be resolved |
| Xlsx.ExportPools | xlsx.py:257-260 | each pool takes its column and an empty one; the loop fails exactly when some pool's unused title is unknown or has an unknown proposer |
| Xlsx.ExportChallenge | xlsx.py:238-260 | an unknown challenge name is a KeyError; otherwise the sheet is written exactly when every participant is a known user, every participant's entry resolves in every round, and every unused title is known with a known proposer |
| Xlsx.ExportSheet | xlsx.py:241-260 | a challenge's sheet succeeds exactly under those conditions, and then has one participants column, two per round, four more and two per pool, with sound bookkeeping |
| Xlsx.ClassifySorted | xlsx.py:245-251 | the sorted participants are known users with exactly the roster's ids, so resolving every entry down one is resolving it down the other |
| Xlsx.ExportChallengeLayout | xlsx.py:238-260 | a sheet has one participants column, two per round, three statistics columns and a gap, and two per pool; every column gets a recorded width of at least 2 that fits its texts; no cell is written twice |

## Left out

- db.py's SQL, the connection and `commit` are left out. The store is lists of rows. A query is a filter, and `fromrow` is the first match.
- Discord itself is left out: message sending, mentions, embeds, permission checks (`require_admin_privilege`) and the `async` machinery. None of it affects the state.
- The deadline-polling timer is left out. It lives outside these files.
- Datetime formatting and parsing (`strftime`, `strptime`, `%d.%m`) are left out. Times are integers, and round headers are a parameter.
- Python's float formatting (`str(score)`) is left out. Floats are reals, except the NaN/infinity case of `rate`, which is modelled. Rounding of float sums is not modelled.
- `\d` in the progress patterns matches only the ASCII digits 0-9 here. Python also accepts other Unicode decimal digits.
- The sheet writers (pygsheets, xlsxwriter) are left out. So are `col2tuple`, the luminance-based text colour, the Google Sheets writer and the final cell upload.
- The export functions stop at the first KeyError. The source raises there as well, but it would already have written part of the sheet.
- `bot.py` `add_progress` (line 321) is not modelled. It adds to a progress that `start_round` has just reset to `None`, which raises TypeError.
- `set_progress`, `progress_table`, `karma_table`, `user_profile`, `set_name` and `set_color` persistence, and the award and spreadsheet-key commands are left out. They only store or show a value. Their argument checks are modelled in Commands.
- The bot's `add_pool`, `remove_pool`, `add_user`, `add_title`, `remove_title`, `rename_pool` and `rename_title` are left out on the store side. Their rules are the ones the Context model proves.
- `challenge.py`'s `set_color`, `from_json` and `to_json` are left out. They are plain assignment and serialisation.
- Store.EndRoundOf: when the karma loop raises KeyError the command is modelled as having no effect. In the source the failures, the finished flag and the karma of the earlier rows are already written to the open transaction, and a later `commit` on the shared connection would keep them.
- Store.FinishRound: a participant fails when any of their rolls in the round is unrated. The source looks only at rolls whose watcher, title and proposer rows all exist; the two agree when no row is dangling.
- Contexts.RemoveUser: the user's titles are removed as a batch (`Challenges.PurgeTitles`), which drops every occurrence, while `remove_title` drops only the first one from each list. They agree on pools without repeated titles, which the invariant guarantees (`Invariants.RemoveUserOneByOne`). On a pool list with repeats the code leaves the later copies and the model does not.
- `start_round` and `reroll` in `bot.py` format the pool row object into the "Not enough titles" message. The model carries the requested pool name instead.
- Store models one guild, and every user a command mentions is assumed registered. `fetch_or_insert` would create them.
- Store.RemoveUser: before the first round the participant row is deleted, and the model states that as a set of rows. It does not claim that the other rows keep their order.
- Rounds.StartRound: the draw uses `rng(k)` for the k-th `randrange`. Which titles are drawn is stated only up to the multiset, because Python's random choices are not modelled.
- Store.Reroll: `random.choice` is `pick % n` over the unused titles in table order. This relies on the store returning rows in insertion order.
- `test.py`, the HTML profile renderer, `json2sql` and the third-party title-info scrapers are not part of this model.

## Findings

| source | as written | input that shows it | evidently intended | confidence | as-written member | corrected member |
|---|---|---|---|---|---|---|
| bot.py:203-214 | each row updates its own copy of the proposer's user, read before the loop, so a proposer of several rated titles keeps only the last row's gain | watchers 1 and 2 rate titles of proposer 3 with 8 and 6; proposer 3 ends with 6 instead of 14 | every row's delta adds to the proposer's karma; the watcher bonus, being part of each row's delta, is then counted once per rolled title the proposer proposed, rated or not | high, not executed | Store.EndRoundOf / Karma.LostUpdateExample | Store.EndRoundIntended / Store.EndRoundKarma |
| bot.py:208 | `roll_by_watcher[proposer.id]` raises KeyError when the proposer has no roll this round | a rolled title whose proposer failed in an earlier round (so got no roll) | no watcher bonus for a proposer without a roll | high, not executed | Karma.AsWrittenFails / Karma.MissingOwnRollExample | Karma.RowDelta / Store.EndRoundAgrees |
| cogs.py:454-456 | the index is capped at `len(karma_urls)`, one past the last picture | karma 1000 gives index 10 and IndexError; karma -50 wraps to picture 9 | cap at the last picture and start at the first | high, not executed | Commands.KarmaImageAsWritten / Commands.KarmaImageAsWrittenRange | Commands.KarmaImage / Commands.KarmaImageProperties |
| cogs.py:542-547 | `score < 0.0 or score > 10.0` is false for NaN, so `float('nan')` passes as a score | `!rate nan` | only scores from 0 to 10 are stored | medium, not executed | Commands.CheckScoreAsWritten / Commands.CheckScoreAcceptsNaN | Commands.CheckScore / Commands.CheckScoreAgrees |

=== FILE: challenges.dfy ===
/** The per-challenge state of challenge.py: rounds, rolls, the title registry,
    the pools and the participant roster, with the `Challenge` class's checks. */
module Challenges {
  import opened Results
  import opened Seqs
  import opened Pools

  /** A chat user's numeric id. */
  type UserId = int

  /** `TitleInfo`: who proposed a title, and its link (`None` when absent). */
  datatype TitleInfo = TitleInfo(proposer: UserId, url: Option<string>)

  /** `RollInfo`: the title a participant must watch and the score they gave it. */
  datatype RollInfo = RollInfo(title: string, score: Option<real>)

  /** `Round`: one roll per participant, the time window and whether it was ended. */
  datatype Round = Round(rolls: map<UserId, RollInfo>, begin: int, end: int, isFinished: bool)

  /** One entry of the `pools` dictionary, which keeps insertion order. */
  datatype PoolEntry = PoolEntry(name: string, pool: Pool)

  /** `Challenge`; `failed` maps a failed participant to the index of the round
      they failed in. */
  datatype Challenge = Challenge(
    participants: seq<UserId>,
    failed: map<UserId, nat>,
    titles: map<string, TitleInfo>,
    pools: seq<PoolEntry>,
    rounds: seq<Round>,
    channelId: int)

  /** The keys of the `pools` dictionary, in order. */
  function PoolNames(pools: seq<PoolEntry>): (r: seq<string>)
    ensures |r| == |pools|
    ensures forall k :: 0 <= k < |pools| ==> r[k] == pools[k].name
  {
    seq(|pools|, k requires 0 <= k < |pools| => pools[k].name)
  }

  /** Position of the pool called `name`. */
  function PoolIndex(pools: seq<PoolEntry>, name: string): (r: Option<nat>)
    ensures r.None? <==> name !in PoolNames(pools)
    ensures r.Some? ==> r.value < |pools| && pools[r.value].name == name
  {
    var r := FindIndex(pools, (e: PoolEntry) => e.name == name);
    assert r.Some? ==> PoolNames(pools)[r.value] == name;
    r
  }

  /** `pool`: looks a pool up by name. */
  function FindPool(c: Challenge, name: string): (r: Result<Pool>)
    ensures r.Err? <==> name !in PoolNames(c.pools)
    ensures r.Err? ==> r.error == PoolNotFound(name)
    ensures r.Ok? ==> PoolEntry(name, r.value) in c.pools
  {
    match PoolIndex(c.pools, name)
    case None => Err(PoolNotFound(name))
    case Some(k) => Ok(c.pools[k].pool)
  }

  /** Replaces the pool at position `k`, keeping its name. */
  function SetPool(pools: seq<PoolEntry>, k: nat, p: Pool): (r: seq<PoolEntry>)
    requires k < |pools|
    ensures PoolNames(r) == PoolNames(pools)
    ensures |r| == |pools| && r[k].pool == p
    ensures forall j :: 0 <= j < |pools| && j != k ==> r[j] == pools[j]
  {
    pools[k := PoolEntry(pools[k].name, p)]
  }

  /** `add_pool`: a new empty pool under a fresh name. */
  function AddPool(c: Challenge, name: string): (r: Result<Challenge>)
    ensures r.Err? <==> name in PoolNames(c.pools)
    ensures r.Err? ==> r.error == PoolExists(name)
    ensures r.Ok? ==> PoolNames(r.value.pools) == PoolNames(c.pools) + [name]
    ensures r.Ok? ==> r.value.pools[|c.pools|].pool == Empty
    ensures r.Ok? ==> r.value.pools[..|c.pools|] == c.pools
    ensures r.Ok? ==> r.value == c.(pools := r.value.pools)
  {
    if name in PoolNames(c.pools) then Err(PoolExists(name))
    else Ok(c.(pools := c.pools + [PoolEntry(name, Empty)]))
  }

  /** `add_title`: registers a title under a new name and puts it in a pool. */
  function AddTitle(c: Challenge, pool: string, name: string, info: TitleInfo): (r: Result<Challenge>)
    ensures r.Err? <==> name in c.titles || pool !in PoolNames(c.pools)
    ensures name in c.titles ==> r == Err(TitleExists(name))
    ensures name !in c.titles && pool !in PoolNames(c.pools) ==> r == Err(PoolNotFound(pool))
    ensures r.Ok? ==> r.value.titles == c.titles[name := info]
    ensures r.Ok? ==> PoolNames(r.value.pools) == PoolNames(c.pools)
    ensures r.Ok? ==> var k := PoolIndex(c.pools, pool).value;
      r.value.pools[k].pool == Add(c.pools[k].pool, name)
      && forall j :: 0 <= j < |c.pools| && j != k ==> r.value.pools[j] == c.pools[j]
    ensures r.Ok? ==> r.value == c.(titles := r.value.titles, pools := r.value.pools)
  {
    if name in c.titles then Err(TitleExists(name))
    else match PoolIndex(c.pools, pool)
      case None => Err(PoolNotFound(pool))
      case Some(k) =>
        Ok(c.(titles := c.titles[name := info], pools := SetPool(c.pools, k, Add(c.pools[k].pool, name))))
  }

  /** `add_participant`: joins a user who is not yet in the roster. */
  function AddParticipant(c: Challenge, u: UserId): (r: Result<Challenge>)
    ensures r.Err? <==> u in c.participants
    ensures r.Err? ==> r.error == AlreadyParticipating(u)
    ensures r.Ok? ==> r.value == c.(participants := c.participants + [u])
    ensures r.Ok? && NoDup(c.participants) ==> NoDup(r.value.participants)
  {
    if u in c.participants then Err(AlreadyParticipating(u))
    else Ok(c.(participants := c.participants + [u]))
  }

  /** `last_round`: the last round, provided one exists and it is still open. */
  function LastRound(c: Challenge): (r: Result<Round>)
    ensures |c.rounds| == 0 ==> r == Err(NoRound)
    ensures |c.rounds| > 0 && c.rounds[|c.rounds| - 1].isFinished ==> r == Err(RoundFinished)
    ensures r.Ok? <==> |c.rounds| > 0 && !c.rounds[|c.rounds| - 1].isFinished
    ensures r.Ok? ==> r.value == c.rounds[|c.rounds| - 1]
  {
    if |c.rounds| == 0 then Err(NoRound)
    else if c.rounds[|c.rounds| - 1].isFinished then Err(RoundFinished)
    else Ok(c.rounds[|c.rounds| - 1])
  }

  /** `check_not_started`: pools, titles and participants are frozen once a
      round exists. */
  function CheckNotStarted(c: Challenge): (r: Outcome)
    ensures r.Pass? <==> |c.rounds| == 0
    ensures r.Fail? ==> r.error == ChallengeStarted
  {
    if |c.rounds| != 0 then Fail(ChallengeStarted) else Pass
  }

  /** `check_participant`: the user is in the roster and has not failed. */
  function CheckParticipant(c: Challenge, u: UserId): (r: Outcome)
    ensures r.Pass? <==> u in c.participants && u !in c.failed
    ensures u !in c.participants ==> r == Fail(NotParticipating(u))
    ensures u in c.participants && u in c.failed ==> r == Fail(HasFailed(u))
  {
    if u !in c.participants then Fail(NotParticipating(u))
    else if u in c.failed then Fail(HasFailed(u))
    else Pass
  }

  /** The participants who have not failed, in roster order. */
  function Active(ps: seq<UserId>, failed: map<UserId, nat>): (r: seq<UserId>)
    ensures forall u :: u in r <==> u in ps && u !in failed
    ensures NoDup(ps) ==> NoDup(r)
    ensures |r| <= |ps|
    ensures r == Without(ps, failed.Keys)
  {
    if |ps| == 0 then []
    else
      assert NoDup(ps) ==> NoDup(ps[1..]) && ps[0] !in ps[1..];
      var rest := Active(ps[1..], failed);
      if ps[0] in failed then rest else [ps[0]] + rest
  }

  /** `dict(zip(ps, map(RollInfo, ts)))`: every participant gets one of the
      titles and no score. */
  function ZipRolls(ps: seq<UserId>, ts: seq<string>): (r: map<UserId, RollInfo>)
    requires |ps| == |ts|
    ensures forall u :: u in r <==> u in ps
    ensures forall u :: u in r ==> r[u].score.None? && r[u].title in ts
  {
    if |ps| == 0 then map[]
    else
      var n := |ps| - 1;
      assert ps == ps[..n] + [ps[n]];
      ZipRolls(ps[..n], ts[..n])[ps[n] := RollInfo(ts[n], None)]
  }

  /** With distinct participants, the k-th participant gets the k-th title
      (a repeated participant would keep the later one). */
  lemma ZipRollsAt(ps: seq<UserId>, ts: seq<string>)
    requires |ps| == |ts| && NoDup(ps)
    ensures forall k :: 0 <= k < |ps| ==> ZipRolls(ps, ts)[ps[k]] == RollInfo(ts[k], None)
  {
    forall k | 0 <= k < |ps| ensures ZipRolls(ps, ts)[ps[k]] == RollInfo(ts[k], None) {
      ZipRollsGet(ps, ts, k);
    }
  }

  /** The k-th participant's roll survives the later writes. */
  lemma {:induction false} ZipRollsGet(ps: seq<UserId>, ts: seq<string>, k: nat)
    requires |ps| == |ts| && NoDup(ps) && k < |ps|
    ensures ZipRolls(ps, ts)[ps[k]] == RollInfo(ts[k], None)
    decreases |ps|
  {
    var n := |ps| - 1;
    if k < n {
      NoDupPrefix(ps, n);
      ZipRollsGet(ps[..n], ts[..n], k);
      assert ps[..n][k] == ps[k] && ts[..n][k] == ts[k];
      assert ps[k] != ps[n];
    }
  }

  lemma NoDupPrefix(ps: seq<UserId>, n: nat)
    requires NoDup(ps) && n <= |ps|
    ensures NoDup(ps[..n])
  {
  }

  /** With distinct participants and distinct titles, no two rolls of
      `ZipRolls` share a title, and every assigned title is one of `ts`. */
  lemma ZipRollsDistinct(ps: seq<UserId>, ts: seq<string>)
    requires |ps| == |ts| && NoDup(ps) && NoDup(ts)
    ensures forall u, v :: u in ZipRolls(ps, ts) && v in ZipRolls(ps, ts) && u != v ==>
      ZipRolls(ps, ts)[u].title != ZipRolls(ps, ts)[v].title
  {
    var r := ZipRolls(ps, ts);
    forall u, v | u in r && v in r && u != v
      ensures r[u].title != r[v].title
    {
      assert u in ps && v in ps;
      var a :| 0 <= a < |ps| && ps[a] == u;
      var b :| 0 <= b < |ps| && ps[b] == v;
      ZipRollsGet(ps, ts, a);
      ZipRollsGet(ps, ts, b);
    }
  }

  /** The pool list after `remove_title` purges one title from every pool. */
  function PurgeTitle(pools: seq<PoolEntry>, t: string): (r: seq<PoolEntry>)
    ensures PoolNames(r) == PoolNames(pools)
    ensures |r| == |pools| && forall k :: 0 <= k < |pools| ==> r[k].name == pools[k].name
    ensures forall k :: 0 <= k < |pools| ==>
      r[k].pool == Pool(RemoveFirst(pools[k].pool.allTitles, t), RemoveFirst(pools[k].pool.unusedTitles, t))
  {
    seq(|pools|, k requires 0 <= k < |pools| =>
      PoolEntry(pools[k].name,
        Pool(RemoveFirst(pools[k].pool.allTitles, t), RemoveFirst(pools[k].pool.unusedTitles, t))))
  }

  /** The pool list after a batch of titles is removed from every pool. */
  function PurgeTitles(pools: seq<PoolEntry>, ts: set<string>): (r: seq<PoolEntry>)
    ensures PoolNames(r) == PoolNames(pools)
    ensures |r| == |pools| && forall k :: 0 <= k < |pools| ==> r[k].name == pools[k].name
    ensures forall k :: 0 <= k < |pools| ==>
      r[k].pool == Pool(Without(pools[k].pool.allTitles, ts), Without(pools[k].pool.unusedTitles, ts))
  {
    seq(|pools|, k requires 0 <= k < |pools| =>
      PoolEntry(pools[k].name,
        Pool(Without(pools[k].pool.allTitles, ts), Without(pools[k].pool.unusedTitles, ts))))
  }

  /** `remove_title` called once for each title of `ts`, in that order. */
  function PurgeEach(pools: seq<PoolEntry>, ts: seq<string>): (r: seq<PoolEntry>)
    ensures PoolNames(r) == PoolNames(pools)
    decreases |ts|
  {
    if |ts| == 0 then pools else PurgeEach(PurgeTitle(pools, ts[0]), ts[1..])
  }

  /** On pools whose lists have no repeats, removing titles one at a time,
      in any order, is removing the whole batch at once. */
  lemma {:induction false} PurgeEachIsPurgeTitles(pools: seq<PoolEntry>, ts: seq<string>)
    requires forall k :: 0 <= k < |pools| ==> NoDup(pools[k].pool.allTitles) && NoDup(pools[k].pool.unusedTitles)
    ensures PurgeEach(pools, ts) == PurgeTitles(pools, set t | t in ts)
    decreases |ts|
  {
    if |ts| == 0 {
      forall k | 0 <= k < |pools| ensures PurgeTitles(pools, {})[k] == pools[k] {
        WithoutAbsent(pools[k].pool.allTitles, {});
        WithoutAbsent(pools[k].pool.unusedTitles, {});
      }
      assert (set t | t in ts) == {};
    } else {
      var t := ts[0];
      var once := PurgeTitle(pools, t);
      forall k | 0 <= k < |pools|
        ensures once[k] == PurgeTitles(pools, {t})[k]
        ensures NoDup(once[k].pool.allTitles) && NoDup(once[k].pool.unusedTitles)
      {
        RemoveFirstIsWithout(pools[k].pool.allTitles, t);
        RemoveFirstIsWithout(pools[k].pool.unusedTitles, t);
      }
      PurgeEachIsPurgeTitles(once, ts[1..]);
      var rest := set x | x in ts[1..];
      assert (set x | x in ts) == {t} + rest;
      forall k | 0 <= k < |pools|
        ensures PurgeTitles(once, rest)[k] == PurgeTitles(pools, {t} + rest)[k]
      {
        WithoutTwice(pools[k].pool.allTitles, {t}, rest);
        WithoutTwice(pools[k].pool.unusedTitles, {t}, rest);
      }
    }
  }

  /** Pool `k` is the first of `pools` whose titles include `t`. */
  predicate FirstOwner(pools: seq<PoolEntry>, t: string, k: int) {
    0 <= k < |pools| && t in pools[k].pool.allTitles && forall j :: 0 <= j < k ==> t !in pools[j].pool.allTitles
  }

  /** The loop at the end of `reroll`: the old title goes back to the unused
      list of the first pool that owns it; if none owns it nothing changes. */
  function ReturnTitle(pools: seq<PoolEntry>, t: string): (r: seq<PoolEntry>)
    ensures PoolNames(r) == PoolNames(pools)
    ensures forall k :: 0 <= k < |pools| ==> r[k].pool.allTitles == pools[k].pool.allTitles
    ensures forall k :: 0 <= k < |pools| ==>
      r[k].pool.unusedTitles == pools[k].pool.unusedTitles
      || (t in pools[k].pool.allTitles && r[k].pool.unusedTitles == pools[k].pool.unusedTitles + [t])
    ensures (forall k :: 0 <= k < |pools| ==> t !in pools[k].pool.allTitles) ==> r == pools
    ensures |r| == |pools|
    ensures forall k :: 0 <= k < |pools| && t in pools[k].pool.allTitles && (forall j :: 0 <= j < k ==> t !in pools[j].pool.allTitles) ==>
      && r[k].pool.unusedTitles == pools[k].pool.unusedTitles + [t]
      && forall j :: 0 <= j < |pools| && j != k ==> r[j] == pools[j]
    ensures forall j :: 0 <= j < |pools| ==>
      && r[j].name == pools[j].name
      && r[j].pool.unusedTitles == pools[j].pool.unusedTitles + (if FirstOwner(pools, t, j) then [t] else [])
  {
    match FindIndex(pools, (e: PoolEntry) => t in e.pool.allTitles)
    case None => pools
    case Some(k) =>
      var p := pools[k].pool;
      SetPool(pools, k, p.(unusedTitles := p.unusedTitles + [t]))
  }

  /** Every pool of the challenge keeps its unused titles among its titles. */
  ghost predicate PoolsSubset(pools: seq<PoolEntry>) {
    forall k :: 0 <= k < |pools| ==> UnusedInAll(pools[k].pool)
  }
}

=== FILE: commands.dfy ===
/** The argument checks of cogs.py's commands: the progress syntax of
    `set_progress`, the colour of `set_color`, the name of `set_name`, the
    score of `rate`, the day count of `start_round` and `extend_round`, and
    the karma picture of `profile`. A pattern anchored with `$` also matches
    before one trailing newline, as Python's `re` does; `\d` is taken to be
    an ASCII digit. */
module Commands {
  import opened Results
  import opened Seqs
  import Store

  /** The part of `s` a pattern ending in `$` must match: `s` without one
      trailing newline. */
  function Body(s: string): (r: string)
    ensures r == s || r + "\n" == s
    ensures |s| > 0 && s[|s| - 1] == '\n' ==> r == s[..|s| - 1]
  {
    if |s| > 0 && s[|s| - 1] == '\n' then s[..|s| - 1] else s
  }

  predicate IsDigit(c: char) { '0' <= c <= '9' }

  /** One or two digits: what `\d{1,2}` matches. */
  predicate IsNumeral(t: string) {
    1 <= |t| <= 2 && forall k :: 0 <= k < |t| ==> IsDigit(t[k])
  }

  /** `int(t)` for a numeral. */
  function Value(t: string): (r: nat)
    requires IsNumeral(t)
    ensures r < 100
  {
    if |t| == 1 then (t[0] - '0') as nat else 10 * ((t[0] - '0') as nat) + (t[1] - '0') as nat
  }

  /** A numeral's value, or None when `t` is not one. */
  function Num(t: string): (r: Option<nat>)
    ensures r.Some? <==> IsNumeral(t)
    ensures r.Some? ==> r.value == Value(t)
  {
    if IsNumeral(t) then Some(Value(t)) else None
  }

  /** The shortest numeral of a number below 100. */
  function Show(n: nat): (r: string)
    requires n < 100
  {
    if n < 10 then [('0' as int + n) as char]
    else [('0' as int + n / 10) as char, ('0' as int + n % 10) as char]
  }

  lemma ShowValue(n: nat)
    requires n < 100
    ensures IsNumeral(Show(n)) && Value(Show(n)) == n
  {
  }

  /** A parsed progress argument: `x/y` and `x` set the progress (and the
      total), `+x` and `+` add to it. */
  datatype Progress = SetTo(x: nat, total: Option<nat>) | AddN(n: nat)

  /** `^(\d{1,2})\/(\d{1,2})$`. */
  function Fraction(b: string): (r: Option<(nat, nat)>)
  {
    match FindIndex(b, (c: char) => c == '/')
    case None => None
    case Some(i) =>
      if IsNumeral(b[..i]) && IsNumeral(b[i + 1..]) then Some((Value(b[..i]), Value(b[i + 1..]))) else None
  }

  /** `^\+(\d{1,2})?$`, with the count 1 when the digits are absent. */
  function Increment(b: string): (r: Option<nat>)
  {
    if |b| >= 1 && b[0] == '+' then
      if |b| == 1 then Some(1) else Num(b[1..])
    else None
  }

  /** `set_progress`'s parse: the three patterns are tried in order, and no
      match raises `Invalid progress`. */
  function ParseProgress(s: string): (r: Result<Progress>)
    ensures r.Err? ==> r.error == InvalidProgress(s)
    ensures r.Ok? && r.value.SetTo? ==> r.value.x < 100 && (r.value.total.Some? ==> r.value.total.value < 100)
    ensures r.Ok? && r.value.AddN? ==> r.value.n < 100
  {
    var b := Body(s);
    match Fraction(b)
    case Some((x, y)) => Ok(SetTo(x, Some(y)))
    case None =>
      match Increment(b)
      case Some(n) => Ok(AddN(n))
      case None =>
        match Num(b)
        case Some(x) => Ok(SetTo(x, None))
        case None => Err(InvalidProgress(s))
  }

  /** `b` is two numerals around a slash at position `i`. */
  ghost predicate SlashAt(b: string, i: int) {
    0 < i < |b| && b[i] == '/' && IsNumeral(b[..i]) && IsNumeral(b[i + 1..])
  }

  /** The accepted spellings: a numeral over a numeral, `+` with or without a
      numeral, or a numeral alone (each optionally followed by a newline,
      which `Body` removes). */
  ghost predicate ProgressForm(b: string, p: Progress) {
    || (exists i :: SlashAt(b, i) && p == SetTo(Value(b[..i]), Some(Value(b[i + 1..]))))
    || (b == "+" && p == AddN(1))
    || (|b| > 1 && b[0] == '+' && IsNumeral(b[1..]) && p == AddN(Value(b[1..])))
    || (IsNumeral(b) && p == SetTo(Value(b), None))
  }

  /** The slash the fraction pattern splits at is the only one a numeral
      allows. */
  lemma FractionAt(b: string, i: int)
    requires SlashAt(b, i)
    ensures Fraction(b) == Some((Value(b[..i]), Value(b[i + 1..])))
  {
    var f := FindIndex(b, (c: char) => c == '/');
    assert f.Some?;
  }

  lemma FractionSome(b: string)
    requires Fraction(b).Some?
    ensures var i := FindIndex(b, (c: char) => c == '/').value;
      SlashAt(b, i) && Fraction(b) == Some((Value(b[..i]), Value(b[i + 1..])))
  {
  }

  /** `set_progress` accepts exactly the spellings of `ProgressForm`, with
      the values they spell. */
  lemma ParseProgressForms(s: string, p: Progress)
    ensures ParseProgress(s) == Ok(p) <==> ProgressForm(Body(s), p)
  {
    var b := Body(s);
    if Fraction(b).Some? {
      FractionSome(b);
      var i := FindIndex(b, (c: char) => c == '/').value;
      forall j | SlashAt(b, j)
        ensures j == i
      {
        FractionAt(b, j);
      }
      assert b[i] !in "+0123456789";
      assert b != "+";
      assert !IsNumeral(b) by { assert !IsDigit(b[i]); }
    } else {
      forall j | SlashAt(b, j)
        ensures false
      {
        FractionAt(b, j);
      }
      if |b| > 1 && b[0] == '+' {
        assert !IsNumeral(b) by { assert !IsDigit(b[0]); }
      }
    }
  }

  /** Rendering a progress in its shortest spelling and parsing it back
      gives it again. */
  lemma ProgressRoundTrip(p: Progress)
    requires p.SetTo? ==> p.x < 100 && (p.total.Some? ==> p.total.value < 100)
    requires p.AddN? ==> p.n < 100
    ensures ParseProgress(Render(p)) == Ok(p)
  {
    match p
    case SetTo(x, None) =>
      ShowValue(x);
      ParseProgressForms(Show(x), p);
    case SetTo(x, Some(y)) => FractionRoundTrip(x, y);
    case AddN(n) => IncrementRoundTrip(n);
  }

  lemma FractionRoundTrip(x: nat, y: nat)
    requires x < 100 && y < 100
    ensures ParseProgress(Show(x) + "/" + Show(y)) == Ok(SetTo(x, Some(y)))
  {
    ShowValue(x);
    ShowValue(y);
    var b := Show(x) + "/" + Show(y);
    var i := |Show(x)|;
    assert b[..i] == Show(x) && b[i + 1..] == Show(y);
    assert SlashAt(b, i);
    ParseProgressForms(b, SetTo(x, Some(y)));
  }

  lemma IncrementRoundTrip(n: nat)
    requires n < 100
    ensures ParseProgress("+" + Show(n)) == Ok(AddN(n))
  {
    ShowValue(n);
    var b := "+" + Show(n);
    assert b[1..] == Show(n);
    ParseProgressForms(b, AddN(n));
  }

  /** The shortest spelling of a progress. */
  function Render(p: Progress): (r: string)
    requires p.SetTo? ==> p.x < 100 && (p.total.Some? ==> p.total.value < 100)
    requires p.AddN? ==> p.n < 100
  {
    match p
    case SetTo(x, None) => Show(x)
    case SetTo(x, Some(y)) => Show(x) + "/" + Show(y)
    case AddN(n) => "+" + Show(n)
  }

  predicate IsHex(c: char) { '0' <= c <= '9' || 'a' <= c <= 'f' || 'A' <= c <= 'F' }

  /** `set_color`'s check `^#[a-fA-F0-9]{6}$`. */
  function CheckColor(color: string): (r: Outcome)
    ensures r.Fail? ==> r.error == InvalidColor(color)
  {
    var b := Body(color);
    if |b| == 7 && b[0] == '#' && forall k :: 1 <= k < 7 ==> IsHex(b[k]) then Pass else Fail(InvalidColor(color))
  }

  /** A colour passes exactly when it is `#` and six hex digits, possibly
      followed by a newline. */
  lemma CheckColorForms(color: string)
    ensures CheckColor(color).Pass? <==>
      exists h :: |h| == 6 && (forall k :: 0 <= k < 6 ==> IsHex(h[k])) && (color == "#" + h || color == "#" + h + "\n")
  {
    var b := Body(color);
    if CheckColor(color).Pass? {
      var h := b[1..];
      assert forall k :: 0 <= k < 6 ==> h[k] == b[k + 1];
      assert b == "#" + h;
    }
    forall h | |h| == 6 && (forall k :: 0 <= k < 6 ==> IsHex(h[k])) && (color == "#" + h || color == "#" + h + "\n")
      ensures CheckColor(color).Pass?
    {
      assert b == "#" + h;
      assert forall k :: 1 <= k < 7 ==> b[k] == h[k - 1];
    }
  }

  /** `set_name`'s alphabet `[0-9a-zа-яA-ZА-Я_\-]`: ASCII letters and digits,
      the Cyrillic letters from а to я and from А to Я (which leaves out ё
      and Ё), underscore and hyphen. */
  predicate NameChar(c: char) {
    || '0' <= c <= '9' || 'a' <= c <= 'z' || 'A' <= c <= 'Z'
    || 'а' <= c <= 'я' || 'А' <= c <= 'Я'
    || c == '_' || c == '-'
  }

  const MaxNameLength: nat := 32

  /** `set_name`'s checks: at most 32 characters, then one or more allowed
      characters. */
  function CheckName(name: string): (r: Outcome)
    ensures |name| > MaxNameLength ==> r == Fail(NameTooLong)
    ensures r.Fail? ==> r.error == NameTooLong || r.error == BadName
  {
    if |name| > MaxNameLength then Fail(NameTooLong)
    else
      var b := Body(name);
      if |b| > 0 && forall k :: 0 <= k < |b| ==> NameChar(b[k]) then Pass else Fail(BadName)
  }

  /** A name passes exactly when it has at most 32 characters and, but for
      one trailing newline, is a nonempty run of allowed characters. */
  lemma CheckNameForms(name: string)
    ensures CheckName(name).Pass? <==>
      |name| <= MaxNameLength &&
      exists w :: |w| > 0 && (forall k :: 0 <= k < |w| ==> NameChar(w[k])) && (name == w || name == w + "\n")
  {
    var b := Body(name);
    if CheckName(name).Pass? {
      assert name == b || name == b + "\n";
    }
    forall w | |w| > 0 && (forall k :: 0 <= k < |w| ==> NameChar(w[k])) && (name == w || name == w + "\n")
      ensures |name| <= MaxNameLength ==> CheckName(name).Pass?
    {
      if name == w {
        assert w[|w| - 1] != '\n';
      } else {
        assert name[..|name| - 1] == w;
      }
    }
  }

  /** Some names: Cyrillic is allowed, ё is not, and 33 characters are too
      many. */
  lemma CheckNameExamples()
    ensures CheckName("Вася_1").Pass?
    ensures CheckName("ёж") == Fail(BadName)
    ensures CheckName("") == Fail(BadName)
    ensures CheckName("a b") == Fail(BadName)
    ensures CheckName("abcdefghijklmnopqrstuvwxyz0123456") == Fail(NameTooLong)
  {
    assert !NameChar("ёж"[0]);
    assert !NameChar("a b"[1]);
  }

  /** What `float()` can return. */
  datatype Float = Finite(v: real) | NaN | Inf(negative: bool)

  /** Python's `f < x` and `f > x` for a float and a finite bound: every
      comparison with NaN is false. */
  predicate Below(f: Float, x: real) {
    match f
    case Finite(v) => v < x
    case NaN => false
    case Inf(negative) => negative
  }

  predicate Above(f: Float, x: real) {
    match f
    case Finite(v) => v > x
    case NaN => false
    case Inf(negative) => !negative
  }

  /** `rate`'s checks as written: `parsed` is what `float(text)` gave, None
      when it raised; the range test `score < 0.0 or score > 10.0` lets NaN
      through. */
  function CheckScoreAsWritten(text: string, parsed: Option<Float>): (r: Result<Float>)
    ensures parsed.None? ==> r == Err(NotAScore(text))
    ensures parsed.Some? ==> (r.Ok? <==> !Below(parsed.value, 0.0) && !Above(parsed.value, 10.0))
    ensures r.Ok? ==> r.value == parsed.value
    ensures r.Err? && parsed.Some? ==> r.error == InvalidScore
  {
    match parsed
    case None => Err(NotAScore(text))
    case Some(f) => if Below(f, 0.0) || Above(f, 10.0) then Err(InvalidScore) else Ok(f)
  }

  /** The check as written accepts `nan` as a score. */
  lemma CheckScoreAcceptsNaN(text: string)
    ensures CheckScoreAsWritten(text, Some(NaN)) == Ok(NaN)
  {
  }

  /** `rate`'s checks as intended: only a finite score from 0 to 10 is
      accepted. */
  function CheckScore(text: string, parsed: Option<Float>): (r: Result<real>)
    ensures parsed.None? ==> r == Err(NotAScore(text))
    ensures r.Ok? <==> parsed.Some? && parsed.value.Finite? && 0.0 <= parsed.value.v <= 10.0
    ensures r.Ok? ==> r.value == parsed.value.v
    ensures r.Err? && parsed.Some? ==> r.error == InvalidScore
  {
    match parsed
    case None => Err(NotAScore(text))
    case Some(Finite(v)) => if v < 0.0 || v > 10.0 then Err(InvalidScore) else Ok(v)
    case Some(_) => Err(InvalidScore)
  }

  /** The corrected check differs from the one as written only on NaN. */
  lemma CheckScoreAgrees(text: string, parsed: Option<Float>)
    requires parsed != Some(NaN)
    ensures CheckScore(text, parsed).Ok? <==> CheckScoreAsWritten(text, parsed).Ok?
    ensures CheckScore(text, parsed).Ok? ==> CheckScoreAsWritten(text, parsed).value == Finite(CheckScore(text, parsed).value)
    ensures CheckScore(text, parsed).Err? ==> CheckScore(text, parsed).error == CheckScoreAsWritten(text, parsed).error
  {
  }

  /** `start_round` and `extend_round` refuse fewer than one day. */
  function CheckDays(days: int): (r: Outcome)
    ensures r.Pass? <==> days >= 1
    ensures r.Fail? ==> r.error == InvalidDays
  {
    if days < 1 then Fail(InvalidDays) else Pass
  }

  /** `!extend_round`: the day count is checked before the store is touched. */
  function ExtendRoundCommand(g: Store.Guild, days: int, now: int): (r: Result<Store.Guild>)
    ensures days < 1 ==> r == Err(InvalidDays)
    ensures days >= 1 ==> r == Store.ExtendRound(g, days, now)
  {
    match CheckDays(days)
    case Fail(e) => Err(e)
    case Pass => Store.ExtendRound(g, days, now)
  }

  /** A successful `!extend_round` moves the deadline of the current
      challenge's last round at least one day later, and touches no other
      round. */
  lemma ExtendRoundLater(g: Store.Guild, days: int, now: int)
    requires ExtendRoundCommand(g, days, now).Ok?
    ensures
      var lr := Store.Latest(g.rounds, Store.CurrentRow(g).value.id).value;
      var rs := ExtendRoundCommand(g, days, now).value.rounds;
      && |rs| == |g.rounds|
      && (forall i :: 0 <= i < |g.rounds| && g.rounds[i].id == lr.id ==>
            rs[i].finish >= lr.finish + Store.SecondsPerDay)
      && (forall i :: 0 <= i < |g.rounds| && g.rounds[i].id != lr.id ==> rs[i] == g.rounds[i])
  {
  }

  /** The pictures `profile` shows for karma, from two black hearts up. */
  const KarmaUrls: seq<string> := [
    "https://i.imgur.com/wscUx1m.png",
    "https://i.imgur.com/wscUx1m.png",
    "https://i.imgur.com/oiypoFr.png",
    "https://i.imgur.com/4MOnqxX.png",
    "https://i.imgur.com/UJ8yOJ8.png",
    "https://i.imgur.com/YoGSX3q.png",
    "https://i.imgur.com/DeKg5P5.png",
    "https://i.imgur.com/byY9AfE.png",
    "https://i.imgur.com/XW4kc66.png",
    "https://i.imgur.com/3pPNCGV.png"
  ]

  /** Python's `xs[i]` on a list of length `n`: a negative index counts
      from the end. */
  function PyIndex(n: nat, i: int): (r: Result<nat>)
    ensures r.Ok? <==> -(n as int) <= i < n
    ensures r.Ok? ==> r.value < n && (r.value == i || r.value == i + n)
    ensures r.Err? ==> r.error == IndexOutOfRange
  {
    if -(n as int) <= i < n then Ok(if i < 0 then i + n else i) else Err(IndexOutOfRange)
  }

  /** The picture index as written: `floor(karma / 100)` capped at the
      list's length, which is one past its last index. */
  function KarmaImageAsWritten(karma: real): (r: Result<nat>)
    ensures r.Ok? ==> r.value < |KarmaUrls|
  {
    var idx := (karma / 100.0).Floor;
    PyIndex(|KarmaUrls|, if idx < |KarmaUrls| then idx else |KarmaUrls|)
  }

  /** The index as written works exactly for karma from -1000 up to but not
      including 1000; from 1000 on it raises IndexError, and a negative
      karma wraps to the top pictures. */
  lemma KarmaImageAsWrittenRange(karma: real)
    ensures KarmaImageAsWritten(karma).Ok? <==> -1000.0 <= karma < 1000.0
    ensures 0.0 <= karma < 1000.0 ==> KarmaImageAsWritten(karma) == Ok((karma / 100.0).Floor as nat)
    ensures KarmaImageAsWritten(1000.0) == Err(IndexOutOfRange)
    ensures KarmaImageAsWritten(-50.0) == Ok(9)
  {
    var idx := (karma / 100.0).Floor;
    assert idx as real <= karma / 100.0 < idx as real + 1.0;
    assert (1000.0 / 100.0).Floor == 10;
    assert (-50.0 / 100.0).Floor == -1;
  }

  /** The index as intended: `floor(karma / 100)` clamped to the list. */
  function KarmaImage(karma: real): (r: nat)
  {
    var idx := (karma / 100.0).Floor;
    if idx < 0 then 0 else if idx >= |KarmaUrls| then |KarmaUrls| - 1 else idx
  }

  /** The clamped index always names a picture, rises with karma, and agrees
      with the index as written wherever karma is from 0 to below 1000. */
  lemma KarmaImageProperties(karma: real, other: real)
    ensures KarmaImage(karma) < |KarmaUrls|
    ensures karma <= other ==> KarmaImage(karma) <= KarmaImage(other)
    ensures 0.0 <= karma < 1000.0 ==> KarmaImageAsWritten(karma) == Ok(KarmaImage(karma))
    ensures karma >= 1000.0 ==> KarmaImage(karma) == |KarmaUrls| - 1
    ensures karma < 0.0 ==> KarmaImage(karma) == 0
  {
    KarmaImageAsWrittenRange(karma);
    var a := (karma / 100.0).Floor;
    var b := (other / 100.0).Floor;
    assert a as real <= karma / 100.0 < a as real + 1.0;
    assert b as real <= other / 100.0 < b as real + 1.0;
    if karma <= other {
      assert karma / 100.0 <= other / 100.0;
      assert a <= b;
    }
  }
}

=== FILE: contexts.dfy ===
/** The guild-wide context of challenge.py: known users, every challenge by
    name, and at most one current challenge, with the commands that manage the
    challenge lifecycle, pools, participants and titles. */
module Contexts {
  import opened Results
  import opened Seqs
  import opened Pools
  import opened Challenges

  /** `UserInfo`: display name and colour. */
  datatype UserInfo = UserInfo(name: string, color: string)

  /** Colour given to a user on first registration. */
  const DefaultColor: string := "#FFFFFF"

  /** Name of the pool every challenge starts with and rounds draw from. */
  const MainPool: string := "main"

  datatype Context = Context(
    users: map<UserId, UserInfo>,
    challenges: map<string, Challenge>,
    current: Option<string>)

  /** The current challenge's name resolves. */
  predicate HasCurrent(ctx: Context) {
    ctx.current.Some? && ctx.current.value in ctx.challenges
  }

  /** The current challenge. */
  function Cur(ctx: Context): Challenge
    requires HasCurrent(ctx)
  {
    ctx.challenges[ctx.current.value]
  }

  /** `current`: fails when no challenge is current; an unknown name is the
      dictionary's KeyError. */
  function Current(ctx: Context): (r: Result<Challenge>)
    ensures ctx.current.None? ==> r == Err(NoChallenge)
    ensures ctx.current.Some? && ctx.current.value !in ctx.challenges ==> r == Err(KeyMissing)
    ensures r.Ok? <==> HasCurrent(ctx)
    ensures r.Ok? ==> r.value == Cur(ctx)
  {
    match ctx.current
    case None => Err(NoChallenge)
    case Some(n) => if n in ctx.challenges then Ok(ctx.challenges[n]) else Err(KeyMissing)
  }

  /** Stores `c` as the current challenge. */
  function Update(ctx: Context, c: Challenge): (r: Context)
    requires ctx.current.Some?
    ensures HasCurrent(r) && Cur(r) == c
  {
    ctx.(challenges := ctx.challenges[ctx.current.value := c])
  }

  /** `ctx'` differs from `ctx` in the current challenge at most. */
  ghost predicate OnlyCurrent(ctx: Context, ctx': Context) {
    HasCurrent(ctx) && HasCurrent(ctx') && ctx' == Update(ctx, Cur(ctx'))
  }

  /** `start_challenge`: opens a new challenge holding just an empty main pool. */
  function StartChallenge(ctx: Context, name: string, channelId: int): (r: Result<Context>)
    ensures ctx.current.Some? ==> r == Err(FinishChallengeFirst(ctx.current.value))
    ensures ctx.current.None? && name in ctx.challenges ==> r == Err(ChallengeExists(name))
    ensures r.Ok? <==> ctx.current.None? && name !in ctx.challenges
    ensures r.Ok? ==> r.value.current == Some(name) && r.value.users == ctx.users
    ensures r.Ok? ==> r.value.challenges.Keys == ctx.challenges.Keys + {name}
    ensures r.Ok? ==> forall n :: n in ctx.challenges ==> r.value.challenges[n] == ctx.challenges[n]
    ensures r.Ok? ==> var c := r.value.challenges[name];
      c.pools == [PoolEntry(MainPool, Empty)] && c.participants == [] && c.failed == map[]
      && c.titles == map[] && c.rounds == [] && c.channelId == channelId
  {
    if ctx.current.Some? then Err(FinishChallengeFirst(ctx.current.value))
    else if name in ctx.challenges then Err(ChallengeExists(name))
    else
      var c := Challenge([], map[], map[], [PoolEntry(MainPool, Empty)], [], channelId);
      Ok(ctx.(challenges := ctx.challenges[name := c], current := Some(name)))
  }

  /** `add_pool` on the current challenge, before it has started. */
  function AddPool(ctx: Context, name: string): (r: Result<Context>)
    ensures Current(ctx).Err? ==> r == Err(Current(ctx).error)
    ensures HasCurrent(ctx) && |Cur(ctx).rounds| != 0 ==> r == Err(ChallengeStarted)
    ensures HasCurrent(ctx) && |Cur(ctx).rounds| == 0 ==>
      (r.Err? <==> name in PoolNames(Cur(ctx).pools))
    ensures r.Ok? ==> OnlyCurrent(ctx, r.value) && Challenges.AddPool(Cur(ctx), name) == Ok(Cur(r.value))
  {
    match Current(ctx)
    case Err(e) => Err(e)
    case Ok(c) =>
      match CheckNotStarted(c)
      case Fail(e) => Err(e)
      case Pass =>
        match Challenges.AddPool(c, name)
        case Err(e) => Err(e)
        case Ok(c') => Ok(Update(ctx, c'))
  }

  /** `remove_pool` on the current challenge, before it has started. */
  function RemovePool(ctx: Context, name: string): (r: Result<Context>)
    ensures Current(ctx).Err? ==> r == Err(Current(ctx).error)
    ensures HasCurrent(ctx) && |Cur(ctx).rounds| != 0 ==> r == Err(ChallengeStarted)
    ensures HasCurrent(ctx) && |Cur(ctx).rounds| == 0 && name !in PoolNames(Cur(ctx).pools) ==>
      r == Err(PoolDoesNotExist(name))
    ensures r.Ok? <==> HasCurrent(ctx) && |Cur(ctx).rounds| == 0 && name in PoolNames(Cur(ctx).pools)
    ensures r.Ok? ==> OnlyCurrent(ctx, r.value)
    ensures r.Ok? ==> var k := PoolIndex(Cur(ctx).pools, name).value;
      Cur(r.value) == Cur(ctx).(pools := Cur(ctx).pools[..k] + Cur(ctx).pools[k + 1..])
  {
    match Current(ctx)
    case Err(e) => Err(e)
    case Ok(c) =>
      match CheckNotStarted(c)
      case Fail(e) => Err(e)
      case Pass =>
        match PoolIndex(c.pools, name)
        case None => Err(PoolDoesNotExist(name))
        case Some(k) => Ok(Update(ctx, c.(pools := c.pools[..k] + c.pools[k + 1..])))
  }

  /** `add_user`: registers the user with the default colour if unknown (this
      happens first, so it survives a failure of the checks that follow), then
      joins them to the current challenge before it has started. The result is
      the context after the call and whether the call raised. */
  function AddUser(ctx: Context, u: UserId, name: string): (r: (Context, Outcome))
    ensures u in r.0.users
    ensures r.0.users == (if u in ctx.users then ctx.users else ctx.users[u := UserInfo(name, DefaultColor)])
    ensures r.1.Fail? ==> r.0.challenges == ctx.challenges && r.0.current == ctx.current
    ensures Current(ctx).Err? ==> r.1 == Fail(Current(ctx).error)
    ensures HasCurrent(ctx) && |Cur(ctx).rounds| != 0 ==> r.1 == Fail(ChallengeStarted)
    ensures r.1.Pass? <==> HasCurrent(ctx) && |Cur(ctx).rounds| == 0 && u !in Cur(ctx).participants
    ensures r.1.Pass? ==>
      && r.0.current == ctx.current && HasCurrent(r.0)
      && r.0.challenges == ctx.challenges[ctx.current.value := Cur(r.0)]
      && Cur(r.0) == Cur(ctx).(participants := Cur(ctx).participants + [u])
  {
    var ctx1 := if u in ctx.users then ctx else ctx.(users := ctx.users[u := UserInfo(name, DefaultColor)]);
    match Current(ctx1)
    case Err(e) => (ctx1, Fail(e))
    case Ok(c) =>
      match CheckNotStarted(c)
      case Fail(e) => (ctx1, Fail(e))
      case Pass =>
        match AddParticipant(c, u)
        case Err(e) => (ctx1, Fail(e))
        case Ok(c') => (Update(ctx1, c'), Pass)
  }

  /** The titles `u` proposed in `c`. */
  function TitlesOf(c: Challenge, u: UserId): (r: set<string>)
    ensures forall t :: t in r <==> t in c.titles && c.titles[t].proposer == u
  {
    set t | t in c.titles && c.titles[t].proposer == u
  }

  /** `remove_user` before the challenge has started: deletes every title the
      user proposed (from the registry and from every pool), then the user. */
  function RemoveUser(ctx: Context, u: UserId): (r: Result<Context>)
    ensures Current(ctx).Err? ==> r == Err(Current(ctx).error)
    ensures HasCurrent(ctx) && |Cur(ctx).rounds| != 0 ==> r == Err(ChallengeStarted)
    ensures HasCurrent(ctx) && |Cur(ctx).rounds| == 0 ==>
      r.Err? == CheckParticipant(Cur(ctx), u).Fail?
      && (r.Err? ==> r.error == CheckParticipant(Cur(ctx), u).error)
    ensures r.Ok? ==> OnlyCurrent(ctx, r.value)
    ensures r.Ok? ==> var c, c' := Cur(ctx), Cur(r.value);
      && c'.titles.Keys == c.titles.Keys - TitlesOf(c, u)
      && (forall t :: t in c'.titles ==> c'.titles[t] == c.titles[t] && c'.titles[t].proposer != u)
      && |c'.pools| == |c.pools|
      && (forall k, t :: 0 <= k < |c'.pools| && t in TitlesOf(c, u) ==>
            t !in c'.pools[k].pool.allTitles && t !in c'.pools[k].pool.unusedTitles)
      && c'.participants == RemoveFirst(c.participants, u)
      && c' == c.(titles := c'.titles, pools := c'.pools, participants := c'.participants)
  {
    match Current(ctx)
    case Err(e) => Err(e)
    case Ok(c) =>
      match CheckNotStarted(c)
      case Fail(e) => Err(e)
      case Pass =>
        match CheckParticipant(c, u)
        case Fail(e) => Err(e)
        case Pass =>
          var ts := TitlesOf(c, u);
          Ok(Update(ctx, c.(titles := c.titles - ts,
                            pools := PurgeTitles(c.pools, ts),
                            participants := RemoveFirst(c.participants, u))))
  }

  /** `add_title` for a proposer who is an active participant, before the
      challenge has started. */
  function AddTitle(ctx: Context, pool: string, proposer: UserId, name: string, url: Option<string>): (r: Result<Context>)
    ensures Current(ctx).Err? ==> r == Err(Current(ctx).error)
    ensures HasCurrent(ctx) && |Cur(ctx).rounds| != 0 ==> r == Err(ChallengeStarted)
    ensures HasCurrent(ctx) && |Cur(ctx).rounds| == 0 && CheckParticipant(Cur(ctx), proposer).Fail? ==>
      r == Err(CheckParticipant(Cur(ctx), proposer).error)
    ensures r.Ok? ==>
      && OnlyCurrent(ctx, r.value)
      && CheckParticipant(Cur(ctx), proposer).Pass?
      && Challenges.AddTitle(Cur(ctx), pool, name, TitleInfo(proposer, url)) == Ok(Cur(r.value))
    ensures HasCurrent(ctx) && |Cur(ctx).rounds| == 0 && CheckParticipant(Cur(ctx), proposer).Pass? ==>
      r.Err? == Challenges.AddTitle(Cur(ctx), pool, name, TitleInfo(proposer, url)).Err?
  {
    match Current(ctx)
    case Err(e) => Err(e)
    case Ok(c) =>
      match CheckNotStarted(c)
      case Fail(e) => Err(e)
      case Pass =>
        match CheckParticipant(c, proposer)
        case Fail(e) => Err(e)
        case Pass =>
          match Challenges.AddTitle(c, pool, name, TitleInfo(proposer, url))
          case Err(e) => Err(e)
          case Ok(c') => Ok(Update(ctx, c'))
  }

  /** `remove_title` before the challenge has started: drops the title from
      the registry and from every pool's lists. */
  function RemoveTitle(ctx: Context, name: string): (r: Result<Context>)
    ensures Current(ctx).Err? ==> r == Err(Current(ctx).error)
    ensures HasCurrent(ctx) && |Cur(ctx).rounds| != 0 ==> r == Err(ChallengeStarted)
    ensures HasCurrent(ctx) && |Cur(ctx).rounds| == 0 && name !in Cur(ctx).titles ==>
      r == Err(TitleDoesNotExist(name))
    ensures r.Ok? <==> HasCurrent(ctx) && |Cur(ctx).rounds| == 0 && name in Cur(ctx).titles
    ensures r.Ok? ==> OnlyCurrent(ctx, r.value)
    ensures r.Ok? ==> var c, c' := Cur(ctx), Cur(r.value);
      c'.titles == c.titles - {name} && c' == c.(titles := c'.titles, pools := PurgeTitle(c.pools, name))
  {
    match Current(ctx)
    case Err(e) => Err(e)
    case Ok(c) =>
      match CheckNotStarted(c)
      case Fail(e) => Err(e)
      case Pass =>
        if name !in c.titles then Err(TitleDoesNotExist(name))
        else Ok(Update(ctx, c.(titles := c.titles - {name}, pools := PurgeTitle(c.pools, name))))
  }
}

=== FILE: export.dfy ===
/** export.py's `sync_export`: the challenge as a sheet of columns built
    from the store's rows. The sheet is a list of columns, each a list of
    cells from the top; `ColWriter`'s cursor only ever moves down a column
    or on to the next one, which this layout records directly. */
module Export {
  import opened Results
  import opened Store
  import opened Scores
  import opened Sorting

  /** What a cell shows: a bold header, a round's header (its number and
      dates), a participant's name, a score on
      its colour, a title on its proposer's colour (struck through on red
      in the round its roller failed), or FAILED on red. */
  datatype Cell =
    | Header(text: string)
    | RoundTitle(num: int, start: int, finish: int)
    | NameCell(name: string, color: string)
    | ScoreCell(score: Option<real>, color: string)
    | TitleCell(name: string, url: Option<string>, color: string, struck: bool)
    | FailCell

  /** One entry of `users_participants`. */
  type Member = (UserRow, ParticipantRow)

  /** `ColWriter.users`: participant id to user (a later pair wins). */
  function UsersById(ups: seq<Member>): (r: map<int, UserRow>)
    ensures forall pid :: pid in r <==> exists k :: 0 <= k < |ups| && ups[k].1.id == pid
  {
    if |ups| == 0 then map[]
    else
      var n := |ups| - 1;
      var r := UsersById(ups[..n])[ups[n].1.id := ups[n].0];
      assert forall k :: 0 <= k < n ==> ups[..n][k] == ups[k];
      r
  }

  /** `roll_by_participant_id`: participant id to roll (a later roll wins). */
  function RollsById(rolls: seq<RollRow>): (r: map<int, RollRow>)
    ensures forall pid :: pid in r <==> exists k :: 0 <= k < |rolls| && rolls[k].participant == pid
    ensures forall pid :: pid in r ==> r[pid] in rolls && r[pid].participant == pid
  {
    if |rolls| == 0 then map[]
    else
      var n := |rolls| - 1;
      var r := RollsById(rolls[..n])[rolls[n].participant := rolls[n]];
      assert forall k :: 0 <= k < n ==> rolls[..n][k] == rolls[k];
      assert forall x :: x in rolls[..n] ==> x in rolls;
      r
  }

  /** `titles`: title id to title (a later title wins). */
  function TitlesById(ts: seq<TitleRow>): (r: map<int, TitleRow>)
    ensures forall id :: id in r <==> exists k :: 0 <= k < |ts| && ts[k].id == id
    ensures forall id :: id in r ==> r[id] in ts && r[id].id == id
  {
    if |ts| == 0 then map[]
    else
      var n := |ts| - 1;
      var r := TitlesById(ts[..n])[ts[n].id := ts[n]];
      assert forall k :: 0 <= k < n ==> ts[..n][k] == ts[k];
      assert forall x :: x in ts[..n] ==> x in ts;
      r
  }

  function MemberName(m: Member): string { m.0.name }

  /** The sort inside `sorted_participants`: the (user, participant) pairs
      ordered by user name, a permutation of the input that keeps input
      order among equal names (Python's sort is stable). */
  function SortedMembers(ups: seq<Member>): (r: seq<Member>)
    ensures multiset(r) == multiset(ups)
    ensures SortedBy(r, MemberName)
    ensures forall name :: WithKey(r, MemberName, name) == WithKey(ups, MemberName, name)
  {
    SortByProperties(ups, MemberName);
    SortBy(ups, MemberName)
  }

  /** `sorted_participants`: the participants of the sorted pairs. */
  function SortedParticipants(ups: seq<Member>): (r: seq<ParticipantRow>)
    ensures |r| == |ups|
    ensures forall k :: 0 <= k < |r| ==> r[k] == SortedMembers(ups)[k].1
    ensures forall k :: 0 <= k < |r| ==> exists j :: 0 <= j < |ups| && ups[j].1 == r[k]
  {
    var sorted := SortedMembers(ups);
    assert |sorted| == |multiset(sorted)| == |ups|;
    assert forall k :: 0 <= k < |sorted| ==> sorted[k] in multiset(ups);
    seq(|sorted|, k requires 0 <= k < |sorted| => sorted[k].1)
  }

  /** `write_title`: the cell of a title. The proposer's user is looked up
      even when the cell is struck through. */
  function TitleCellOf(users: map<int, UserRow>, t: TitleRow, failed: bool): (r: Result<Cell>)
    ensures r.Ok? <==> t.proposer in users
    ensures r.Err? ==> r.error == KeyMissing
    ensures r.Ok? ==> r.value == TitleCell(t.name, t.url, if failed then Red else users[t.proposer].color, failed)
  {
    if t.proposer !in users then Err(KeyMissing)
    else Ok(TitleCell(t.name, t.url, if failed then Red else users[t.proposer].color, failed))
  }

  /** A participant's cell in a round's title column. */
  function RoundCell(users: map<int, UserRow>, titles: map<int, TitleRow>, byPid: map<int, RollRow>,
                     rnd: RoundRow, p: ParticipantRow): (r: Result<Cell>)
  {
    if p.id !in byPid then Ok(FailCell)
    else if byPid[p.id].title !in titles then Err(KeyMissing)
    else TitleCellOf(users, titles[byPid[p.id].title], p.failedRound == Some(rnd.id))
  }

  /** FAILED marks exactly the participants without a roll in the round;
      a rolled title is struck through exactly in the round its roller
      failed, and the lookups of the title and of its proposer are the only
      ways the cell can fail. */
  lemma RoundCellCases(users: map<int, UserRow>, titles: map<int, TitleRow>, byPid: map<int, RollRow>,
                       rnd: RoundRow, p: ParticipantRow)
    ensures var r := RoundCell(users, titles, byPid, rnd, p);
      && (r == Ok(FailCell) <==> p.id !in byPid)
      && (r.Err? <==> p.id in byPid && (byPid[p.id].title !in titles || titles[byPid[p.id].title].proposer !in users))
      && (r.Ok? && p.id in byPid ==>
            var t := titles[byPid[p.id].title];
            && r.value.TitleCell? && r.value.name == t.name && r.value.url == t.url
            && (r.value.struck <==> p.failedRound == Some(rnd.id))
            && (r.value.color == Red || r.value.color == users[t.proposer].color))
  {
  }

  /** The cells of a round's title column below its header. */
  function RoundCells(users: map<int, UserRow>, titles: map<int, TitleRow>, byPid: map<int, RollRow>,
                      rnd: RoundRow, ps: seq<ParticipantRow>): (r: Result<seq<Cell>>)
    ensures r.Ok? <==> forall k :: 0 <= k < |ps| ==> RoundCell(users, titles, byPid, rnd, ps[k]).Ok?
    ensures r.Ok? ==> |r.value| == |ps|
    ensures r.Ok? ==> forall k :: 0 <= k < |ps| ==> r.value[k] == RoundCell(users, titles, byPid, rnd, ps[k]).value
  {
    if |ps| == 0 then Ok([])
    else
      var x :- RoundCell(users, titles, byPid, rnd, ps[0]);
      var rest :- RoundCells(users, titles, byPid, rnd, ps[1..]);
      Ok([x] + rest)
  }

  /** A participant's score in a round: the roll's score, `None` without a
      roll. */
  function ScoreIn(byPid: map<int, RollRow>, pid: int): Option<real> {
    if pid in byPid then byPid[pid].score else None
  }

  /** `write_score` cells for a list of scores. */
  function ScoreCells(scores: seq<Option<real>>): (r: seq<Cell>)
    ensures |r| == |scores|
    ensures forall k :: 0 <= k < |scores| ==> r[k] == ScoreCell(scores[k], ScoreColor(scores[k]))
  {
    seq(|scores|, k requires 0 <= k < |scores| => ScoreCell(scores[k], ScoreColor(scores[k])))
  }

  function RoundScores(byPid: map<int, RollRow>, ps: seq<ParticipantRow>): (r: seq<Option<real>>)
    ensures |r| == |ps| && forall k :: 0 <= k < |ps| ==> r[k] == ScoreIn(byPid, ps[k].id)
  {
    seq(|ps|, k requires 0 <= k < |ps| => ScoreIn(byPid, ps[k].id))
  }

  /** The `update_stats` calls of one round, down the sorted participants. */
  function RoundStats(stats: map<int, Stat>, byPid: map<int, RollRow>, ps: seq<ParticipantRow>): (r: map<int, Stat>)
    ensures AllConsistent(stats) ==> AllConsistent(r)
    decreases |ps|
  {
    if |ps| == 0 then stats
    else RoundStats(UpdateStats(stats, ps[0].id, ScoreIn(byPid, ps[0].id)), byPid, ps[1..])
  }

  /** Every entry of `stats` has its fields set together. */
  ghost predicate AllConsistent(stats: map<int, Stat>) {
    forall id :: id in stats ==> Consistent(stats[id])
  }

  ghost predicate DistinctIds(ps: seq<ParticipantRow>) {
    forall i, j :: 0 <= i < j < |ps| ==> ps[i].id != ps[j].id
  }

  /** One round's pass leaves the entries of unlisted ids alone. */
  lemma {:induction false} RoundStatsUntouched(stats: map<int, Stat>, byPid: map<int, RollRow>, ps: seq<ParticipantRow>, id: int)
    requires forall k :: 0 <= k < |ps| ==> ps[k].id != id
    ensures var r := RoundStats(stats, byPid, ps);
      (id in r <==> id in stats) && (id in stats ==> r[id] == stats[id])
    decreases |ps|
  {
    if |ps| > 0 {
      var s1 := UpdateStats(stats, ps[0].id, ScoreIn(byPid, ps[0].id));
      assert forall k :: 0 <= k < |ps[1..]| ==> ps[1..][k] == ps[k + 1];
      RoundStatsUntouched(s1, byPid, ps[1..], id);
    }
  }

  /** One round's pass touches each listed participant's entry once, with
      that participant's score, and no other entry. */
  lemma {:induction false} RoundStatsEntries(stats: map<int, Stat>, byPid: map<int, RollRow>, ps: seq<ParticipantRow>)
    requires DistinctIds(ps)
    ensures var r := RoundStats(stats, byPid, ps);
      && (forall k :: 0 <= k < |ps| ==>
            ps[k].id in r && r[ps[k].id] == Step(if ps[k].id in stats then Some(stats[ps[k].id]) else None, ScoreIn(byPid, ps[k].id)))
      && (forall id :: (forall k :: 0 <= k < |ps| ==> ps[k].id != id) ==>
            (id in r <==> id in stats) && (id in stats ==> r[id] == stats[id]))
    decreases |ps|
  {
    forall id | forall k :: 0 <= k < |ps| ==> ps[k].id != id
      ensures var r := RoundStats(stats, byPid, ps);
        (id in r <==> id in stats) && (id in stats ==> r[id] == stats[id])
    {
      RoundStatsUntouched(stats, byPid, ps, id);
    }
    if |ps| > 0 {
      var s1 := UpdateStats(stats, ps[0].id, ScoreIn(byPid, ps[0].id));
      assert DistinctIds(ps[1..]);
      RoundStatsEntries(s1, byPid, ps[1..]);
      var r := RoundStats(stats, byPid, ps);
      assert forall k :: 0 <= k < |ps[1..]| ==> ps[1..][k].id != ps[0].id;
      RoundStatsUntouched(s1, byPid, ps[1..], ps[0].id);
      forall k | 1 <= k < |ps|
        ensures ps[k].id in r && r[ps[k].id] == Step(if ps[k].id in stats then Some(stats[ps[k].id]) else None, ScoreIn(byPid, ps[k].id))
      {
        assert ps[k] == ps[1..][k - 1];
      }
    }
  }

  /** The rounds paired with their rolls, as fetched. */
  type RoundRolls = (RoundRow, seq<RollRow>)

  /** The statistics after every round. */
  function AllStats(rounds: seq<RoundRolls>, ps: seq<ParticipantRow>): (r: map<int, Stat>)
    ensures AllConsistent(r)
  {
    if |rounds| == 0 then map[]
    else
      var n := |rounds| - 1;
      RoundStats(AllStats(rounds[..n], ps), RollsById(rounds[n].1), ps)
  }

  /** A participant's score in each round. */
  function ScoresOf(rounds: seq<RoundRolls>, pid: int): (r: seq<Option<real>>)
    ensures |r| == |rounds|
    ensures forall k :: 0 <= k < |rounds| ==> r[k] == ScoreIn(RollsById(rounds[k].1), pid)
  {
    seq(|rounds|, k requires 0 <= k < |rounds| => ScoreIn(RollsById(rounds[k].1), pid))
  }

  /** With distinct participant ids, each participant's entry after all the
      rounds is `update_stats` folded over that participant's own scores,
      and no entry exists before the first round. */
  lemma {:induction false} AllStatsPerParticipant(rounds: seq<RoundRolls>, ps: seq<ParticipantRow>, k: nat)
    requires DistinctIds(ps) && k < |ps|
    ensures var r := AllStats(rounds, ps);
      (ps[k].id in r <==> |rounds| > 0) &&
      (|rounds| > 0 ==> r[ps[k].id] == Accumulate(ScoresOf(rounds, ps[k].id)).value)
    decreases |rounds|
  {
    if |rounds| > 0 {
      var n := |rounds| - 1;
      AllStatsPerParticipant(rounds[..n], ps, k);
      RoundStatsEntries(AllStats(rounds[..n], ps), RollsById(rounds[n].1), ps);
      assert ScoresOf(rounds, ps[k].id)[..n] == ScoresOf(rounds[..n], ps[k].id);
    }
  }

  /** The statistic `i` (0 min, 1 max, 2 average) of a participant, `None`
      when they have no entry. */
  function StatOf(stats: map<int, Stat>, pid: int, i: nat): (r: Option<real>)
    requires i < 3
    requires pid in stats ==> Consistent(stats[pid])
  {
    if pid !in stats then None
    else
      var f := Finalize(stats[pid]);
      if i == 0 then f.0 else if i == 1 then f.1 else f.2
  }

  /** The Min, Max and Avg columns show, for each participant, the least,
      the greatest and the mean of the scores the rounds gave them, all
      `None` when no round gave one. */
  lemma StatColumns(rounds: seq<RoundRolls>, ps: seq<ParticipantRow>, k: nat)
    requires DistinctIds(ps) && k < |ps|
    ensures
      var stats := AllStats(rounds, ps);
      var pid := ps[k].id;
      Summarizes(StatOf(stats, pid, 0), StatOf(stats, pid, 1), StatOf(stats, pid, 2), Present(ScoresOf(rounds, pid)))
  {
    var pid := ps[k].id;
    AllStatsPerParticipant(rounds, ps, k);
    if |rounds| > 0 {
      ExportedStats(ScoresOf(rounds, pid));
    }
  }

  /** The cells of a pool's column below its header: its titles that are
      not used, in order. */
  function UnusedCells(users: map<int, UserRow>, ts: seq<TitleRow>): (r: Result<seq<Cell>>)
    ensures r.Ok? <==> forall k :: 0 <= k < |ts| && !ts[k].isUsed ==> ts[k].proposer in users
    ensures r.Ok? ==> |r.value| <= |ts|
    ensures r.Ok? ==> forall c :: c in r.value ==>
      exists k :: 0 <= k < |ts| && !ts[k].isUsed && c == TitleCell(ts[k].name, ts[k].url, users[ts[k].proposer].color, false)
    ensures r.Ok? ==> forall k :: 0 <= k < |ts| && !ts[k].isUsed ==>
      TitleCell(ts[k].name, ts[k].url, users[ts[k].proposer].color, false) in r.value
  {
    if |ts| == 0 then Ok([])
    else
      var rest :- UnusedCells(users, ts[1..]);
      if ts[0].isUsed then
        Ok(rest)
      else
        var x :- TitleCellOf(users, ts[0], false);
        Ok([x] + rest)
  }

  /** The two columns of one round. */
  function RoundColumns(users: map<int, UserRow>, titles: map<int, TitleRow>, rr: RoundRolls,
                        ps: seq<ParticipantRow>): (r: Result<seq<seq<Cell>>>)
    ensures r.Ok? <==> forall k :: 0 <= k < |ps| ==> RoundCell(users, titles, RollsById(rr.1), rr.0, ps[k]).Ok?
    ensures r.Ok? ==> |r.value| == 2 && |r.value[0]| == |r.value[1]| == |ps| + 1
  {
    var byPid := RollsById(rr.1);
    var cells :- RoundCells(users, titles, byPid, rr.0, ps);
    Ok([[RoundTitle(rr.0.num, rr.0.start, rr.0.finish)] + cells, [Header("Score")] + ScoreCells(RoundScores(byPid, ps))])
  }

  /** Under the round's title and the Score header, participant `k` gets
      their title cell and the cell of their score, or of no score. */
  lemma RoundColumnsCells(users: map<int, UserRow>, titles: map<int, TitleRow>, rr: RoundRolls,
                          ps: seq<ParticipantRow>)
    requires RoundColumns(users, titles, rr, ps).Ok?
    ensures var cols := RoundColumns(users, titles, rr, ps).value;
      && cols[0][0] == RoundTitle(rr.0.num, rr.0.start, rr.0.finish) && cols[1][0] == Header("Score")
      && forall k :: 0 <= k < |ps| ==>
           && cols[0][k + 1] == RoundCell(users, titles, RollsById(rr.1), rr.0, ps[k]).value
           && cols[1][k + 1] == ScoreCell(ScoreIn(RollsById(rr.1), ps[k].id), ScoreColor(ScoreIn(RollsById(rr.1), ps[k].id)))
  {
  }

  function AllRoundColumns(users: map<int, UserRow>, titles: map<int, TitleRow>, rounds: seq<RoundRolls>,
                           ps: seq<ParticipantRow>): (r: Result<seq<seq<Cell>>>)
    ensures r.Ok? <==> forall i :: 0 <= i < |rounds| ==> RoundColumns(users, titles, rounds[i], ps).Ok?
    ensures r.Ok? ==> |r.value| == 2 * |rounds|
    ensures r.Ok? ==> forall j :: 0 <= j < |r.value| ==> |r.value[j]| == |ps| + 1
    decreases |rounds|
  {
    if |rounds| == 0 then Ok([])
    else
      RoundColumnsSplit(users, titles, rounds, ps);
      var cols :- RoundColumns(users, titles, rounds[0], ps);
      var rest :- AllRoundColumns(users, titles, rounds[1..], ps);
      Ok(cols + rest)
  }

  /** Every round's columns succeed exactly when the first round's and all
      the later rounds' do. */
  lemma RoundColumnsSplit(users: map<int, UserRow>, titles: map<int, TitleRow>, rounds: seq<RoundRolls>,
                          ps: seq<ParticipantRow>)
    requires |rounds| > 0
    ensures (forall i :: 0 <= i < |rounds| ==> RoundColumns(users, titles, rounds[i], ps).Ok?) <==>
            RoundColumns(users, titles, rounds[0], ps).Ok? &&
            (forall i :: 0 <= i < |rounds[1..]| ==> RoundColumns(users, titles, rounds[1..][i], ps).Ok?)
  {
    assert forall i :: 1 <= i < |rounds| ==> rounds[i] == rounds[1..][i - 1];
  }

  /** Round `i` fills columns `2i` and `2i + 1` of the round block. */
  lemma {:induction false} AllRoundColumnsAt(users: map<int, UserRow>, titles: map<int, TitleRow>, rounds: seq<RoundRolls>,
                                             ps: seq<ParticipantRow>, i: nat)
    requires AllRoundColumns(users, titles, rounds, ps).Ok? && i < |rounds|
    ensures RoundColumns(users, titles, rounds[i], ps).Ok?
    ensures AllRoundColumns(users, titles, rounds, ps).value[2 * i] == RoundColumns(users, titles, rounds[i], ps).value[0]
    ensures AllRoundColumns(users, titles, rounds, ps).value[2 * i + 1] == RoundColumns(users, titles, rounds[i], ps).value[1]
    decreases i
  {
    var cols := RoundColumns(users, titles, rounds[0], ps).value;
    var rest := AllRoundColumns(users, titles, rounds[1..], ps).value;
    var all := AllRoundColumns(users, titles, rounds, ps).value;
    assert all == cols + rest && |cols| == 2;
    if i > 0 {
      var j := i - 1;
      AllRoundColumnsAt(users, titles, rounds[1..], ps, j);
      assert rounds[1..][j] == rounds[i];
      PairShift(cols, rest, i, j);
    }
  }

  /** Behind a pair, the pair at `i` is the pair at `i - 1` of the rest. */
  lemma PairShift<T>(cols: seq<T>, rest: seq<T>, i: nat, j: nat)
    requires |cols| == 2 && i == j + 1 && 2 * j + 1 < |rest|
    ensures (cols + rest)[2 * i] == rest[2 * j] && (cols + rest)[2 * i + 1] == rest[2 * j + 1]
  {
  }

  function PoolColumns(users: map<int, UserRow>, pools: seq<(PoolRow, seq<TitleRow>)>): (r: Result<seq<seq<Cell>>>)
    ensures r.Ok? <==> forall j :: 0 <= j < |pools| ==> UnusedCells(users, pools[j].1).Ok?
    ensures r.Ok? ==> |r.value| == |pools|
    ensures r.Ok? ==> forall j :: 0 <= j < |pools| ==>
      r.value[j] == [Header(pools[j].0.name + " (unused titles)")] + UnusedCells(users, pools[j].1).value
    decreases |pools|
  {
    if |pools| == 0 then Ok([])
    else
      assert forall j :: 1 <= j < |pools| ==> pools[j] == pools[1..][j - 1];
      var cells :- UnusedCells(users, pools[0].1);
      var rest :- PoolColumns(users, pools[1..]);
      Ok([[Header(pools[0].0.name + " (unused titles)")] + cells] + rest)
  }

  /** The participants column: the header, then each name on its user's
      colour. */
  function NamesColumn(ups: seq<Member>, ps: seq<ParticipantRow>): (r: seq<Cell>)
    requires forall k :: 0 <= k < |ps| ==> exists j :: 0 <= j < |ups| && ups[j].1 == ps[k]
    ensures |r| == |ps| + 1 && r[0] == Header("Participants")
    ensures forall k :: 0 <= k < |ps| ==> r[k + 1] == NameCell(UsersById(ups)[ps[k].id].name, UsersById(ups)[ps[k].id].color)
  {
    var users := UsersById(ups);
    assert forall k :: 0 <= k < |ps| ==> ps[k].id in users;
    [Header("Participants")] + seq(|ps|, k requires 0 <= k < |ps| =>
      NameCell(users[ps[k].id].name, users[ps[k].id].color))
  }

  /** The Min, Max and Avg columns. */
  function StatsColumns(stats: map<int, Stat>, ps: seq<ParticipantRow>): (r: seq<seq<Cell>>)
    requires AllConsistent(stats)
    ensures |r| == 3
    ensures forall i :: 0 <= i < 3 ==> |r[i]| == |ps| + 1
    ensures forall i, k :: 0 <= i < 3 && 0 <= k < |ps| ==>
      r[i][k + 1] == ScoreCell(StatOf(stats, ps[k].id, i), ScoreColor(StatOf(stats, ps[k].id, i)))
  {
    seq(3, i requires 0 <= i < 3 =>
      [Header(["Min", "Max", "Avg"][i])] + ScoreCells(seq(|ps|, k requires 0 <= k < |ps| => StatOf(stats, ps[k].id, i))))
  }

  /** The export fails exactly when some round's roll names an unknown
      title or a title with an unknown proposer, or some pool's unused
      title has an unknown proposer. */
  lemma SyncExportSucceeds(ups: seq<Member>, rounds: seq<RoundRolls>, pools: seq<(PoolRow, seq<TitleRow>)>,
                           allTitles: seq<TitleRow>)
    ensures var users := UsersById(ups); var titles := TitlesById(allTitles); var ps := SortedParticipants(ups);
      SyncExport(ups, rounds, pools, allTitles).Ok? <==>
        && (forall i, k :: 0 <= i < |rounds| && 0 <= k < |ps| ==>
              RoundCell(users, titles, RollsById(rounds[i].1), rounds[i].0, ps[k]).Ok?)
        && (forall j, k :: 0 <= j < |pools| && 0 <= k < |pools[j].1| && !pools[j].1[k].isUsed ==>
              pools[j].1[k].proposer in users)
  {
  }

  /** `sync_export`: the participants column, two columns per round, the
      Min/Max/Avg columns and one column per pool. */
  function SyncExport(ups: seq<Member>, rounds: seq<RoundRolls>, pools: seq<(PoolRow, seq<TitleRow>)>,
                      allTitles: seq<TitleRow>): (r: Result<seq<seq<Cell>>>)
    ensures var users := UsersById(ups); var ps := SortedParticipants(ups);
      r.Ok? <==> AllRoundColumns(users, TitlesById(allTitles), rounds, ps).Ok? && PoolColumns(users, pools).Ok?
    ensures r.Ok? ==> |r.value| == 1 + 2 * |rounds| + 3 + |pools|
    ensures r.Ok? ==> forall j :: 0 <= j < 1 + 2 * |rounds| + 3 ==> |r.value[j]| == |ups| + 1
    ensures r.Ok? ==> r.value[0] == NamesColumn(ups, SortedParticipants(ups))
    ensures r.Ok? ==> forall j :: 0 <= j < 2 * |rounds| ==>
      r.value[1 + j] == AllRoundColumns(UsersById(ups), TitlesById(allTitles), rounds, SortedParticipants(ups)).value[j]
    ensures r.Ok? ==> forall i :: 0 <= i < 3 ==>
      r.value[1 + 2 * |rounds| + i] == StatsColumns(AllStats(rounds, SortedParticipants(ups)), SortedParticipants(ups))[i]
    ensures r.Ok? ==> forall j :: 0 <= j < |pools| ==>
      r.value[1 + 2 * |rounds| + 3 + j] == PoolColumns(UsersById(ups), pools).value[j]
  {
    var ps := SortedParticipants(ups);
    var users := UsersById(ups);
    var roundCols :- AllRoundColumns(users, TitlesById(allTitles), rounds, ps);
    var poolCols :- PoolColumns(users, pools);
    var names := NamesColumn(ups, ps);
    var statCols := StatsColumns(AllStats(rounds, ps), ps);
    ColumnsLayout(names, roundCols, statCols, poolCols, |rounds|, |ups| + 1);
    Ok([names] + roundCols + statCols + poolCols)
  }

  /** Where each block of `[a] + b + c + d` lands, with `n` rounds in `b`
      and the statistics in `c`, and that the first blocks are `h` cells
      high. */
  lemma ColumnsLayout<T>(a: seq<T>, b: seq<seq<T>>, c: seq<seq<T>>, d: seq<seq<T>>, n: nat, h: nat)
    requires |b| == 2 * n && |c| == 3 && |a| == h
    requires forall j :: 0 <= j < |b| ==> |b[j]| == h
    requires forall i :: 0 <= i < |c| ==> |c[i]| == h
    ensures var s := [a] + b + c + d;
      && |s| == 1 + 2 * n + 3 + |d| && s[0] == a
      && (forall j :: 0 <= j < 1 + 2 * n + 3 ==> |s[j]| == h)
      && (forall j :: 0 <= j < 2 * n ==> s[1 + j] == b[j])
      && (forall i :: 0 <= i < 3 ==> s[1 + 2 * n + i] == c[i])
      && (forall j :: 0 <= j < |d| ==> s[1 + 2 * n + 3 + j] == d[j])
  {
  }
}

=== FILE: invariants.dfy ===
/** The consistency of a challenge that every command of challenge.py keeps:
    unique pool names and participants, pools without repeats whose title
    lists do not overlap, registered titles, rolled titles that are no longer
    drawable and never shared, and an open round with a roll for exactly the
    active participants. */
module Invariants {
  import opened Results
  import opened Seqs
  import opened Pools
  import opened Challenges
  import opened Contexts
  import opened Rounds

  /** A pool's lists have no repeats and its unused titles are among its titles. */
  ghost predicate PoolOk(p: Pool) {
    NoDup(p.allTitles) && NoDup(p.unusedTitles) && UnusedInAll(p)
  }

  /** No title belongs to two pools. */
  ghost predicate Disjoint(pools: seq<PoolEntry>) {
    forall j, k, t ::
      0 <= j < |pools| && 0 <= k < |pools| && t in pools[j].pool.allTitles && t in pools[k].pool.allTitles
      ==> j == k
  }

  /** Unique pool names, well-formed pools, no shared titles. */
  ghost predicate PoolsOk(pools: seq<PoolEntry>) {
    && NoDup(PoolNames(pools))
    && (forall k :: 0 <= k < |pools| ==> PoolOk(pools[k].pool))
    && Disjoint(pools)
  }

  /** Every title in a pool is in the title registry. */
  ghost predicate Registered(c: Challenge) {
    forall k, t :: 0 <= k < |c.pools| && t in c.pools[k].pool.allTitles ==> t in c.titles
  }

  /** A title some roll assigns cannot be drawn again. */
  ghost predicate RollsDrawn(c: Challenge) {
    forall i, u, k :: 0 <= i < |c.rounds| && u in c.rounds[i].rolls && 0 <= k < |c.pools| ==>
      c.rounds[i].rolls[u].title !in c.pools[k].pool.unusedTitles
  }

  /** No two rolls, in the same round or in different ones, share a title. */
  ghost predicate RollsDistinct(c: Challenge) {
    forall i, j, u, v ::
      && 0 <= i < |c.rounds| && 0 <= j < |c.rounds| && u in c.rounds[i].rolls && v in c.rounds[j].rolls
      && (i != j || u != v)
      ==> c.rounds[i].rolls[u].title != c.rounds[j].rolls[v].title
  }

  /** The open round holds a roll for exactly the active participants. */
  ghost predicate OpenRollsActive(c: Challenge) {
    HasOpenRound(c) ==> Open(c).rolls.Keys == set u | u in c.participants && u !in c.failed
  }

  ghost predicate Inv(c: Challenge) {
    && NoDup(c.participants)
    && PoolsOk(c.pools)
    && Registered(c)
    && RollsDrawn(c)
    && RollsDistinct(c)
    && OpenRollsActive(c)
  }

  /** The current name resolves and every challenge is consistent. */
  ghost predicate Valid(ctx: Context) {
    && (ctx.current.Some? ==> ctx.current.value in ctx.challenges)
    && forall n :: n in ctx.challenges ==> Inv(ctx.challenges[n])
  }

  /** Replacing the current challenge by a consistent one keeps the context valid. */
  lemma ValidUpdate(ctx: Context, ctx': Context)
    requires Valid(ctx) && OnlyCurrent(ctx, ctx') && Inv(Cur(ctx'))
    ensures Valid(ctx')
  {
  }

  /** Before the first round only the roster and pool parts of `Inv` say anything. */
  lemma NotStartedInv(c: Challenge)
    requires |c.rounds| == 0 && NoDup(c.participants) && PoolsOk(c.pools) && Registered(c)
    ensures Inv(c)
  {
  }

  /** Pools whose title lists are unchanged keep `Disjoint` and `Registered`. */
  lemma SameTitleLists(c: Challenge, c': Challenge)
    requires |c'.pools| == |c.pools| && c'.titles == c.titles
    requires forall k :: 0 <= k < |c.pools| ==> c'.pools[k].pool.allTitles == c.pools[k].pool.allTitles
    ensures Disjoint(c.pools) ==> Disjoint(c'.pools)
    ensures Registered(c) ==> Registered(c')
  {
  }

  /** A valid context's current challenge is consistent. */
  lemma ValidCur(ctx: Context)
    requires Valid(ctx) && HasCurrent(ctx)
    ensures Inv(Cur(ctx))
  {
  }

  lemma StartChallengeValid(ctx: Context, name: string, channelId: int)
    requires Valid(ctx)
    ensures StartChallenge(ctx, name, channelId).Ok? ==> Valid(StartChallenge(ctx, name, channelId).value)
  {
    if StartChallenge(ctx, name, channelId).Ok? {
      var ctx' := StartChallenge(ctx, name, channelId).value;
      var c := ctx'.challenges[name];
      assert PoolNames(c.pools) == [MainPool];
      NotStartedInv(c);
    }
  }

  lemma AddPoolValid(ctx: Context, name: string)
    requires Valid(ctx)
    ensures Contexts.AddPool(ctx, name).Ok? ==> Valid(Contexts.AddPool(ctx, name).value)
  {
    if Contexts.AddPool(ctx, name).Ok? {
      ValidCur(ctx);
      AddPoolInv(Cur(ctx), name);
      ValidUpdate(ctx, Contexts.AddPool(ctx, name).value);
    }
  }

  /** A new empty pool under a fresh name keeps a challenge without rounds
      consistent. */
  lemma AddPoolInv(c: Challenge, name: string)
    requires Inv(c) && |c.rounds| == 0 && Challenges.AddPool(c, name).Ok?
    ensures Inv(Challenges.AddPool(c, name).value)
  {
    var c' := Challenges.AddPool(c, name).value;
    var names := PoolNames(c.pools);
    assert NoDup(names + [name]) by {
      assert forall i :: 0 <= i < |names| ==> (names + [name])[i] == names[i];
    }
    assert forall k :: 0 <= k < |c.pools| ==> c'.pools[k] == c.pools[k] by {
      assert c'.pools[..|c.pools|] == c.pools;
    }
    NotStartedInv(c');
  }

  lemma RemovePoolValid(ctx: Context, name: string)
    requires Valid(ctx)
    ensures RemovePool(ctx, name).Ok? ==> Valid(RemovePool(ctx, name).value)
  {
    if RemovePool(ctx, name).Ok? {
      var c := Cur(ctx);
      ValidCur(ctx);
      RemovePoolInv(c, PoolIndex(c.pools, name).value);
      ValidUpdate(ctx, RemovePool(ctx, name).value);
    }
  }

  /** Dropping pool `k` from a challenge without rounds keeps it consistent. */
  lemma RemovePoolInv(c: Challenge, k: nat)
    requires Inv(c) && |c.rounds| == 0 && k < |c.pools|
    ensures Inv(c.(pools := c.pools[..k] + c.pools[k + 1..]))
  {
    var c' := c.(pools := c.pools[..k] + c.pools[k + 1..]);
    assert PoolNames(c'.pools) == RemoveAt(PoolNames(c.pools), k);
    forall j | 0 <= j < |c'.pools|
      ensures c'.pools[j] == c.pools[if j < k then j else j + 1]
    {
    }
    NotStartedInv(c');
  }

  lemma AddUserValid(ctx: Context, u: UserId, name: string)
    requires Valid(ctx)
    ensures Valid(AddUser(ctx, u, name).0)
  {
    var r := AddUser(ctx, u, name);
    if r.1.Pass? {
      ValidCur(ctx);
      var c := Cur(ctx);
      assert Cur(r.0).participants == c.participants + [u];
      NotStartedInv(Cur(r.0));
    }
  }

  /** In a consistent context, `remove_user` calling `remove_title` for the
      user's titles one by one, in whatever order the title dictionary
      yields them, leaves the pools exactly as `RemoveUser` states. */
  lemma RemoveUserOneByOne(ctx: Context, u: UserId, order: seq<string>)
    requires Valid(ctx) && RemoveUser(ctx, u).Ok?
    requires (set t | t in order) == TitlesOf(Cur(ctx), u)
    ensures Cur(RemoveUser(ctx, u).value).pools == PurgeEach(Cur(ctx).pools, order)
  {
    var c := Cur(ctx);
    ValidCur(ctx);
    forall k | 0 <= k < |c.pools|
      ensures NoDup(c.pools[k].pool.allTitles) && NoDup(c.pools[k].pool.unusedTitles)
    {
      assert PoolOk(c.pools[k].pool);
    }
    PurgeEachIsPurgeTitles(c.pools, order);
  }

  lemma RemoveUserValid(ctx: Context, u: UserId)
    requires Valid(ctx)
    ensures RemoveUser(ctx, u).Ok? ==> Valid(RemoveUser(ctx, u).value)
  {
    if RemoveUser(ctx, u).Ok? {
      var c, c' := Cur(ctx), Cur(RemoveUser(ctx, u).value);
      ValidCur(ctx);
      var ts := TitlesOf(c, u);
      assert c'.pools == PurgeTitles(c.pools, ts);
      RemoveFirstIsWithout(c.participants, u);
      forall k | 0 <= k < |c'.pools|
        ensures PoolOk(c'.pools[k].pool)
      {
        assert PoolOk(c.pools[k].pool);
      }
      NotStartedInv(c');
      ValidUpdate(ctx, RemoveUser(ctx, u).value);
    }
  }

  lemma AddTitleValid(ctx: Context, pool: string, proposer: UserId, name: string, url: Option<string>)
    requires Valid(ctx)
    ensures Contexts.AddTitle(ctx, pool, proposer, name, url).Ok? ==> Valid(Contexts.AddTitle(ctx, pool, proposer, name, url).value)
  {
    if Contexts.AddTitle(ctx, pool, proposer, name, url).Ok? {
      ValidCur(ctx);
      AddTitleInv(Cur(ctx), pool, name, TitleInfo(proposer, url));
      ValidUpdate(ctx, Contexts.AddTitle(ctx, pool, proposer, name, url).value);
    }
  }

  /** A new title in one pool keeps a challenge without rounds consistent. */
  lemma AddTitleInv(c: Challenge, pool: string, name: string, info: TitleInfo)
    requires Inv(c) && |c.rounds| == 0 && Challenges.AddTitle(c, pool, name, info).Ok?
    ensures Inv(Challenges.AddTitle(c, pool, name, info).value)
  {
    var c' := Challenges.AddTitle(c, pool, name, info).value;
    var k := PoolIndex(c.pools, pool).value;
    var p := c.pools[k].pool;
    assert name !in p.allTitles && name !in p.unusedTitles;
    assert c'.pools[k].pool.allTitles == p.allTitles + [name];
    assert c'.pools[k].pool.unusedTitles == p.unusedTitles + [name];
    assert PoolOk(c'.pools[k].pool) by {
      assert PoolOk(p);
      assert forall i :: 0 <= i < |p.allTitles| ==> (p.allTitles + [name])[i] == p.allTitles[i];
      assert forall i :: 0 <= i < |p.unusedTitles| ==> (p.unusedTitles + [name])[i] == p.unusedTitles[i];
    }
    NotStartedInv(c');
  }

  lemma RemoveTitleValid(ctx: Context, name: string)
    requires Valid(ctx)
    ensures RemoveTitle(ctx, name).Ok? ==> Valid(RemoveTitle(ctx, name).value)
  {
    if RemoveTitle(ctx, name).Ok? {
      var c, c' := Cur(ctx), Cur(RemoveTitle(ctx, name).value);
      ValidCur(ctx);
      forall k | 0 <= k < |c'.pools|
        ensures c'.pools[k].pool == Pool(Without(c.pools[k].pool.allTitles, {name}), Without(c.pools[k].pool.unusedTitles, {name}))
      {
        assert PoolOk(c.pools[k].pool);
        RemoveFirstIsWithout(c.pools[k].pool.allTitles, name);
        RemoveFirstIsWithout(c.pools[k].pool.unusedTitles, name);
      }
      NotStartedInv(c');
      ValidUpdate(ctx, RemoveTitle(ctx, name).value);
    }
  }

  /** The facts about a fresh round that `start_round` establishes: the
      main pool `k` shrinks to `q` with the same title list, every rolled
      title was unused in it and is not any more, and no two rolls share a
      title. */
  ghost predicate FreshRound(c: Challenge, k: nat, q: Pool, rolls: map<UserId, RollInfo>) {
    && k < |c.pools|
    && q.allTitles == c.pools[k].pool.allTitles && PoolOk(q)
    && (forall t :: t in q.unusedTitles ==> t in c.pools[k].pool.unusedTitles)
    && (forall u :: u in rolls ==> rolls[u].title in c.pools[k].pool.unusedTitles && rolls[u].title !in q.unusedTitles)
    && (forall u, v :: u in rolls && v in rolls && u != v ==> rolls[u].title != rolls[v].title)
  }

  lemma FreshRoundDrawn(c: Challenge, k: nat, q: Pool, rnd: Round)
    requires Inv(c) && FreshRound(c, k, q, rnd.rolls)
    ensures RollsDrawn(c.(pools := SetPool(c.pools, k, q), rounds := c.rounds + [rnd]))
  {
    var c' := c.(pools := SetPool(c.pools, k, q), rounds := c.rounds + [rnd]);
    var n := |c.rounds|;
    forall i, u, j | 0 <= i < |c'.rounds| && u in c'.rounds[i].rolls && 0 <= j < |c'.pools|
      ensures c'.rounds[i].rolls[u].title !in c'.pools[j].pool.unusedTitles
    {
      var t := c'.rounds[i].rolls[u].title;
      if i < n {
        assert c'.rounds[i] == c.rounds[i];
      } else if j != k {
        assert t in c.pools[k].pool.allTitles by {
          assert PoolOk(c.pools[k].pool);
        }
        assert PoolOk(c.pools[j].pool);
      }
    }
  }

  lemma FreshRoundDistinct(c: Challenge, k: nat, q: Pool, rnd: Round)
    requires Inv(c) && FreshRound(c, k, q, rnd.rolls)
    ensures RollsDistinct(c.(pools := SetPool(c.pools, k, q), rounds := c.rounds + [rnd]))
  {
    var c' := c.(pools := SetPool(c.pools, k, q), rounds := c.rounds + [rnd]);
    var n := |c.rounds|;
    var main := c.pools[k].pool;
    forall i, j, u, v | 0 <= i < |c'.rounds| && 0 <= j < |c'.rounds| && u in c'.rounds[i].rolls
      && v in c'.rounds[j].rolls && (i != j || u != v)
      ensures c'.rounds[i].rolls[u].title != c'.rounds[j].rolls[v].title
    {
      if i < n && j < n {
        assert c'.rounds[i] == c.rounds[i] && c'.rounds[j] == c.rounds[j];
      } else if i < n {
        assert c'.rounds[i] == c.rounds[i];
        assert c.rounds[i].rolls[u].title !in main.unusedTitles;
      } else if j < n {
        assert c'.rounds[j] == c.rounds[j];
        assert c.rounds[j].rolls[v].title !in main.unusedTitles;
      }
    }
  }

  lemma FreshRoundInv(c: Challenge, k: nat, q: Pool, rnd: Round)
    requires Inv(c) && FreshRound(c, k, q, rnd.rolls) && !rnd.isFinished
    requires rnd.rolls.Keys == set u | u in c.participants && u !in c.failed
    ensures Inv(c.(pools := SetPool(c.pools, k, q), rounds := c.rounds + [rnd]))
  {
    var c' := c.(pools := SetPool(c.pools, k, q), rounds := c.rounds + [rnd]);
    SameTitleLists(c, c');
    assert forall j :: 0 <= j < |c'.pools| ==> PoolOk(c'.pools[j].pool);
    FreshRoundDrawn(c, k, q, rnd);
    FreshRoundDistinct(c, k, q, rnd);
  }

  /** A `pop_n` from the main pool followed by `ZipRolls` over distinct
      participants yields a fresh round. */
  lemma DrawIsFresh(c: Challenge, k: nat, ps: seq<UserId>, rng: nat -> nat)
    requires k < |c.pools| && PoolOk(c.pools[k].pool) && NoDup(ps)
    requires PopN(c.pools[k].pool, |ps|, rng).Ok?
    ensures
      var drawn := PopN(c.pools[k].pool, |ps|, rng).value;
      FreshRound(c, k, drawn.0, ZipRolls(ps, drawn.1))
  {
    var main := c.pools[k].pool;
    var drawn := PopN(main, |ps|, rng).value;
    var rolls := ZipRolls(ps, drawn.1);
    PopNProperties(main, |ps|, rng);
    assert PoolOk(drawn.0);
    SplitMembers(drawn.1, drawn.0.unusedTitles, main.unusedTitles);
    assert forall u :: u in rolls ==> rolls[u].title in drawn.1;
    ZipRollsDistinct(ps, drawn.1);
  }

  lemma StartRoundValid(ctx: Context, delta: int, now: int, rng: nat -> nat)
    requires Valid(ctx)
    ensures StartRound(ctx, delta, now, rng).Ok? ==> Valid(StartRound(ctx, delta, now, rng).value)
  {
    var r := StartRound(ctx, delta, now, rng);
    if r.Ok? {
      var c := Cur(ctx);
      ValidCur(ctx);
      StartRoundUnfold(ctx, delta, now, rng);
      var k := PoolIndex(c.pools, MainPool).value;
      var active := Active(c.participants, c.failed);
      var drawn := PopN(c.pools[k].pool, |active|, rng).value;
      var rnd := Round(ZipRolls(active, drawn.1), now, now + delta, false);
      assert PoolOk(c.pools[k].pool);
      DrawIsFresh(c, k, active, rng);
      FreshRoundInv(c, k, drawn.0, rnd);
      ValidUpdate(ctx, r.value);
    }
  }

  lemma EndRoundValid(ctx: Context, now: int)
    requires Valid(ctx)
    ensures EndRound(ctx, now).Ok? ==> Valid(EndRound(ctx, now).value)
  {
    if EndRound(ctx, now).Ok? {
      var c, c' := Cur(ctx), Cur(EndRound(ctx, now).value);
      ValidCur(ctx);
      assert forall i :: 0 <= i < |c.rounds| ==> c'.rounds[i].rolls == c.rounds[i].rolls;
      ValidUpdate(ctx, EndRound(ctx, now).value);
    }
  }

  lemma ExtendRoundValid(ctx: Context, delta: int, now: int)
    requires Valid(ctx)
    ensures ExtendRound(ctx, delta, now).Ok? ==> Valid(ExtendRound(ctx, delta, now).value)
  {
    if ExtendRound(ctx, delta, now).Ok? {
      var c, c' := Cur(ctx), Cur(ExtendRound(ctx, delta, now).value);
      ValidCur(ctx);
      assert forall i :: 0 <= i < |c.rounds| ==> c'.rounds[i].rolls == c.rounds[i].rolls;
      ValidUpdate(ctx, ExtendRound(ctx, delta, now).value);
    }
  }

  /** Rounds that keep every roll's user and title, with nothing else
      changed, keep the challenge consistent: scores play no part in `Inv`. */
  lemma SameTitlesInv(c: Challenge, c': Challenge)
    requires Inv(c)
    requires c' == c.(rounds := c'.rounds) && |c'.rounds| == |c.rounds|
    requires forall i :: 0 <= i < |c.rounds| ==> c'.rounds[i].rolls.Keys == c.rounds[i].rolls.Keys
    requires forall i, v :: 0 <= i < |c.rounds| && v in c.rounds[i].rolls ==> c'.rounds[i].rolls[v].title == c.rounds[i].rolls[v].title
    requires |c.rounds| > 0 ==> c'.rounds[|c.rounds| - 1].isFinished == c.rounds[|c.rounds| - 1].isFinished
    ensures Inv(c')
  {
    assert RollsDrawn(c');
    assert RollsDistinct(c');
  }

  lemma RateValid(ctx: Context, u: UserId, score: real, now: int)
    requires Valid(ctx)
    ensures Rate(ctx, u, score, now).Ok? ==> Valid(Rate(ctx, u, score, now).value)
  {
    if Rate(ctx, u, score, now).Ok? {
      var c, c' := Cur(ctx), Cur(Rate(ctx, u, score, now).value);
      ValidCur(ctx);
      var n := |c.rounds| - 1;
      assert forall i :: 0 <= i < |c.rounds| && i != n ==> c'.rounds[i] == c.rounds[i];
      SameTitlesInv(c, c');
      ValidUpdate(ctx, Rate(ctx, u, score, now).value);
    }
  }

  /** One pop from pool `k` that left it as `q`, yielding `t`. */
  ghost predicate Redraw(c: Challenge, k: nat, q: Pool, t: string) {
    && k < |c.pools|
    && q.allTitles == c.pools[k].pool.allTitles && PoolOk(q)
    && (forall s :: s in q.unusedTitles ==> s in c.pools[k].pool.unusedTitles)
    && t in c.pools[k].pool.unusedTitles && t !in q.unusedTitles
  }

  /** The challenge after `reroll` gave user `u` of the open round the title
      `t` popped from pool `k` and returned the old title. */
  function Rerolled(c: Challenge, u: UserId, k: nat, q: Pool, t: string): (r: Challenge)
    requires HasOpenRound(c) && u in Open(c).rolls && k < |c.pools|
    ensures |r.rounds| == |c.rounds| && |r.pools| == |c.pools| && HasOpenRound(r)
    ensures forall i :: 0 <= i < |c.rounds| - 1 ==> r.rounds[i] == c.rounds[i]
    ensures Open(r).rolls.Keys == Open(c).rolls.Keys && Open(r).rolls[u].title == t
    ensures forall v :: v in Open(c).rolls && v != u ==> Open(r).rolls[v] == Open(c).rolls[v]
  {
    var rs := Reassigned(c.rounds, u, t);
    assert Open(c) == FinalRound(c.rounds) && FinalRound(rs) == rs[|rs| - 1];
    c.(pools := ReturnTitle(SetPool(c.pools, k, q), Open(c).rolls[u].title), rounds := rs)
  }

  /** The last round of a non-empty list. */
  function FinalRound(rounds: seq<Round>): Round
    requires |rounds| > 0
  {
    rounds[|rounds| - 1]
  }

  /** The rounds with user `u`'s roll in the last round given the title `t`. */
  function Reassigned(rounds: seq<Round>, u: UserId, t: string): (r: seq<Round>)
    requires |rounds| > 0 && u in rounds[|rounds| - 1].rolls
    ensures |r| == |rounds| && r[|r| - 1].isFinished == rounds[|rounds| - 1].isFinished
    ensures forall i :: 0 <= i < |rounds| - 1 ==> r[i] == rounds[i]
    ensures FinalRound(r).rolls.Keys == FinalRound(rounds).rolls.Keys && FinalRound(r).rolls[u].title == t
    ensures forall v :: v in FinalRound(rounds).rolls && v != u ==> FinalRound(r).rolls[v] == FinalRound(rounds).rolls[v]
  {
    var n := |rounds| - 1;
    rounds[n := rounds[n].(rolls := rounds[n].rolls[u := rounds[n].rolls[u].(title := t)])]
  }

  /** Replacing pool `k` by a smaller `q` with the same titles and then
      returning a title that no pool offers keeps the pools well formed; an
      unused title afterwards is the returned one or was unused before. */
  lemma ReturnKeepsPools(pools: seq<PoolEntry>, k: nat, q: Pool, prev: string)
    requires PoolsOk(pools) && k < |pools|
    requires q.allTitles == pools[k].pool.allTitles && PoolOk(q)
    requires forall s :: s in q.unusedTitles ==> s in pools[k].pool.unusedTitles
    requires forall j :: 0 <= j < |pools| ==> prev !in pools[j].pool.unusedTitles
    ensures |ReturnTitle(SetPool(pools, k, q), prev)| == |pools|
    ensures PoolsOk(ReturnTitle(SetPool(pools, k, q), prev))
    ensures forall j :: 0 <= j < |pools| ==>
      ReturnTitle(SetPool(pools, k, q), prev)[j].pool.allTitles == pools[j].pool.allTitles
    ensures forall j, s :: 0 <= j < |pools| && s in ReturnTitle(SetPool(pools, k, q), prev)[j].pool.unusedTitles ==>
      s == prev || (s in pools[j].pool.unusedTitles && (j == k ==> s in q.unusedTitles))
  {
    var mid := SetPool(pools, k, q);
    var r := ReturnTitle(mid, prev);
    forall j | 0 <= j < |pools|
      ensures PoolOk(r[j].pool)
    {
      assert PoolOk(mid[j].pool);
      if r[j].pool.unusedTitles != mid[j].pool.unusedTitles {
        AppendUnusedOk(mid[j].pool, prev);
        assert r[j].pool == mid[j].pool.(unusedTitles := mid[j].pool.unusedTitles + [prev]);
      }
    }
    DisjointSameLists(pools, r);
    forall j, s | 0 <= j < |pools| && s in r[j].pool.unusedTitles
      ensures s == prev || (s in pools[j].pool.unusedTitles && (j == k ==> s in q.unusedTitles))
    {
      assert s in mid[j].pool.unusedTitles || s == prev;
    }
  }

  /** Pools whose title lists are unchanged stay disjoint. */
  lemma DisjointSameLists(pools: seq<PoolEntry>, pools': seq<PoolEntry>)
    requires Disjoint(pools) && |pools'| == |pools|
    requires forall j :: 0 <= j < |pools| ==> pools'[j].pool.allTitles == pools[j].pool.allTitles
    ensures Disjoint(pools')
  {
  }

  /** Returning a title of the pool that is not unused keeps the pool well formed. */
  lemma AppendUnusedOk(p: Pool, t: string)
    requires PoolOk(p) && t in p.allTitles && t !in p.unusedTitles
    ensures PoolOk(p.(unusedTitles := p.unusedTitles + [t]))
  {
    var us := p.unusedTitles;
    assert forall i :: 0 <= i < |us| ==> (us + [t])[i] == us[i];
  }

  lemma RerolledPools(c: Challenge, u: UserId, k: nat, q: Pool, t: string)
    requires Inv(c) && HasOpenRound(c) && u in Open(c).rolls && Redraw(c, k, q, t)
    ensures PoolsOk(Rerolled(c, u, k, q, t).pools) && Registered(Rerolled(c, u, k, q, t))
    ensures forall j, s :: 0 <= j < |c.pools| && s in Rerolled(c, u, k, q, t).pools[j].pool.unusedTitles ==>
      s == Open(c).rolls[u].title || (s in c.pools[j].pool.unusedTitles && (j == k ==> s in q.unusedTitles))
  {
    var c' := Rerolled(c, u, k, q, t);
    var prev := Open(c).rolls[u].title;
    assert forall j :: 0 <= j < |c.pools| ==> prev !in c.pools[j].pool.unusedTitles;
    ReturnKeepsPools(c.pools, k, q, prev);
    SameTitleLists(c, c'.(titles := c.titles));
  }

  /** A roll after the reroll is the drawn title for `u` in the open round
      and the old roll everywhere else. */
  lemma ReassignedRoll(rounds: seq<Round>, u: UserId, t: string, i: nat, v: UserId)
    requires |rounds| > 0 && u in rounds[|rounds| - 1].rolls
    requires i < |rounds| && v in Reassigned(rounds, u, t)[i].rolls
    ensures v in rounds[i].rolls
    ensures i == |rounds| - 1 && v == u ==> Reassigned(rounds, u, t)[i].rolls[v].title == t
    ensures i != |rounds| - 1 || v != u ==> Reassigned(rounds, u, t)[i].rolls[v] == rounds[i].rolls[v]
  {
    var r := Reassigned(rounds, u, t);
    if i < |rounds| - 1 {
      assert r[i] == rounds[i];
    }
  }

  lemma RerolledDrawn(c: Challenge, u: UserId, k: nat, q: Pool, t: string)
    requires Inv(c) && HasOpenRound(c) && u in Open(c).rolls && Redraw(c, k, q, t)
    ensures RollsDrawn(Rerolled(c, u, k, q, t))
  {
    var c' := Rerolled(c, u, k, q, t);
    RerolledPools(c, u, k, q, t);
    ReassignedDrawn(c, u, k, q, t, c'.pools);
    assert c' == c.(rounds := Reassigned(c.rounds, u, t), pools := c'.pools);
  }

  /** Giving `u` the drawn title `t` keeps every roll out of the unused lists,
      for any pools whose unused titles are the returned old title or titles
      that were unused before and, in pool `k`, are still unused after the pop. */
  lemma ReassignedDrawn(c: Challenge, u: UserId, k: nat, q: Pool, t: string, pools: seq<PoolEntry>)
    requires Inv(c) && HasOpenRound(c) && u in Open(c).rolls && Redraw(c, k, q, t)
    requires |pools| == |c.pools|
    requires forall j, s :: 0 <= j < |c.pools| && s in pools[j].pool.unusedTitles ==>
      s == Open(c).rolls[u].title || (s in c.pools[j].pool.unusedTitles && (j == k ==> s in q.unusedTitles))
    ensures RollsDrawn(c.(rounds := Reassigned(c.rounds, u, t), pools := pools))
  {
    var c' := c.(rounds := Reassigned(c.rounds, u, t), pools := pools);
    var n := |c.rounds| - 1;
    var prev := Open(c).rolls[u].title;
    forall i, v, j | 0 <= i < |c'.rounds| && v in c'.rounds[i].rolls && 0 <= j < |c'.pools|
      ensures c'.rounds[i].rolls[v].title !in c'.pools[j].pool.unusedTitles
    {
      var s := c'.rounds[i].rolls[v].title;
      ReassignedRoll(c.rounds, u, t, i, v);
      if i == n && v == u {
        assert t != prev;
        if j != k {
          assert PoolOk(c.pools[k].pool) && PoolOk(c.pools[j].pool);
          assert t in c.pools[k].pool.allTitles;
        }
      } else {
        assert s != prev;
      }
    }
  }

  lemma RerolledDistinct(c: Challenge, u: UserId, k: nat, q: Pool, t: string)
    requires Inv(c) && HasOpenRound(c) && u in Open(c).rolls && Redraw(c, k, q, t)
    ensures RollsDistinct(Rerolled(c, u, k, q, t))
  {
    ReassignedDistinct(c, u, k, t);
    assert Rerolled(c, u, k, q, t).rounds == Reassigned(c.rounds, u, t);
  }

  /** Giving `u` a title that was unused in pool `k` keeps the roll titles distinct. */
  lemma ReassignedDistinct(c: Challenge, u: UserId, k: nat, t: string)
    requires RollsDrawn(c) && RollsDistinct(c) && HasOpenRound(c) && u in Open(c).rolls
    requires k < |c.pools| && t in c.pools[k].pool.unusedTitles
    ensures RollsDistinct(c.(rounds := Reassigned(c.rounds, u, t)))
  {
    var rs := Reassigned(c.rounds, u, t);
    var n := |c.rounds| - 1;
    forall i, j, v, w | 0 <= i < |rs| && 0 <= j < |rs| && v in rs[i].rolls
      && w in rs[j].rolls && (i != j || v != w)
      ensures rs[i].rolls[v].title != rs[j].rolls[w].title
    {
      ReassignedRoll(c.rounds, u, t, i, v);
      ReassignedRoll(c.rounds, u, t, j, w);
      if i == n && v == u {
        assert c.rounds[j].rolls[w].title !in c.pools[k].pool.unusedTitles;
      } else if j == n && w == u {
        assert c.rounds[i].rolls[v].title !in c.pools[k].pool.unusedTitles;
      } else {
        assert c.rounds[i].rolls[v].title != c.rounds[j].rolls[w].title;
      }
    }
  }

  lemma RerollValid(ctx: Context, u: UserId, pool: string, now: int, pick: nat)
    requires Valid(ctx)
    ensures Reroll(ctx, u, pool, now, pick).Ok? ==> Valid(Reroll(ctx, u, pool, now, pick).value.0)
  {
    var r := Reroll(ctx, u, pool, now, pick);
    if r.Ok? {
      var c := Cur(ctx);
      ValidCur(ctx);
      RerollShape(ctx, u, pool, now, pick);
      var k := PoolIndex(c.pools, pool).value;
      var popped := Pop(c.pools[k].pool, pick).value;
      assert PoolOk(c.pools[k].pool);
      PopProperties(c.pools[k].pool, pick);
      assert Redraw(c, k, popped.0, popped.1);
      var c' := Rerolled(c, u, k, popped.0, popped.1);
      assert Cur(r.value.0) == c';
      RerolledPools(c, u, k, popped.0, popped.1);
      RerolledDrawn(c, u, k, popped.0, popped.1);
      RerolledDistinct(c, u, k, popped.0, popped.1);
      ValidUpdate(ctx, r.value.0);
    }
  }

  lemma EndChallengeValid(ctx: Context, now: int)
    requires Valid(ctx)
    ensures EndChallenge(ctx, now).Ok? ==> Valid(EndChallenge(ctx, now).value)
  {
    if EndChallenge(ctx, now).Ok? && HasOpenRound(Cur(ctx)) {
      EndRoundValid(ctx, now);
    }
  }

  /** In a valid context `rate` and `reroll` never hit a missing roll: once
      the participant and deadline checks pass, `rate` succeeds, and `reroll`
      fails only for an unknown or exhausted pool. */
  lemma OpenRoundHasRoll(ctx: Context, u: UserId, now: int, score: real, pool: string, pick: nat)
    requires Valid(ctx) && HasCurrent(ctx)
    ensures Rate(ctx, u, score, now).Ok? <==> CheckOpenFor(Cur(ctx), u, now).Pass?
    ensures Reroll(ctx, u, pool, now, pick) != Err(KeyMissing)
  {
    ValidCur(ctx);
  }
}

=== FILE: karma.dfy ===
/** The karma update at the end of a round in bot.py (`_end_round`): for
    every roll of the round, the proposer of the rolled title gains the
    roll's score (when someone else watched it) plus a bonus for their own
    watching, scaled by `WatcherDelta`. `Apply` is the intended
    accumulation; `ApplyAsWritten` keeps two defects of the code. */
module Karma {
  import opened Results
  import Challenges

  type UserId = Challenges.UserId

  /** One row of `fetch_rolls_watchers_proposers`: the roll's score, the
      participant who watched it and the proposer of its title. */
  datatype KarmaRow = KarmaRow(score: Option<real>, watcher: UserId, proposer: UserId)

  /** The watcher bonus: full up to 5, a quarter of each point above. */
  function WatcherDelta(s: real): real {
    if s < 5.0 then s else 5.0 + (s - 5.0) * 0.25
  }

  /** `WatcherDelta` never grows faster than its argument and never shrinks:
      it is monotone and 1-Lipschitz, hence continuous, in particular at 5. */
  lemma WatcherDeltaMonotone(a: real, b: real)
    requires a <= b
    ensures WatcherDelta(a) <= WatcherDelta(b)
    ensures WatcherDelta(b) - WatcherDelta(a) <= b - a
  {
  }

  /** Anchor values and bounds: the two branches meet at 5, a perfect 10
      gives 6.25, and the bonus lies between 0 and the score itself. */
  lemma WatcherDeltaValues(s: real)
    ensures WatcherDelta(5.0) == 5.0 && WatcherDelta(10.0) == 6.25
    ensures 0.0 <= s ==> 0.0 <= WatcherDelta(s) <= s
    ensures 5.0 <= s ==> WatcherDelta(s) - 5.0 == (s - 5.0) / 4.0
  {
  }

  /** No row after position `i` has watcher `w`. */
  predicate LastOf(rows: seq<KarmaRow>, i: int, w: UserId) {
    forall j :: i < j < |rows| && 0 <= j ==> rows[j].watcher != w
  }

  /** `roll_by_watcher[w]`: the dictionary built from the rows keeps the last
      row per watcher. */
  function ByWatcher(rows: seq<KarmaRow>, w: UserId): (r: Option<KarmaRow>)
    ensures r.None? <==> forall i :: 0 <= i < |rows| ==> rows[i].watcher != w
    ensures r.Some? ==>
      exists i :: 0 <= i < |rows| && rows[i] == r.value && rows[i].watcher == w && LastOf(rows, i, w)
  {
    if |rows| == 0 then None
    else if rows[|rows| - 1].watcher == w then Some(rows[|rows| - 1])
    else ByWatcher(rows[..|rows| - 1], w)
  }

  /** The part of a row's delta that comes from the row itself. */
  function Direct(row: KarmaRow): (r: real)
    ensures row.score.None? || row.watcher == row.proposer ==> r == 0.0
    ensures row.score.Some? && row.watcher != row.proposer ==> r == row.score.value
  {
    if row.score.Some? && row.watcher != row.proposer then row.score.value else 0.0
  }

  /** The bonus a proposer earns from the roll they watched themselves. */
  function Bonus(own: KarmaRow): (r: real)
    ensures own.score.None? || own.watcher == own.proposer ==> r == 0.0
    ensures own.score.Some? && own.watcher != own.proposer ==> r == WatcherDelta(own.score.value)
  {
    if own.score.Some? && own.watcher != own.proposer then WatcherDelta(own.score.value) else 0.0
  }

  /** The delta of one row as the code computes it: looking up the
      proposer's own roll raises a KeyError when the proposer has none in
      this round (they failed earlier, but their titles are still drawn). */
  function RowDeltaAsWritten(all: seq<KarmaRow>, row: KarmaRow): (r: Result<real>)
    ensures r.Err? <==> ByWatcher(all, row.proposer).None?
    ensures r.Err? ==> r.error == KeyMissing
    ensures r.Ok? ==> r.value == Direct(row) + Bonus(ByWatcher(all, row.proposer).value)
  {
    match ByWatcher(all, row.proposer)
    case None => Err(KeyMissing)
    case Some(own) => Ok(Direct(row) + Bonus(own))
  }

  /** The intended delta: a proposer without a roll of their own simply
      earns no watcher bonus. */
  function RowDelta(all: seq<KarmaRow>, row: KarmaRow): (r: real)
    ensures RowDeltaAsWritten(all, row).Ok? ==> r == RowDeltaAsWritten(all, row).value
    ensures RowDeltaAsWritten(all, row).Err? ==> r == Direct(row)
  {
    match ByWatcher(all, row.proposer)
    case None => Direct(row)
    case Some(own) => Direct(row) + Bonus(own)
  }

  /** Every proposer of the rows has a karma value (the join guarantees the user exists). */
  predicate Known(rows: seq<KarmaRow>, karma: map<UserId, real>) {
    forall i :: 0 <= i < |rows| ==> rows[i].proposer in karma
  }

  /** The loop of `_end_round` as written. Each row carries its own copy of
      the proposer's user record, read before the loop, so a nonzero delta
      overwrites the proposer's karma with that stale value plus the delta:
      only the last update per proposer survives. */
  function ApplyAsWritten(rows: seq<KarmaRow>, all: seq<KarmaRow>, karma: map<UserId, real>): (r: Result<map<UserId, real>>)
    requires Known(rows, karma)
    ensures r.Ok? ==> r.value.Keys == karma.Keys
    ensures r.Err? ==> r.error == KeyMissing
  {
    if |rows| == 0 then Ok(karma)
    else
      var row := rows[|rows| - 1];
      match ApplyAsWritten(rows[..|rows| - 1], all, karma)
      case Err(e) => Err(e)
      case Ok(k) =>
        match RowDeltaAsWritten(all, row)
        case Err(e) => Err(e)
        case Ok(d) => Ok(if d != 0.0 then k[row.proposer := karma[row.proposer] + d] else k)
  }

  /** The intended update: every row's delta is added to the proposer's
      current karma. */
  function Apply(rows: seq<KarmaRow>, all: seq<KarmaRow>, karma: map<UserId, real>): (r: map<UserId, real>)
    requires Known(rows, karma)
    ensures r.Keys == karma.Keys
  {
    if |rows| == 0 then karma
    else
      var row := rows[|rows| - 1];
      var k := Apply(rows[..|rows| - 1], all, karma);
      var d := RowDelta(all, row);
      if d != 0.0 then k[row.proposer := k[row.proposer] + d] else k
  }

  /** The sum of the deltas of the rows whose title `p` proposed. */
  function Gain(rows: seq<KarmaRow>, all: seq<KarmaRow>, p: UserId): real {
    if |rows| == 0 then 0.0
    else
      var row := rows[|rows| - 1];
      Gain(rows[..|rows| - 1], all, p) + (if row.proposer == p then RowDelta(all, row) else 0.0)
  }

  /** The intended update gives every user their old karma plus the sum of
      the deltas of the titles they proposed. */
  lemma {:induction false} ApplyIsSum(rows: seq<KarmaRow>, all: seq<KarmaRow>, karma: map<UserId, real>, p: UserId)
    requires Known(rows, karma) && p in karma
    ensures Apply(rows, all, karma)[p] == karma[p] + Gain(rows, all, p)
  {
    if |rows| > 0 {
      ApplyIsSum(rows[..|rows| - 1], all, karma, p);
    }
  }

  /** With non-negative scores every delta is non-negative, so the update
      never lowers anyone's karma. */
  lemma {:induction false} GainNonNegative(rows: seq<KarmaRow>, all: seq<KarmaRow>, p: UserId)
    requires forall i :: 0 <= i < |all| && all[i].score.Some? ==> all[i].score.value >= 0.0
    requires forall i :: 0 <= i < |rows| && rows[i].score.Some? ==> rows[i].score.value >= 0.0
    ensures Gain(rows, all, p) >= 0.0
  {
    if |rows| > 0 {
      GainNonNegative(rows[..|rows| - 1], all, p);
      var row := rows[|rows| - 1];
      match ByWatcher(all, row.proposer)
      case None =>
      case Some(own) =>
        if own.score.Some? {
          WatcherDeltaValues(own.score.value);
        }
    }
  }

  /** A user who proposed none of the rows keeps their karma. */
  lemma {:induction false} ApplyUntouched(rows: seq<KarmaRow>, all: seq<KarmaRow>, karma: map<UserId, real>, p: UserId)
    requires Known(rows, karma) && p in karma
    requires forall i :: 0 <= i < |rows| ==> rows[i].proposer != p
    ensures Apply(rows, all, karma)[p] == karma[p]
  {
    if |rows| > 0 {
      ApplyUntouched(rows[..|rows| - 1], all, karma, p);
    }
  }

  /** On scores between 0 and 10 a row's own part lies between 0 and its
      score and a watcher bonus between 0 and 6.25, so one roll moves its
      proposer's karma by at most 16.25. */
  lemma DeltaBounds(all: seq<KarmaRow>, row: KarmaRow)
    requires forall i :: 0 <= i < |all| && all[i].score.Some? ==> 0.0 <= all[i].score.value <= 10.0
    requires row.score.Some? ==> 0.0 <= row.score.value <= 10.0
    ensures 0.0 <= Direct(row) && (row.score.Some? ==> Direct(row) <= row.score.value)
    ensures forall i :: 0 <= i < |all| ==> 0.0 <= Bonus(all[i]) <= 6.25
    ensures 0.0 <= RowDelta(all, row) <= 16.25
  {
    forall i | 0 <= i < |all| && all[i].score.Some?
      ensures 0.0 <= WatcherDelta(all[i].score.value) <= 6.25
    {
      WatcherDeltaValues(all[i].score.value);
      WatcherDeltaMonotone(all[i].score.value, 10.0);
    }
  }

  /** Some row's proposer watched nothing this round, so looking up their
      own roll fails. */
  predicate Orphaned(rows: seq<KarmaRow>, all: seq<KarmaRow>) {
    exists i :: 0 <= i < |rows| && ByWatcher(all, rows[i].proposer).None?
  }

  /** The loop as written raises exactly when it meets a proposer without a
      roll of their own. */
  lemma {:induction false} AsWrittenFails(rows: seq<KarmaRow>, all: seq<KarmaRow>, karma: map<UserId, real>)
    requires Known(rows, karma)
    ensures ApplyAsWritten(rows, all, karma).Err? <==> Orphaned(rows, all)
  {
    if |rows| > 0 {
      var n := |rows| - 1;
      var front := rows[..n];
      assert forall i :: 0 <= i < n ==> front[i] == rows[i];
      AsWrittenFails(front, all, karma);
      if Orphaned(front, all) {
        var i :| 0 <= i < n && ByWatcher(all, front[i].proposer).None?;
        assert ByWatcher(all, rows[i].proposer).None?;
      }
      if Orphaned(rows, all) && !Orphaned(front, all) {
        var i :| 0 <= i < |rows| && ByWatcher(all, rows[i].proposer).None?;
        assert i == n;
      }
    }
  }

  /** The delta of the last row that `p` proposed and whose delta is
      nonzero, or 0 when there is none. */
  function LastGain(rows: seq<KarmaRow>, all: seq<KarmaRow>, p: UserId): real {
    if |rows| == 0 then 0.0
    else
      var row := rows[|rows| - 1];
      if row.proposer == p && RowDelta(all, row) != 0.0 then RowDelta(all, row)
      else LastGain(rows[..|rows| - 1], all, p)
  }

  /** When the loop as written completes, every user ends with their karma
      from before the loop plus the delta of only their last nonzero row:
      the earlier updates are overwritten. */
  lemma {:induction false} AsWrittenIsLast(rows: seq<KarmaRow>, all: seq<KarmaRow>, karma: map<UserId, real>)
    requires Known(rows, karma) && ApplyAsWritten(rows, all, karma).Ok?
    ensures forall p :: p in karma ==> ApplyAsWritten(rows, all, karma).value[p] == karma[p] + LastGain(rows, all, p)
  {
    if |rows| > 0 {
      var n := |rows| - 1;
      var row := rows[n];
      AsWrittenIsLast(rows[..n], all, karma);
      assert RowDeltaAsWritten(all, row) == Ok(RowDelta(all, row));
    }
  }

  /** The code is right when no proposer has two rows and every proposer
      watched something this round: then it computes the intended update. */
  lemma {:induction false} AsWrittenAgrees(rows: seq<KarmaRow>, all: seq<KarmaRow>, karma: map<UserId, real>)
    requires Known(rows, karma)
    requires forall i, j :: 0 <= i < j < |rows| ==> rows[i].proposer != rows[j].proposer
    requires forall i :: 0 <= i < |rows| ==> ByWatcher(all, rows[i].proposer).Some?
    ensures ApplyAsWritten(rows, all, karma) == Ok(Apply(rows, all, karma))
  {
    if |rows| > 0 {
      var n := |rows| - 1;
      var front, row := rows[..n], rows[n];
      assert forall i :: 0 <= i < |front| ==> front[i] == rows[i];
      AsWrittenAgrees(front, all, karma);
      ApplyUntouched(front, all, karma, row.proposer);
      AsWrittenStep(rows, all, karma);
    }
  }

  /** One more row keeps the code and the intended update in step, once
      they agree on the earlier rows and the proposer's karma is untouched. */
  lemma AsWrittenStep(rows: seq<KarmaRow>, all: seq<KarmaRow>, karma: map<UserId, real>)
    requires Known(rows, karma) && |rows| > 0
    requires
      var front, row := rows[..|rows| - 1], rows[|rows| - 1];
      && ApplyAsWritten(front, all, karma) == Ok(Apply(front, all, karma))
      && ByWatcher(all, row.proposer).Some?
      && Apply(front, all, karma)[row.proposer] == karma[row.proposer]
    ensures ApplyAsWritten(rows, all, karma) == Ok(Apply(rows, all, karma))
  {
    var front, row := rows[..|rows| - 1], rows[|rows| - 1];
    var k := Apply(front, all, karma);
    var d := RowDelta(all, row);
    var k' := if d != 0.0 then k[row.proposer := k[row.proposer] + d] else k;
    assert RowDeltaAsWritten(all, row) == Ok(d);
    assert Apply(rows, all, karma) == k';
    assert ApplyAsWritten(rows, all, karma) == Ok(if d != 0.0 then k[row.proposer := karma[row.proposer] + d] else k);
  }

  /** Two titles of user 3 are rated 8 and 6 by users 1 and 2, while user 3
      left user 1's title unrated: the code credits user 3 with 6 instead of
      14, because the second update starts from the karma read before the
      first. */
  lemma LostUpdateExample()
    ensures
      var all := [KarmaRow(Some(8.0), 1, 3), KarmaRow(Some(6.0), 2, 3), KarmaRow(None, 3, 1)];
      var karma := map[1 := 0.0, 2 := 0.0, 3 := 0.0];
      && ApplyAsWritten(all, all, karma) == Ok(map[1 := 5.75, 2 := 0.0, 3 := 6.0])
      && Apply(all, all, karma) == map[1 := 5.75, 2 := 0.0, 3 := 14.0]
  {
    var all := [KarmaRow(Some(8.0), 1, 3), KarmaRow(Some(6.0), 2, 3), KarmaRow(None, 3, 1)];
    var karma := map[1 := 0.0, 2 := 0.0, 3 := 0.0];
    assert all[..2][..1] == all[..1];
    assert all[..1][..0] == [];
    assert ByWatcher(all, 3) == Some(all[2]);
    assert ByWatcher(all[..2], 1) == Some(all[0]);
    assert ByWatcher(all, 1) == Some(all[0]);
    assert RowDeltaAsWritten(all, all[0]) == Ok(8.0);
    assert RowDeltaAsWritten(all, all[1]) == Ok(6.0);
    assert RowDeltaAsWritten(all, all[2]) == Ok(5.75);
    assert ApplyAsWritten(all[..1], all, karma) == Ok(karma[3 := 8.0]);
    assert all[..2][1] == all[1] && all[2] == all[|all| - 1] && all[..|all| - 1] == all[..2];
    assert karma[3 := 8.0][3 := 6.0] == karma[3 := 6.0];
    assert ApplyAsWritten(all[..2], all, karma) == Ok(karma[3 := 6.0]);
    assert karma[3 := 6.0][1 := 5.75] == map[1 := 5.75, 2 := 0.0, 3 := 6.0];
    assert Apply(all[..1], all, karma) == karma[3 := 8.0];
    assert karma[3 := 8.0][3 := 14.0] == karma[3 := 14.0];
    assert Apply(all[..2], all, karma) == karma[3 := 14.0];
    assert karma[3 := 14.0][1 := 5.75] == map[1 := 5.75, 2 := 0.0, 3 := 14.0];
  }

  /** User 1 rates 7 a title of user 2, who has no roll this round: the code
      stops with a KeyError, the intended update credits user 2 with 7. */
  lemma MissingOwnRollExample()
    ensures
      var all := [KarmaRow(Some(7.0), 1, 2)];
      var karma := map[1 := 0.0, 2 := 0.0];
      && ApplyAsWritten(all, all, karma) == Err(KeyMissing)
      && Apply(all, all, karma) == map[1 := 0.0, 2 := 7.0]
  {
    var all := [KarmaRow(Some(7.0), 1, 2)];
    assert all[..0] == [];
    assert ByWatcher(all, 2) == None;
  }
}

=== FILE: pools.dfy ===
/** A title pool (challenge.py `Pool`): every title ever added to the pool, and
    the ones still available for a random draw. */
module Pools {
  import opened Results
  import opened Seqs

  datatype Pool = Pool(allTitles: seq<string>, unusedTitles: seq<string>)

  const Empty: Pool := Pool([], [])

  /** The pool invariant: an unused title is one of the pool's titles. */
  ghost predicate UnusedInAll(p: Pool) {
    forall t :: t in p.unusedTitles ==> t in p.allTitles
  }

  /** `check_size`: a draw of `n` titles needs `n` unused ones. */
  function CheckSize(p: Pool, n: int): (r: Outcome)
    ensures r.Pass? <==> n <= |p.unusedTitles|
    ensures r.Fail? ==> r.error == NotEnoughTitles
  {
    if n > |p.unusedTitles| then Fail(NotEnoughTitles) else Pass
  }

  /** `add`: the title joins both lists. */
  function Add(p: Pool, t: string): (r: Pool)
    ensures t in r.allTitles && t in r.unusedTitles
    ensures multiset(r.allTitles) == multiset(p.allTitles) + multiset{t}
    ensures multiset(r.unusedTitles) == multiset(p.unusedTitles) + multiset{t}
    ensures UnusedInAll(p) ==> UnusedInAll(r)
  {
    Pool(p.allTitles + [t], p.unusedTitles + [t])
  }

  /** `pop`: removes and returns one unused title. The random index
      `randrange(len(unused))` is the caller's `pick` reduced modulo the length,
      so every position can be chosen. */
  function Pop(p: Pool, pick: nat): (r: Result<(Pool, string)>)
    ensures r.Err? <==> |p.unusedTitles| == 0
    ensures r.Err? ==> r.error == NotEnoughTitles
    ensures r.Ok? ==> r.value.0.allTitles == p.allTitles
    ensures r.Ok? ==> multiset(r.value.0.unusedTitles) + multiset{r.value.1} == multiset(p.unusedTitles)
  {
    match CheckSize(p, 1)
    case Fail(e) => Err(e)
    case Pass =>
      var i := pick % |p.unusedTitles|;
      Ok((p.(unusedTitles := RemoveAt(p.unusedTitles, i)), p.unusedTitles[i]))
  }

  /** The list comprehension of `pop_n`: `n` successive pops, the k-th one
      choosing with `rng(from + k)`. */
  function PopAll(p: Pool, n: nat, rng: nat -> nat, from: nat): (r: (Pool, seq<string>))
    requires n <= |p.unusedTitles|
    ensures |r.1| == n && r.0.allTitles == p.allTitles
    ensures multiset(r.1) + multiset(r.0.unusedTitles) == multiset(p.unusedTitles)
    decreases n
  {
    if n == 0 then (p, [])
    else
      var popped := Pop(p, rng(from)).value;
      var rest := PopAll(popped.0, n - 1, rng, from + 1);
      assert multiset([popped.1] + rest.1) == multiset{popped.1} + multiset(rest.1);
      (rest.0, [popped.1] + rest.1)
  }

  /** `pop_n`: fails before any pop when the pool is too small, otherwise
      draws exactly `n` of the unused titles and leaves the rest. */
  function PopN(p: Pool, n: nat, rng: nat -> nat): (r: Result<(Pool, seq<string>)>)
    ensures r.Err? <==> n > |p.unusedTitles|
    ensures r.Err? ==> r.error == NotEnoughTitles
    ensures r.Ok? ==> |r.value.1| == n && r.value.0.allTitles == p.allTitles
    ensures r.Ok? ==> multiset(r.value.1) + multiset(r.value.0.unusedTitles) == multiset(p.unusedTitles)
  {
    match CheckSize(p, n)
    case Fail(e) => Err(e)
    case Pass => Ok(PopAll(p, n, rng, 0))
  }

  /** A successful draw keeps the pool invariant, takes its titles from the
      unused list, and, when that list had no repeats, draws distinct titles
      none of which stay unused. */
  lemma PopNProperties(p: Pool, n: nat, rng: nat -> nat)
    requires PopN(p, n, rng).Ok?
    ensures forall t :: t in PopN(p, n, rng).value.1 ==> t in p.unusedTitles
    ensures UnusedInAll(p) ==> UnusedInAll(PopN(p, n, rng).value.0)
    ensures NoDup(p.unusedTitles) ==>
      var (q, ts) := PopN(p, n, rng).value;
      NoDup(ts) && NoDup(q.unusedTitles) && forall t :: t in ts ==> t !in q.unusedTitles
  {
    var (q, ts) := PopN(p, n, rng).value;
    SplitMembers(ts, q.unusedTitles, p.unusedTitles);
    if NoDup(p.unusedTitles) {
      SplitDistinct(ts, q.unusedTitles, p.unusedTitles);
    }
  }

  /** A successful pop takes an unused title, keeps the pool invariant and,
      when the unused list had no repeats, leaves it without the popped title. */
  lemma PopProperties(p: Pool, pick: nat)
    requires Pop(p, pick).Ok?
    ensures Pop(p, pick).value.1 in p.unusedTitles
    ensures forall t :: t in Pop(p, pick).value.0.unusedTitles ==> t in p.unusedTitles
    ensures UnusedInAll(p) ==> UnusedInAll(Pop(p, pick).value.0)
    ensures NoDup(p.unusedTitles) ==>
      NoDup(Pop(p, pick).value.0.unusedTitles) && Pop(p, pick).value.1 !in Pop(p, pick).value.0.unusedTitles
  {
  }

  /** Drawing one title with `pop_n` is the same as one `pop`. */
  lemma PopNOne(p: Pool, rng: nat -> nat)
    ensures PopN(p, 1, rng).Ok? <==> Pop(p, rng(0)).Ok?
    ensures Pop(p, rng(0)).Ok? ==>
      PopN(p, 1, rng).value == (Pop(p, rng(0)).value.0, [Pop(p, rng(0)).value.1])
  {
    if Pop(p, rng(0)).Ok? {
      var popped := Pop(p, rng(0)).value;
      assert [popped.1] + [] == [popped.1];
    }
  }
}

=== FILE: results.dfy ===
/** Option/Result wrappers and the error vocabulary of the watch-challenge bot.

    Every rule violation in the bot raises a single domain error kind (`BotErr`)
    carrying a message; the constructors below name those messages. A few
    operations can also crash with a Python runtime error (a missing dictionary
    key, an index past the end of a list, arithmetic on `None`); those are kept
    apart from the domain errors, in the last group of constructors.
 */
module Results {

  datatype Option<+T> = None | Some(value: T)

  datatype Error =
    // -- domain errors (BotErr) --
    | NoChallenge                        // 'Create a new challenge first.'
    | FinishChallengeFirst(name: string) // 'Finish "{name}" challenge first.'
    | ChallengeExists(name: string)      // 'Challenge "{name}" already exists.'
    | ChallengeStarted                   // 'Cannot add/delete user/title/pool after a challenge has started.'
    | PoolExists(name: string)           // 'Pool "{name}" already exists.'
    | PoolNotFound(name: string)         // 'Cannot find "{name}" pool.'
    | PoolDoesNotExist(name: string)     // 'Pool "{name}" does not exist.'
    | TitleExists(name: string)          // 'Title "{name}" already exists.'
    | TitleDoesNotExist(name: string)    // 'Title "{name}" does not exist.'
    | TitleUsed(name: string)            // 'Title "{name}" is already used.'
    | AlreadyParticipating(user: int)    // 'User {user} is already participating in this challenge.'
    | NotParticipating(user: int)        // 'User {user} is not participating in this challenge.'
    | HasFailed(user: int)               // 'User {user} has failed this challenge.'
    | NoRound                            // 'Create a new round first.'
    | RoundFinished                      // 'The round has ended.'
    | RoundEnded                         // 'Round has ended.'
    | FinishRoundFirst(num: int)         // 'Finish round {num} first.'
    | NotEnoughParticipants              // 'Not enough participants to start a round.'
    | NotEnoughTitles                    // 'Not enough titles in pool.'
    | NotEnoughTitlesIn(pool: string)    // 'Not enough titles in "{pool}" pool.'
    | InvalidProgress(text: string)      // 'Invalid progress "{text}".'
    | InvalidDays                        // 'Invalid number of days.'
    | InvalidScore                       // 'Score must be in range from 0 to 10.'
    | NotAScore(text: string)            // 'Invalid score "{text}".' (float() rejected it)
    | InvalidColor(text: string)         // 'Invalid color "{text}".'
    | NameTooLong                        // 'Name is too long. Max is 32 characters.'
    | BadName                            // 'Error: Bad symbols in your name.'
    // -- Python runtime errors, not BotErr --
    | KeyMissing                         // KeyError from a dictionary lookup
    | IndexOutOfRange                    // IndexError from a list subscript
    | NoneArithmetic                     // TypeError from arithmetic on None
    | NoneAttribute                      // AttributeError from a field of a missing row (None)

  /** The value of an operation, or the error it raised. */
  datatype Result<+T> = Ok(value: T) | Err(error: Error) {
    predicate IsFailure() { Err? }

    function PropagateFailure<U>(): Result<U>
      requires Err?
    {
      Err(error)
    }

    function Extract(): T
      requires Ok?
    {
      value
    }
  }

  /** A check that either passes or raises. */
  datatype Outcome = Pass | Fail(error: Error) {
    predicate IsFailure() { Fail? }

    function PropagateFailure<U>(): Result<U>
      requires Fail?
    {
      Err(error)
    }
  }
}

=== FILE: rounds.dfy ===
/** The round commands of challenge.py's `Context`: starting, ending,
    extending and rating a round, rerolling a title, and ending the challenge
    (which first ends its open round). Time is an integer clock `now`. */
module Rounds {
  import opened Results
  import opened Seqs
  import opened Pools
  import opened Challenges
  import opened Contexts

  /** The last round exists and has not been ended. */
  predicate HasOpenRound(c: Challenge) {
    |c.rounds| > 0 && !c.rounds[|c.rounds| - 1].isFinished
  }

  /** The open round. */
  function Open(c: Challenge): Round
    requires HasOpenRound(c)
  {
    c.rounds[|c.rounds| - 1]
  }

  /** `check_deadline`: fails once the clock is past the round's end. */
  function CheckDeadline(rnd: Round, now: int): (r: Outcome)
    ensures r.Pass? <==> now <= rnd.end
    ensures r.Fail? ==> r.error == RoundEnded
  {
    if now > rnd.end then Fail(RoundEnded) else Pass
  }

  /** The titles the rolls of a round assign, in the order of `ps`. */
  function RolledTitles(rolls: map<UserId, RollInfo>, ps: seq<UserId>): (r: seq<string>)
    requires forall k :: 0 <= k < |ps| ==> ps[k] in rolls
    ensures |r| == |ps|
    ensures forall k :: 0 <= k < |ps| ==> r[k] == rolls[ps[k]].title
  {
    seq(|ps|, k requires 0 <= k < |ps| => rolls[ps[k]].title)
  }

  /** `start_round`: checks, in this order, that the main pool exists (a
      KeyError otherwise), that no round is open, that someone is still
      active and that the main pool can supply one title each; then draws the
      titles with `pop_n` and appends an open round assigning the k-th draw to
      the k-th active participant. */
  function StartRound(ctx: Context, delta: int, now: int, rng: nat -> nat): (r: Result<Context>)
    ensures Current(ctx).Err? ==> r == Err(Current(ctx).error)
    ensures HasCurrent(ctx) && MainPool !in PoolNames(Cur(ctx).pools) ==> r == Err(KeyMissing)
    ensures HasCurrent(ctx) && MainPool in PoolNames(Cur(ctx).pools) && HasOpenRound(Cur(ctx)) ==>
      r == Err(FinishRoundFirst(|Cur(ctx).rounds|))
    ensures HasCurrent(ctx) && MainPool in PoolNames(Cur(ctx).pools) && !HasOpenRound(Cur(ctx)) ==>
      var c := Cur(ctx);
      var active := Active(c.participants, c.failed);
      var main := c.pools[PoolIndex(c.pools, MainPool).value].pool;
      && (|active| == 0 ==> r == Err(NotEnoughParticipants))
      && (0 < |active| ==> (r.Err? <==> |active| > |main.unusedTitles|))
      && (0 < |active| && r.Err? ==> r.error == NotEnoughTitles)
    ensures r.Ok? ==> OnlyCurrent(ctx, r.value)
    ensures r.Ok? ==>
      var c, c' := Cur(ctx), Cur(r.value);
      var n := |c.rounds|;
      && |c'.rounds| == n + 1 && c'.rounds[..n] == c.rounds
      && c'.rounds[n].rolls.Keys == set u | u in c.participants && u !in c.failed
      && (forall u :: u in c'.rounds[n].rolls ==> c'.rounds[n].rolls[u].score.None?)
      && c'.rounds[n].begin == now && c'.rounds[n].end == now + delta && !c'.rounds[n].isFinished
      && c' == c.(pools := c'.pools, rounds := c'.rounds)
  {
    match Current(ctx)
    case Err(e) => Err(e)
    case Ok(c) =>
      match PoolIndex(c.pools, MainPool)
      case None => Err(KeyMissing)
      case Some(k) =>
        if HasOpenRound(c) then Err(FinishRoundFirst(|c.rounds|))
        else
          var active := Active(c.participants, c.failed);
          if |active| == 0 then Err(NotEnoughParticipants)
          else
            match PopN(c.pools[k].pool, |active|, rng)
            case Err(e) => Err(e)
            case Ok(drawn) =>
              var rnd := Round(ZipRolls(active, drawn.1), now, now + delta, false);
              assert ZipRolls(active, drawn.1).Keys == set u | u in c.participants && u !in c.failed;
              Ok(Update(ctx, c.(pools := SetPool(c.pools, k, drawn.0), rounds := c.rounds + [rnd])))
  }

  /** A successful `start_round` is the main pool after `pop_n` and one more
      round built by `ZipRolls` from the draws. */
  lemma StartRoundUnfold(ctx: Context, delta: int, now: int, rng: nat -> nat)
    requires StartRound(ctx, delta, now, rng).Ok?
    ensures
      var c := Cur(ctx);
      var k := PoolIndex(c.pools, MainPool).value;
      var active := Active(c.participants, c.failed);
      var drawn := PopN(c.pools[k].pool, |active|, rng);
      && drawn.Ok?
      && Cur(StartRound(ctx, delta, now, rng).value) ==
           c.(pools := SetPool(c.pools, k, drawn.value.0),
              rounds := c.rounds + [Round(ZipRolls(active, drawn.value.1), now, now + delta, false)])
  {
  }

  /** What `start_round` draws: the titles the new rolls assign, read in
      roster order, together with what stays unused in the main pool, are
      exactly the main pool's unused titles before; no other pool changes.
      When the unused list has no repeats, no two rolls share a title and a
      rolled title is no longer unused. */
  lemma StartRoundDraws(ctx: Context, delta: int, now: int, rng: nat -> nat)
    requires StartRound(ctx, delta, now, rng).Ok?
    requires NoDup(Cur(ctx).participants)
    ensures
      var c, c' := Cur(ctx), Cur(StartRound(ctx, delta, now, rng).value);
      var k := PoolIndex(c.pools, MainPool).value;
      var main, main' := c.pools[k].pool, c'.pools[k].pool;
      var rolled := RolledTitles(c'.rounds[|c.rounds|].rolls, Active(c.participants, c.failed));
      && PoolNames(c'.pools) == PoolNames(c.pools)
      && (forall j :: 0 <= j < |c.pools| && j != k ==> c'.pools[j] == c.pools[j])
      && main'.allTitles == main.allTitles
      && multiset(rolled) + multiset(main'.unusedTitles) == multiset(main.unusedTitles)
      && (NoDup(main.unusedTitles) ==>
            NoDup(rolled) && forall t :: t in rolled ==> t in main.unusedTitles && t !in main'.unusedTitles)
  {
    var c, c' := Cur(ctx), Cur(StartRound(ctx, delta, now, rng).value);
    StartRoundUnfold(ctx, delta, now, rng);
    var k := PoolIndex(c.pools, MainPool).value;
    var active := Active(c.participants, c.failed);
    var drawn := PopN(c.pools[k].pool, |active|, rng).value;
    var rolled := RolledTitles(c'.rounds[|c.rounds|].rolls, active);
    assert c'.rounds[|c.rounds|].rolls == ZipRolls(active, drawn.1);
    ZipRollsAt(active, drawn.1);
    assert rolled == drawn.1;
    PopNProperties(c.pools[k].pool, |active|, rng);
  }

  /** `end_round`: every rolled participant without a score who has not
      failed before fails in this round (`len(rounds) - 1`); earlier failures
      keep their round; the round ends now. */
  function EndRound(ctx: Context, now: int): (r: Result<Context>)
    ensures Current(ctx).Err? ==> r == Err(Current(ctx).error)
    ensures HasCurrent(ctx) ==> (r.Err? <==> LastRound(Cur(ctx)).Err?)
    ensures HasCurrent(ctx) && r.Err? ==> r.error == LastRound(Cur(ctx)).error
    ensures r.Ok? ==> OnlyCurrent(ctx, r.value) && HasOpenRound(Cur(ctx))
    ensures r.Ok? ==>
      var c, c' := Cur(ctx), Cur(r.value);
      var n := |c.rounds| - 1;
      var rnd := c.rounds[n];
      && (forall p :: p in c'.failed <==> p in c.failed || (p in rnd.rolls && rnd.rolls[p].score.None?))
      && (forall p :: p in c.failed ==> c'.failed[p] == c.failed[p])
      && (forall p :: p in c'.failed && p !in c.failed ==> c'.failed[p] == n)
      && c'.rounds == c.rounds[n := rnd.(end := now, isFinished := true)]
      && c' == c.(failed := c'.failed, rounds := c'.rounds)
  {
    match Current(ctx)
    case Err(e) => Err(e)
    case Ok(c) =>
      match LastRound(c)
      case Err(e) => Err(e)
      case Ok(rnd) =>
        var n := |c.rounds| - 1;
        var missed := map p | p in rnd.rolls && rnd.rolls[p].score.None? && p !in c.failed :: n;
        var c' := c.(failed := c.failed + missed, rounds := c.rounds[n := rnd.(end := now, isFinished := true)]);
        Ok(Update(ctx, c'))
  }

  /** `extend_round`: moves the deadline of the open, unexpired round. */
  function ExtendRound(ctx: Context, delta: int, now: int): (r: Result<Context>)
    ensures Current(ctx).Err? ==> r == Err(Current(ctx).error)
    ensures HasCurrent(ctx) && LastRound(Cur(ctx)).Err? ==> r == Err(LastRound(Cur(ctx)).error)
    ensures HasCurrent(ctx) && HasOpenRound(Cur(ctx)) ==>
      (r.Err? <==> now > Open(Cur(ctx)).end) && (r.Err? ==> r.error == RoundEnded)
    ensures r.Ok? ==> OnlyCurrent(ctx, r.value)
    ensures r.Ok? ==>
      var c, c' := Cur(ctx), Cur(r.value);
      var n := |c.rounds| - 1;
      c' == c.(rounds := c.rounds[n := c.rounds[n].(end := c.rounds[n].end + delta)])
  {
    match Current(ctx)
    case Err(e) => Err(e)
    case Ok(c) =>
      match LastRound(c)
      case Err(e) => Err(e)
      case Ok(rnd) =>
        match CheckDeadline(rnd, now)
        case Fail(e) => Err(e)
        case Pass =>
          var n := |c.rounds| - 1;
          Ok(Update(ctx, c.(rounds := c.rounds[n := rnd.(end := rnd.end + delta)])))
  }

  /** The checks `rate` and `reroll` share: an active participant, an open
      round and an unexpired deadline, in that order. */
  function CheckOpenFor(c: Challenge, u: UserId, now: int): (r: Outcome)
    ensures r.Pass? <==> CheckParticipant(c, u).Pass? && HasOpenRound(c) && now <= Open(c).end
    ensures CheckParticipant(c, u).Fail? ==> r == CheckParticipant(c, u)
    ensures CheckParticipant(c, u).Pass? && LastRound(c).Err? ==> r == Fail(LastRound(c).error)
    ensures CheckParticipant(c, u).Pass? && HasOpenRound(c) && now > Open(c).end ==> r == Fail(RoundEnded)
  {
    match CheckParticipant(c, u)
    case Fail(e) => Fail(e)
    case Pass =>
      match LastRound(c)
      case Err(e) => Fail(e)
      case Ok(rnd) => CheckDeadline(rnd, now)
  }

  /** `rate`: overwrites the user's score in the open round and nothing else. */
  function Rate(ctx: Context, u: UserId, score: real, now: int): (r: Result<Context>)
    ensures Current(ctx).Err? ==> r == Err(Current(ctx).error)
    ensures HasCurrent(ctx) && CheckOpenFor(Cur(ctx), u, now).Fail? ==> r == Err(CheckOpenFor(Cur(ctx), u, now).error)
    ensures HasCurrent(ctx) && CheckOpenFor(Cur(ctx), u, now).Pass? && u !in Open(Cur(ctx)).rolls ==> r == Err(KeyMissing)
    ensures r.Ok? ==> OnlyCurrent(ctx, r.value) && CheckOpenFor(Cur(ctx), u, now).Pass?
    ensures r.Ok? ==> |Cur(r.value).rounds| == |Cur(ctx).rounds|
    ensures r.Ok? ==>
      var c, c' := Cur(ctx), Cur(r.value);
      var n := |c.rounds| - 1;
      var rolls, rolls' := c.rounds[n].rolls, c'.rounds[n].rolls;
      && u in rolls && rolls'.Keys == rolls.Keys
      && rolls'[u] == RollInfo(rolls[u].title, Some(score))
      && (forall v :: v in rolls && v != u ==> rolls'[v] == rolls[v])
      && c' == c.(rounds := c.rounds[n := c.rounds[n].(rolls := rolls')])
  {
    match Current(ctx)
    case Err(e) => Err(e)
    case Ok(c) =>
      match CheckOpenFor(c, u, now)
      case Fail(e) => Err(e)
      case Pass =>
        var n := |c.rounds| - 1;
        var rnd := c.rounds[n];
        if u !in rnd.rolls then Err(KeyMissing)
        else
          var rolls' := rnd.rolls[u := rnd.rolls[u].(score := Some(score))];
          Ok(Update(ctx, c.(rounds := c.rounds[n := rnd.(rolls := rolls')])))
  }

  /** `reroll`: draws a new title for the user from the named pool (the
      score is kept), then returns the old title to the first pool that owns
      it. Yields the new title. */
  function Reroll(ctx: Context, u: UserId, pool: string, now: int, pick: nat): (r: Result<(Context, string)>)
    ensures Current(ctx).Err? ==> r == Err(Current(ctx).error)
    ensures HasCurrent(ctx) && CheckOpenFor(Cur(ctx), u, now).Fail? ==> r == Err(CheckOpenFor(Cur(ctx), u, now).error)
    ensures HasCurrent(ctx) && CheckOpenFor(Cur(ctx), u, now).Pass? ==>
      var c := Cur(ctx);
      && (u !in Open(c).rolls ==> r == Err(KeyMissing))
      && (u in Open(c).rolls && pool !in PoolNames(c.pools) ==> r == Err(PoolNotFound(pool)))
      && (u in Open(c).rolls && pool in PoolNames(c.pools) ==>
            (r.Err? <==> |c.pools[PoolIndex(c.pools, pool).value].pool.unusedTitles| == 0))
    ensures r.Err? && r.error == NotEnoughTitles ==> HasCurrent(ctx) && pool in PoolNames(Cur(ctx).pools)
    ensures r.Ok? ==> OnlyCurrent(ctx, r.value.0) && CheckOpenFor(Cur(ctx), u, now).Pass?
    ensures r.Ok? ==> |Cur(r.value.0).rounds| == |Cur(ctx).rounds|
  {
    match Current(ctx)
    case Err(e) => Err(e)
    case Ok(c) =>
      match CheckOpenFor(c, u, now)
      case Fail(e) => Err(e)
      case Pass =>
        var n := |c.rounds| - 1;
        var rnd := c.rounds[n];
        if u !in rnd.rolls then Err(KeyMissing)
        else
          var prev := rnd.rolls[u].title;
          match PoolIndex(c.pools, pool)
          case None => Err(PoolNotFound(pool))
          case Some(k) =>
            match Pop(c.pools[k].pool, pick)
            case Err(e) => Err(e)
            case Ok(popped) =>
              var rolls' := rnd.rolls[u := rnd.rolls[u].(title := popped.1)];
              var pools' := ReturnTitle(SetPool(c.pools, k, popped.0), prev);
              Ok((Update(ctx, c.(pools := pools', rounds := c.rounds[n := rnd.(rolls := rolls')])), popped.1))
  }

  /** A successful `reroll` gives the user the title popped from the named
      pool, keeps the user's score and every other roll, and returns the old
      title to its pool. */
  lemma RerollShape(ctx: Context, u: UserId, pool: string, now: int, pick: nat)
    requires Reroll(ctx, u, pool, now, pick).Ok?
    ensures
      var r := Reroll(ctx, u, pool, now, pick).value;
      var c, c' := Cur(ctx), Cur(r.0);
      var n := |c.rounds| - 1;
      var rolls, rolls' := c.rounds[n].rolls, c'.rounds[n].rolls;
      && pool in PoolNames(c.pools)
      && var k := PoolIndex(c.pools, pool).value;
         && Pop(c.pools[k].pool, pick).Ok?
         && var popped := Pop(c.pools[k].pool, pick).value;
            && u in rolls && rolls'.Keys == rolls.Keys
            && r.1 == popped.1
            && rolls'[u] == RollInfo(popped.1, rolls[u].score)
            && (forall v :: v in rolls && v != u ==> rolls'[v] == rolls[v])
            && c'.pools == ReturnTitle(SetPool(c.pools, k, popped.0), rolls[u].title)
            && |c'.pools| == |c.pools|
            && (forall j :: 0 <= j < |c.pools| ==>
                  && c'.pools[j].name == c.pools[j].name
                  && c'.pools[j].pool.allTitles == c.pools[j].pool.allTitles
                  && c'.pools[j].pool.unusedTitles
                       == (if j == k then popped.0 else c.pools[j].pool).unusedTitles
                          + (if FirstOwner(c.pools, rolls[u].title, j) then [rolls[u].title] else []))
            && c' == c.(pools := c'.pools, rounds := c.rounds[n := c.rounds[n].(rolls := rolls')])
  {
    var r := Reroll(ctx, u, pool, now, pick).value;
    var c, c' := Cur(ctx), Cur(r.0);
    var n := |c.rounds| - 1;
    var t := c.rounds[n].rolls[u].title;
    var k := PoolIndex(c.pools, pool).value;
    var popped := Pop(c.pools[k].pool, pick).value;
    PopThenReturn(c.pools, k, popped.0, t);
  }

  /** Replacing pool `k` by `q` with the same titles and then returning `t`
      appends `t` to the first pool of the ORIGINAL pools that owns it. */
  lemma PopThenReturn(pools: seq<PoolEntry>, k: nat, q: Pool, t: string)
    requires k < |pools| && q.allTitles == pools[k].pool.allTitles
    ensures |ReturnTitle(SetPool(pools, k, q), t)| == |pools|
    ensures forall j :: 0 <= j < |pools| ==>
      && ReturnTitle(SetPool(pools, k, q), t)[j].name == pools[j].name
      && ReturnTitle(SetPool(pools, k, q), t)[j].pool.allTitles == pools[j].pool.allTitles
      && ReturnTitle(SetPool(pools, k, q), t)[j].pool.unusedTitles
           == (if j == k then q else pools[j].pool).unusedTitles + (if FirstOwner(pools, t, j) then [t] else [])
  {
    var mid := SetPool(pools, k, q);
    assert forall j :: 0 <= j < |pools| ==> mid[j].pool.allTitles == pools[j].pool.allTitles;
    assert forall j :: FirstOwner(mid, t, j) <==> FirstOwner(pools, t, j);
  }

  /** `end_challenge`: ends the open round, if any, then clears the current
      challenge; the challenge itself stays in the map. */
  function EndChallenge(ctx: Context, now: int): (r: Result<Context>)
    ensures Current(ctx).Err? ==> r == Err(Current(ctx).error)
    ensures r.Ok? <==> HasCurrent(ctx)
    ensures r.Ok? ==> r.value.current.None? && r.value.users == ctx.users
    ensures r.Ok? ==> r.value.challenges.Keys == ctx.challenges.Keys
    ensures r.Ok? ==> forall n :: n in ctx.challenges && n != ctx.current.value ==>
      r.value.challenges[n] == ctx.challenges[n]
    ensures r.Ok? && HasOpenRound(Cur(ctx)) ==> r.value.challenges == EndRound(ctx, now).value.challenges
    ensures r.Ok? && !HasOpenRound(Cur(ctx)) ==> r.value.challenges == ctx.challenges
    ensures r.Ok? ==> !HasOpenRound(r.value.challenges[ctx.current.value])
  {
    match Current(ctx)
    case Err(e) => Err(e)
    case Ok(c) =>
      if HasOpenRound(c) then
        match EndRound(ctx, now)
        case Err(e) => Err(e)
        case Ok(ctx') => Ok(ctx'.(current := None))
      else Ok(ctx.(current := None))
  }
}

=== FILE: scores.dfy ===
/** Score statistics and score colours shared by the spreadsheet exports:
    export.py's `update_stats` accumulator with the final average of
    `sync_export`, xlsx.py's `export_stats` loop, and the `score_col`
    colour bands both files define identically. */
module Scores {
  import opened Results

  /** The red both exports use for failed and struck-through cells. */
  const Red: string := "#FF0000"

  /** `score_col`: grey for no score, then red, yellow and green bands with
      bounds 10/3 and 10/1.5. */
  function ScoreColor(score: Option<real>): (r: string)
  {
    if score.None? then "#808080"
    else if score.value < 10.0 / 3.0 then "#DD7E6B"
    else if score.value < 10.0 / 1.5 then "#F1C232"
    else "#6AA84F"
  }

  /** The band of a score, 0 (red) to 2 (green). */
  function Band(s: real): (r: nat)
  {
    if s < 10.0 / 3.0 then 0 else if s < 20.0 / 3.0 then 1 else 2
  }

  const BandColors: seq<string> := ["#DD7E6B", "#F1C232", "#6AA84F"]

  /** The colour of a score is its band's colour; the bands split [0, 10]
      at 10/3 and 20/3, and a higher score never gets a lower band. */
  lemma ScoreColorBands(a: real, b: real)
    ensures ScoreColor(None) == "#808080"
    ensures ScoreColor(Some(a)) == BandColors[Band(a)]
    ensures Band(a) == 0 <==> a < 10.0 / 3.0
    ensures Band(a) == 2 <==> 20.0 / 3.0 <= a
    ensures a <= b ==> Band(a) <= Band(b)
    ensures ScoreColor(Some(0.0)) == "#DD7E6B" && ScoreColor(Some(5.0)) == "#F1C232" && ScoreColor(Some(10.0)) == "#6AA84F"
  {
  }

  /** The scores that are present, in order. */
  function Present(scores: seq<Option<real>>): (r: seq<real>)
    ensures |r| <= |scores|
    ensures forall x :: x in r <==> Some(x) in scores
  {
    if |scores| == 0 then []
    else
      var n := |scores| - 1;
      assert scores == scores[..n] + [scores[n]];
      Present(scores[..n]) + (if scores[n].Some? then [scores[n].value] else [])
  }

  function Sum(xs: seq<real>): real {
    if |xs| == 0 then 0.0 else Sum(xs[..|xs| - 1]) + xs[|xs| - 1]
  }

  /** An entry of `stats`: min, max, sum and count, each `None` until the
      first score. */
  datatype Stat = Stat(min: Option<real>, max: Option<real>, sum: Option<real>, n: Option<int>)

  /** The four fields of an entry are set together, and a set count is positive. */
  predicate Consistent(st: Stat) {
    && (st.min.None? <==> st.max.None?) && (st.min.None? <==> st.sum.None?) && (st.min.None? <==> st.n.None?)
    && (st.n.Some? ==> st.n.value > 0)
  }

  /** One `update_stats` call on a participant's entry (`None` when absent):
      the entry is created even for a missing score, which changes nothing
      else. */
  function Step(entry: Option<Stat>, score: Option<real>): (r: Stat)
    ensures score.None? ==> r == if entry.Some? then entry.value else Stat(None, None, None, None)
    ensures (entry.None? || Consistent(entry.value)) ==> Consistent(r)
  {
    var st := if entry.Some? then entry.value else Stat(None, None, None, None);
    if score.None? then st
    else
      var s := score.value;
      Stat(if st.min.None? then Some(s) else Some(if st.min.value <= s then st.min.value else s),
           if st.max.None? then Some(s) else Some(if st.max.value >= s then st.max.value else s),
           if st.sum.None? then Some(s) else Some(st.sum.value + s),
           if st.n.None? then Some(1) else Some(st.n.value + 1))
  }

  /** `update_stats` on the whole `stats` dictionary. */
  function UpdateStats(stats: map<int, Stat>, id: int, score: Option<real>): (r: map<int, Stat>)
    ensures r.Keys == stats.Keys + {id}
    ensures r[id] == Step(if id in stats then Some(stats[id]) else None, score)
    ensures forall k :: k in stats && k != id ==> r[k] == stats[k]
  {
    stats[id := Step(if id in stats then Some(stats[id]) else None, score)]
  }

  /** A participant's entry after one `update_stats` call per round. */
  function Accumulate(scores: seq<Option<real>>): (r: Option<Stat>)
    ensures r.None? <==> |scores| == 0
    ensures r.Some? ==> Consistent(r.value)
  {
    if |scores| == 0 then None
    else Some(Step(Accumulate(scores[..|scores| - 1]), scores[|scores| - 1]))
  }

  /** What an entry records: all four fields are absent until a score is
      seen; then min and max are recorded scores bounding every recorded
      score, sum is their sum and n their number. */
  ghost predicate Records(st: Stat, xs: seq<real>) {
    && (|xs| == 0 <==> st.min.None?)
    && Consistent(st)
    && (|xs| > 0 ==>
          && st.min.value in xs && st.max.value in xs
          && (forall x :: x in xs ==> st.min.value <= x <= st.max.value)
          && st.sum.value == Sum(xs) && st.n.value == |xs|)
  }

  lemma {:induction false} AccumulateRecords(scores: seq<Option<real>>)
    requires |scores| > 0
    ensures Records(Accumulate(scores).value, Present(scores))
    decreases |scores|
  {
    var n := |scores| - 1;
    var prefix := scores[..n];
    var xs := Present(prefix);
    assert Present(scores) == xs + (if scores[n].Some? then [scores[n].value] else []);
    if n == 0 {
      assert xs == [];
      if scores[n].Some? {
        assert Present(scores) == [scores[n].value];
      }
    } else {
      AccumulateRecords(prefix);
      if scores[n].Some? {
        var ys := xs + [scores[n].value];
        assert Present(scores) == ys;
        assert ys[..|ys| - 1] == xs;
        assert Sum(ys) == Sum(xs) + scores[n].value;
        assert forall x :: x in ys ==> x in xs || x == scores[n].value;
      } else {
        assert Present(scores) == xs;
      }
    }
  }

  /** The final `stats` of `sync_export`: min, max and `sum / n`. */
  function Finalize(st: Stat): (r: (Option<real>, Option<real>, Option<real>))
    requires Consistent(st)
  {
    (st.min, st.max, if st.sum.None? then None else Some(st.sum.value / (st.n.value as real)))
  }

  /** What `sync_export` prints for an entry recording the scores `xs`:
      all `None` when there are none, otherwise the least, the greatest and
      the mean of `xs`, the mean lying between the other two. */
  predicate Summarizes(lo: Option<real>, hi: Option<real>, avg: Option<real>, xs: seq<real>) {
    && (|xs| == 0 <==> avg.None?)
    && (|xs| == 0 ==> lo.None? && hi.None?)
    && (|xs| > 0 ==>
          && lo.Some? && hi.Some? && avg.Some?
          && lo.value in xs && hi.value in xs
          && (forall x :: x in xs ==> lo.value <= x <= hi.value)
          && avg.value == Sum(xs) / (|xs| as real)
          && lo.value <= avg.value <= hi.value)
  }

  lemma FinalizeSummarizes(st: Stat, xs: seq<real>)
    requires Records(st, xs)
    ensures Summarizes(Finalize(st).0, Finalize(st).1, Finalize(st).2, xs)
  {
    if |xs| > 0 {
      SumBounds(xs, st.min.value, st.max.value);
      MeanBetween(Sum(xs), |xs| as real, st.min.value, st.max.value);
    }
  }

  /** A participant's exported min, max and average summarize the scores
      the rounds gave them. */
  lemma ExportedStats(scores: seq<Option<real>>)
    requires |scores| > 0
    ensures
      var r := Finalize(Accumulate(scores).value);
      Summarizes(r.0, r.1, r.2, Present(scores))
  {
    AccumulateRecords(scores);
    FinalizeSummarizes(Accumulate(scores).value, Present(scores));
  }

  lemma MeanBetween(sum: real, n: real, lo: real, hi: real)
    requires n > 0.0 && n * lo <= sum <= n * hi
    ensures lo <= sum / n <= hi
  {
    assert sum / n * n == sum;
  }

  /** A sum of `|xs|` values between `lo` and `hi` lies between `|xs| * lo`
      and `|xs| * hi`. */
  lemma {:induction false} SumBounds(xs: seq<real>, lo: real, hi: real)
    requires forall x :: x in xs ==> lo <= x <= hi
    ensures (|xs| as real) * lo <= Sum(xs) <= (|xs| as real) * hi
    decreases |xs|
  {
    if |xs| > 0 {
      var n := |xs| - 1;
      assert forall x :: x in xs[..n] ==> x in xs;
      SumBounds(xs[..n], lo, hi);
      assert xs[n] in xs;
    }
  }

  /** xlsx.py `export_stats` for one participant: the same running min, max
      and sum over the rounds' scores, a plain count, and `sum / n`. */
  function Summarize(scores: seq<Option<real>>): (r: (Option<real>, Option<real>, Option<real>))
  {
    var (lo, hi, sum, n) := Scan(scores);
    (lo, hi, if sum.None? then None else Some(sum.value / (n as real)))
  }

  /** The loop of `export_stats` over the rounds. */
  function Scan(scores: seq<Option<real>>): (r: (Option<real>, Option<real>, Option<real>, nat))
    ensures r.2.Some? <==> r.3 > 0
  {
    if |scores| == 0 then (None, None, None, 0)
    else
      var (lo, hi, sum, n) := Scan(scores[..|scores| - 1]);
      var s := scores[|scores| - 1];
      if s.None? then (lo, hi, sum, n)
      else
        var x := s.value;
        (if lo.None? then Some(x) else Some(if lo.value <= x then lo.value else x),
         if hi.None? then Some(x) else Some(if hi.value >= x then hi.value else x),
         if sum.None? then Some(x) else Some(sum.value + x),
         n + 1)
  }

  /** The two exports agree: the xlsx statistics of a participant are the
      export.py statistics of the same scores, and all `None` for a
      participant `update_stats` never saw. */
  lemma {:induction false} ExportsAgree(scores: seq<Option<real>>)
    ensures |scores| == 0 ==> Summarize(scores) == (None, None, None)
    ensures |scores| > 0 ==>
      Summarize(scores) == Finalize(Accumulate(scores).value)
  {
    if |scores| > 0 {
      ScanMatches(scores);
      AccumulateRecords(scores);
    }
  }

  lemma {:induction false} ScanMatches(scores: seq<Option<real>>)
    requires |scores| > 0
    ensures
      var st := Accumulate(scores).value;
      var (lo, hi, sum, n) := Scan(scores);
      && lo == st.min && hi == st.max && sum == st.sum
      && (st.n.None? ==> n == 0) && (st.n.Some? ==> n == st.n.value)
    decreases |scores|
  {
    if |scores| > 1 {
      ScanMatches(scores[..|scores| - 1]);
    }
  }
}

=== FILE: seqs.dfy ===
/** Sequence helpers for the list operations the bot performs on Python lists. */
module Seqs {
  import opened Results

  /** No element occurs twice. */
  predicate NoDup<T(==)>(s: seq<T>) {
    forall i, j | 0 <= i < j < |s| :: s[i] != s[j]
  }

  /** Index of the first element satisfying `p`, if any. */
  function FindIndex<T>(s: seq<T>, p: T -> bool): (r: Option<nat>)
    ensures r.Some? ==> r.value < |s| && p(s[r.value])
    ensures r.Some? ==> forall k :: 0 <= k < r.value ==> !p(s[k])
    ensures r.None? ==> forall k :: 0 <= k < |s| ==> !p(s[k])
  {
    if |s| == 0 then None
    else if p(s[0]) then Some(0)
    else match FindIndex(s[1..], p)
      case None => None
      case Some(k) => Some(k + 1)
  }

  /** Python's `s.pop(i)`: the list without its `i`-th element. */
  function RemoveAt<T>(s: seq<T>, i: nat): (r: seq<T>)
    requires i < |s|
    ensures |r| == |s| - 1
    ensures multiset(r) + multiset{s[i]} == multiset(s)
    ensures forall k :: 0 <= k < i ==> r[k] == s[k]
    ensures forall k :: i <= k < |r| ==> r[k] == s[k + 1]
    ensures forall y :: y in r ==> y in s
    ensures NoDup(s) ==> NoDup(r) && s[i] !in r
  {
    assert s == s[..i] + [s[i]] + s[i + 1..];
    s[..i] + s[i + 1..]
  }

  /** Python's `s.remove(x)` guarded by `if x in s`: drops the first occurrence of `x`. */
  function RemoveFirst<T(==,!new)>(s: seq<T>, x: T): (r: seq<T>)
    ensures x in s ==> multiset(r) + multiset{x} == multiset(s)
    ensures x !in s ==> r == s
    ensures forall y :: y in r ==> y in s
    ensures forall y :: y in s && y != x ==> y in r
  {
    if |s| == 0 then []
    else
      assert s == [s[0]] + s[1..];
      if s[0] == x then s[1..]
      else [s[0]] + RemoveFirst(s[1..], x)
  }

  /** The elements of `s` that are not in `xs`, in order. */
  function Without<T(==,!new)>(s: seq<T>, xs: set<T>): (r: seq<T>)
    ensures forall y :: y in r <==> y in s && y !in xs
    ensures NoDup(s) ==> NoDup(r)
  {
    if |s| == 0 then []
    else
      assert NoDup(s) ==> NoDup(s[1..]) && s[0] !in s[1..];
      var rest := Without(s[1..], xs);
      if s[0] in xs then rest
      else [s[0]] + rest
  }

  /** The elements of `s` satisfying `p`, in order (a list comprehension with `if`). */
  function Filter<T(!new)>(s: seq<T>, p: T -> bool): (r: seq<T>)
    ensures |r| <= |s|
    ensures forall y :: y in r <==> y in s && p(y)
    ensures NoDup(s) ==> NoDup(r)
  {
    if |s| == 0 then []
    else
      assert NoDup(s) ==> NoDup(s[1..]) && s[0] !in s[1..];
      var rest := Filter(s[1..], p);
      if p(s[0]) then [s[0]] + rest else rest
  }

  /** Rewrites, in place, the elements that satisfy `hit` (an UPDATE ... WHERE). */
  function Patch<T>(s: seq<T>, hit: T -> bool, f: T -> T): (r: seq<T>)
    ensures |r| == |s|
    ensures forall i :: 0 <= i < |s| ==> r[i] == if hit(s[i]) then f(s[i]) else s[i]
  {
    seq(|s|, i requires 0 <= i < |s| => if hit(s[i]) then f(s[i]) else s[i])
  }

  /** `[xs.pop(randrange(len(xs))) for _ in range(n)]`: `n` successive draws
      without replacement, the k-th one at position `rng(from + k)` modulo the
      current length. */
  function Draw<T(==,!new)>(xs: seq<T>, n: nat, rng: nat -> nat, from: nat): (r: seq<T>)
    requires n <= |xs|
    ensures |r| == n
    ensures forall y :: y in r ==> y in xs
    ensures NoDup(xs) ==> NoDup(r)
    decreases n
  {
    if n == 0 then []
    else
      var i := rng(from) % |xs|;
      var rest := Draw(RemoveAt(xs, i), n - 1, rng, from + 1);
      assert NoDup(xs) ==> xs[i] !in rest;
      [xs[i]] + rest
  }

  /** On a duplicate-free list, removing the first occurrence removes every occurrence. */
  lemma {:induction false} RemoveFirstIsWithout<T(!new)>(s: seq<T>, x: T)
    requires NoDup(s)
    ensures RemoveFirst(s, x) == Without(s, {x})
  {
    if |s| > 0 {
      assert NoDup(s[1..]);
      RemoveFirstIsWithout(s[1..], x);
      if s[0] == x {
        assert x !in s[1..];
        WithoutAbsent(s[1..], {x});
      }
    }
  }

  /** Filtering out one set and then another filters out their union. */
  lemma {:induction false} WithoutTwice<T(!new)>(s: seq<T>, xs: set<T>, ys: set<T>)
    ensures Without(Without(s, xs), ys) == Without(s, xs + ys)
  {
    if |s| > 0 {
      WithoutTwice(s[1..], xs, ys);
      if s[0] !in xs {
        var rest := Without(s[1..], xs);
        assert ([s[0]] + rest)[1..] == rest;
      }
    }
  }

  /** Filtering out elements that do not occur changes nothing. */
  lemma {:induction false} WithoutAbsent<T(!new)>(s: seq<T>, xs: set<T>)
    requires forall y :: y in s ==> y !in xs
    ensures Without(s, xs) == s
  {
    if |s| > 0 {
      assert s[0] in s && s[0] !in xs;
      assert forall y :: y in s[1..] ==> y in s;
      WithoutAbsent(s[1..], xs);
      assert Without(s, xs) == [s[0]] + s[1..];
    }
  }

  /** A duplicate-free list holds each element at most once, as a multiset. */
  lemma {:induction false} NoDupCount<T>(s: seq<T>, x: T)
    requires NoDup(s)
    ensures multiset(s)[x] <= 1
  {
    if |s| > 0 {
      assert s == [s[0]] + s[1..];
      assert NoDup(s[1..]);
      NoDupCount(s[1..], x);
      if s[0] == x {
        assert x !in s[1..];
      }
    }
  }

  /** A list whose multiset counts are all at most one is duplicate-free. */
  lemma CountNoDup<T>(s: seq<T>)
    requires forall x :: multiset(s)[x] <= 1
    ensures NoDup(s)
  {
    forall i, j | 0 <= i < j < |s|
      ensures s[i] != s[j]
    {
      assert s == s[..j] + s[j..];
      assert s[i] in s[..j];
      assert s[j] in s[j..];
      assert multiset(s)[s[j]] == multiset(s[..j])[s[j]] + multiset(s[j..])[s[j]];
    }
  }

  /** Splitting a list's multiset in two keeps membership within the list. */
  lemma SplitMembers<T>(a: seq<T>, b: seq<T>, s: seq<T>)
    requires multiset(a) + multiset(b) == multiset(s)
    ensures forall x :: x in a ==> x in s
    ensures forall x :: x in b ==> x in s
  {
    forall x | x in a ensures x in s {
      assert multiset(a)[x] > 0;
      assert x in multiset(s);
    }
    forall x | x in b ensures x in s {
      assert multiset(b)[x] > 0;
      assert x in multiset(s);
    }
  }

  /** Splitting a duplicate-free list's multiset gives two duplicate-free,
      disjoint lists. */
  lemma SplitDistinct<T>(a: seq<T>, b: seq<T>, s: seq<T>)
    requires multiset(a) + multiset(b) == multiset(s) && NoDup(s)
    ensures NoDup(a) && NoDup(b)
    ensures forall x :: x in a ==> x !in b
  {
    forall x ensures multiset(a)[x] <= 1 && multiset(b)[x] <= 1 && multiset(a)[x] + multiset(b)[x] <= 1 {
      NoDupCount(s, x);
    }
    CountNoDup(a);
    CountNoDup(b);
    forall x | x in a ensures x !in b {
      assert x in multiset(a);
      assert multiset(b)[x] == 0;
    }
  }
}

=== FILE: sorting.dfy ===
/** Python's `sorted(xs, key=...)` on string keys, as both exports use it to
    order participants by name: strings compare by code point,
    lexicographically, and the sort is stable. */
module Sorting {
  import opened Seqs

  /** Python's `a <= b` on strings. */
  predicate LexLe(a: string, b: string)
    decreases |a|
  {
    if |a| == 0 then true
    else if |b| == 0 then false
    else if a[0] != b[0] then a[0] < b[0]
    else LexLe(a[1..], b[1..])
  }

  /** Any two strings compare one way or the other, and only equal strings
      compare both ways. */
  lemma {:induction false} LexTotal(a: string, b: string)
    ensures LexLe(a, b) || LexLe(b, a)
    ensures LexLe(a, b) && LexLe(b, a) ==> a == b
    decreases |a|
  {
    if |a| > 0 && |b| > 0 && a[0] == b[0] {
      LexTotal(a[1..], b[1..]);
      assert a == [a[0]] + a[1..] && b == [b[0]] + b[1..];
    }
  }

  lemma {:induction false} LexTrans(a: string, b: string, c: string)
    requires LexLe(a, b) && LexLe(b, c)
    ensures LexLe(a, c)
    decreases |a|
  {
    if |a| > 0 && |b| > 0 && |c| > 0 && a[0] == b[0] && b[0] == c[0] {
      LexTrans(a[1..], b[1..], c[1..]);
    }
  }

  /** Every string is at most itself. */
  lemma {:induction false} LexRefl(a: string)
    ensures LexLe(a, a)
    decreases |a|
  {
    if |a| > 0 {
      LexRefl(a[1..]);
    }
  }

  ghost predicate SortedBy<T(!new)>(s: seq<T>, key: T -> string) {
    forall i, j :: 0 <= i < j < |s| ==> LexLe(key(s[i]), key(s[j]))
  }

  /** The elements whose key is `k`, in order. */
  function WithKey<T(==,!new)>(s: seq<T>, key: T -> string, k: string): (r: seq<T>)
    ensures forall x :: x in r <==> x in s && key(x) == k
  {
    if |s| == 0 then []
    else (if key(s[0]) == k then [s[0]] else []) + WithKey(s[1..], key, k)
  }

  /** Puts `x` before the first element whose key is not below its own. */
  function Insert<T(==,!new)>(x: T, s: seq<T>, key: T -> string): (r: seq<T>)
    ensures multiset(r) == multiset(s) + multiset{x}
    ensures forall y :: y in r <==> y == x || y in s
  {
    if |s| == 0 || LexLe(key(x), key(s[0])) then [x] + s
    else
      var rest := Insert(x, s[1..], key);
      assert s == [s[0]] + s[1..];
      [s[0]] + rest
  }

  /** `sorted(xs, key=key)`. */
  function SortBy<T(==,!new)>(xs: seq<T>, key: T -> string): (r: seq<T>)
    ensures multiset(r) == multiset(xs)
  {
    if |xs| == 0 then []
    else
      assert xs == [xs[0]] + xs[1..];
      Insert(xs[0], SortBy(xs[1..], key), key)
  }

  lemma {:induction false} InsertSorted<T(!new)>(x: T, s: seq<T>, key: T -> string)
    requires SortedBy(s, key)
    ensures SortedBy(Insert(x, s, key), key)
    decreases |s|
  {
    var r := Insert(x, s, key);
    if |s| == 0 {
    } else if LexLe(key(x), key(s[0])) {
      forall i, j | 0 <= i < j < |r|
        ensures LexLe(key(r[i]), key(r[j]))
      {
        if i == 0 && j > 1 {
          LexTrans(key(x), key(s[0]), key(s[j - 1]));
        }
      }
    } else {
      LexTotal(key(x), key(s[0]));
      var rest := Insert(x, s[1..], key);
      InsertSorted(x, s[1..], key);
      forall i, j | 0 <= i < j < |r|
        ensures LexLe(key(r[i]), key(r[j]))
      {
        if i == 0 {
          assert r[j] in rest;
          if r[j] != x {
            var m :| 0 <= m < |s[1..]| && s[1..][m] == r[j];
            assert s[m + 1] == r[j];
          }
        }
      }
    }
  }

  lemma WithKeyCons<T(!new)>(a: T, s: seq<T>, key: T -> string, k: string)
    ensures WithKey([a] + s, key, k) == (if key(a) == k then [a] else []) + WithKey(s, key, k)
  {
    assert ([a] + s)[1..] == s;
  }

  /** Inserting `x` puts it ahead of every element with the same key. */
  lemma {:induction false} InsertWithKey<T(!new)>(x: T, s: seq<T>, key: T -> string, k: string)
    ensures WithKey(Insert(x, s, key), key, k) == (if key(x) == k then [x] else []) + WithKey(s, key, k)
    decreases |s|
  {
    if |s| == 0 || LexLe(key(x), key(s[0])) {
      WithKeyCons(x, s, key, k);
    } else {
      var rest := Insert(x, s[1..], key);
      assert Insert(x, s, key) == [s[0]] + rest;
      assert s == [s[0]] + s[1..];
      WithKeyCons(s[0], rest, key, k);
      WithKeyCons(s[0], s[1..], key, k);
      InsertWithKey(x, s[1..], key, k);
      if key(x) == k {
        LexRefl(k);
      }
    }
  }

  /** The sort orders by key, keeps every element, and is stable: the
      elements sharing any one key keep their original order. */
  lemma {:induction false} SortByProperties<T(!new)>(xs: seq<T>, key: T -> string)
    ensures SortedBy(SortBy(xs, key), key)
    ensures multiset(SortBy(xs, key)) == multiset(xs)
    ensures forall k :: WithKey(SortBy(xs, key), key, k) == WithKey(xs, key, k)
    decreases |xs|
  {
    if |xs| > 0 {
      SortByProperties(xs[1..], key);
      InsertSorted(xs[0], SortBy(xs[1..], key), key);
      forall k
        ensures WithKey(SortBy(xs, key), key, k) == WithKey(xs, key, k)
      {
        InsertWithKey(xs[0], SortBy(xs[1..], key), key, k);
      }
    }
  }
}

=== FILE: store.dfy ===
/** bot.py's commands over an abstract relational store. Each table is a list
    of rows in insertion order and rows refer to each other by id; a command
    either raises or yields the store after its updates. One guild is
    modelled, and every user a command mentions is assumed registered. */
module Store {
  import opened Results
  import opened Seqs
  import Contexts
  import Karma

  /** `timedelta(days=1)` in clock units. */
  const SecondsPerDay: int := 86400

  datatype UserRow = UserRow(name: string, color: string, karma: real)
  datatype ChallengeRow = ChallengeRow(id: int, name: string, start: int, finish: Option<int>)
  datatype PoolRow = PoolRow(id: int, challenge: int, name: string)
  /** `proposer` of a title and `participant` of a roll are participant ids. */
  datatype ParticipantRow = ParticipantRow(
    id: int, challenge: int, user: int, failedRound: Option<int>, progress: Option<int>, total: Option<int>)
  datatype TitleRow = TitleRow(id: int, pool: int, proposer: int, name: string, url: Option<string>, isUsed: bool)
  datatype RoundRow = RoundRow(id: int, num: int, challenge: int, start: int, finish: int, isFinished: bool)
  /** A roll is keyed by its round and participant. */
  datatype RollRow = RollRow(round: int, participant: int, title: int, score: Option<real>)

  datatype Guild = Guild(
    users: map<int, UserRow>,
    challenges: seq<ChallengeRow>,
    current: Option<int>,
    pools: seq<PoolRow>,
    participants: seq<ParticipantRow>,
    titles: seq<TitleRow>,
    rounds: seq<RoundRow>,
    rolls: seq<RollRow>,
    nextId: int)

  /** A single-row query (`fromrow`): the first row satisfying `p`, or None. */
  function First<T>(s: seq<T>, p: T -> bool): (r: Option<T>)
    ensures r.None? <==> forall i :: 0 <= i < |s| ==> !p(s[i])
    ensures r.Some? ==> r.value in s && p(r.value)
  {
    match FindIndex(s, p)
    case None => None
    case Some(i) => Some(s[i])
  }

  /** The current challenge's row; None when unset or dangling. */
  function CurrentRow(g: Guild): Option<ChallengeRow> {
    match g.current
    case None => None
    case Some(id) => First(g.challenges, (c: ChallengeRow) => c.id == id)
  }

  /** `has_started`: the challenge has a round. */
  predicate HasStarted(g: Guild, cid: int) {
    exists i :: 0 <= i < |g.rounds| && g.rounds[i].challenge == cid
  }

  /** `fetch_last_round`: the challenge's round with the greatest number. */
  function Latest(rs: seq<RoundRow>, cid: int): (r: Option<RoundRow>)
    ensures r.None? <==> forall i :: 0 <= i < |rs| ==> rs[i].challenge != cid
    ensures r.Some? ==> r.value in rs && r.value.challenge == cid
    ensures r.Some? ==> forall i :: 0 <= i < |rs| && rs[i].challenge == cid ==> rs[i].num <= r.value.num
  {
    if |rs| == 0 then None
    else
      var rest := Latest(rs[1..], cid);
      if rs[0].challenge != cid then rest
      else if rest.Some? && rest.value.num > rs[0].num then rest
      else Some(rs[0])
  }

  /** `State.fetch`: needs a current challenge and, unless `allowStarted`,
      one without rounds. */
  function Fetch(g: Guild, allowStarted: bool): (r: Result<ChallengeRow>)
    ensures CurrentRow(g).None? ==> r == Err(NoChallenge)
    ensures CurrentRow(g).Some? && !allowStarted && HasStarted(g, CurrentRow(g).value.id) ==> r == Err(ChallengeStarted)
    ensures r.Ok? <==> CurrentRow(g).Some? && (allowStarted || !HasStarted(g, CurrentRow(g).value.id))
    ensures r.Ok? ==> r.value == CurrentRow(g).value
  {
    match CurrentRow(g)
    case None => Err(NoChallenge)
    case Some(c) => if !allowStarted && HasStarted(g, c.id) then Err(ChallengeStarted) else Ok(c)
  }

  /** `State.fetch_last_round`: needs a round that is not finished and,
      unless `allowPastDeadline`, whose deadline has not passed. */
  function FetchLastRound(g: Guild, cid: int, allowPastDeadline: bool, now: int): (r: Result<RoundRow>)
    ensures Latest(g.rounds, cid).None? ==> r == Err(NoRound)
    ensures Latest(g.rounds, cid).Some? ==>
      var lr := Latest(g.rounds, cid).value;
      && (r.Ok? <==> !lr.isFinished && (allowPastDeadline || now <= lr.finish))
      && (r.Err? ==> r.error == RoundEnded)
      && (r.Ok? ==> r.value == lr)
  {
    match Latest(g.rounds, cid)
    case None => Err(NoRound)
    case Some(lr) =>
      if lr.isFinished || (!allowPastDeadline && now > lr.finish) then Err(RoundEnded) else Ok(lr)
  }

  /** The participant row of user `uid` in challenge `cid`. */
  function ParticipantOf(g: Guild, cid: int, uid: int): Option<ParticipantRow> {
    First(g.participants, (p: ParticipantRow) => p.challenge == cid && p.user == uid)
  }

  /** `State.fetch_participant`: the user takes part and has not failed. */
  function FetchParticipant(g: Guild, cid: int, uid: int): (r: Result<ParticipantRow>)
    ensures ParticipantOf(g, cid, uid).None? ==> r == Err(NotParticipating(uid))
    ensures ParticipantOf(g, cid, uid).Some? && ParticipantOf(g, cid, uid).value.failedRound.Some? ==>
      r == Err(HasFailed(uid))
    ensures r.Ok? <==> ParticipantOf(g, cid, uid).Some? && ParticipantOf(g, cid, uid).value.failedRound.None?
    ensures r.Ok? ==> r.value == ParticipantOf(g, cid, uid).value && r.value.user == uid && r.value.challenge == cid
  {
    match ParticipantOf(g, cid, uid)
    case None => Err(NotParticipating(uid))
    case Some(p) => if p.failedRound.Some? then Err(HasFailed(uid)) else Ok(p)
  }

  /** `fetch_roll`: the roll of a participant in a round. */
  function RollOf(g: Guild, rid: int, pid: int): Option<RollRow> {
    First(g.rolls, (x: RollRow) => x.round == rid && x.participant == pid)
  }

  /** A pool of the challenge by name. */
  function PoolOf(g: Guild, cid: int, name: string): Option<PoolRow> {
    First(g.pools, (p: PoolRow) => p.challenge == cid && p.name == name)
  }

  /** `fetch_unused_titles`. */
  function UnusedTitles(g: Guild, pid: int): (r: seq<TitleRow>)
    ensures forall t :: t in r <==> t in g.titles && t.pool == pid && !t.isUsed
  {
    Filter(g.titles, (t: TitleRow) => t.pool == pid && !t.isUsed)
  }

  /** The challenge name is taken. */
  predicate HasChallenge(g: Guild, name: string) {
    exists i :: 0 <= i < |g.challenges| && g.challenges[i].name == name
  }

  /** `start_challenge`: with no current challenge and a new name, adds the
      challenge, its main pool, and makes it current. */
  function StartChallenge(g: Guild, name: string, now: int): (r: Result<Guild>)
    ensures g.current.Some? && CurrentRow(g).Some? ==> r == Err(FinishChallengeFirst(CurrentRow(g).value.name))
    ensures g.current.Some? && CurrentRow(g).None? ==> r == Err(NoneAttribute)
    ensures g.current.None? && HasChallenge(g, name) ==> r == Err(ChallengeExists(name))
    ensures r.Ok? <==> g.current.None? && !HasChallenge(g, name)
    ensures r.Ok? ==>
      && r.value.challenges == g.challenges + [ChallengeRow(g.nextId, name, now, None)]
      && r.value.pools == g.pools + [PoolRow(g.nextId + 1, g.nextId, Contexts.MainPool)]
      && r.value == g.(challenges := r.value.challenges, pools := r.value.pools,
                       current := Some(g.nextId), nextId := g.nextId + 2)
  {
    if g.current.Some? then
      match CurrentRow(g)
      case None => Err(NoneAttribute)
      case Some(c) => Err(FinishChallengeFirst(c.name))
    else if HasChallenge(g, name) then Err(ChallengeExists(name))
    else
      var id := g.nextId;
      var c := ChallengeRow(id, name, now, None);
      var g' := g.(challenges := g.challenges + [c],
                   pools := g.pools + [PoolRow(id + 1, id, Contexts.MainPool)],
                   current := Some(id), nextId := id + 2);
      Ok(g')
  }

  /** Every id and every reference in the store is below the id counter. */
  ghost predicate Fresh(g: Guild) {
    && (forall c :: c in g.challenges ==> c.id < g.nextId)
    && (forall p :: p in g.pools ==> p.id < g.nextId && p.challenge < g.nextId)
    && (forall p :: p in g.participants ==> p.id < g.nextId && p.challenge < g.nextId)
    && (forall t :: t in g.titles ==> t.id < g.nextId)
    && (forall x :: x in g.rounds ==> x.id < g.nextId && x.challenge < g.nextId)
    && (forall x :: x in g.rolls ==> x.round < g.nextId)
  }

  /** With fresh ids, the new challenge is current, has not started, has no
      participants and owns exactly one pool, the main one. */
  lemma StartChallengeFresh(g: Guild, name: string, now: int)
    requires Fresh(g) && StartChallenge(g, name, now).Ok?
    ensures
      var g', id := StartChallenge(g, name, now).value, g.nextId;
      && CurrentRow(g') == Some(ChallengeRow(id, name, now, None))
      && !HasStarted(g', id) && Latest(g'.rounds, id).None?
      && (forall p :: p in g'.pools && p.challenge == id <==> p == PoolRow(id + 1, id, Contexts.MainPool))
      && (forall p :: p in g'.participants ==> p.challenge != id)
      && Fresh(g')
  {
    var g', id := StartChallenge(g, name, now).value, g.nextId;
    var k := FindIndex(g'.challenges, (x: ChallengeRow) => x.id == id);
    assert g'.challenges[|g.challenges|].id == id;
    assert k.Some? && k.value == |g.challenges|;
  }

  /** The karma of every user, as the karma update reads it. */
  function KarmaOf(g: Guild): (r: map<int, real>)
    ensures r.Keys == g.users.Keys
    ensures forall u :: u in r ==> r[u] == g.users[u].karma
  {
    map u | u in g.users :: g.users[u].karma
  }

  /** The user behind a participant id, if both rows exist. */
  function UserOfParticipant(g: Guild, pid: int): (r: Option<int>)
    ensures r.Some? ==> r.value in g.users
  {
    match First(g.participants, (p: ParticipantRow) => p.id == pid)
    case None => None
    case Some(p) => if p.user in g.users then Some(p.user) else None
  }

  /** `fetch_rolls_watchers_proposers`: for each roll, its score, the user who
      watched it and the user who proposed its title; the inner joins drop a
      roll whose rows are missing. */
  function KarmaRows(g: Guild, rolls: seq<RollRow>): (r: seq<Karma.KarmaRow>)
    ensures Karma.Known(r, KarmaOf(g))
    ensures |r| <= |rolls|
  {
    if |rolls| == 0 then []
    else
      var n := |rolls| - 1;
      var rest := KarmaRows(g, rolls[..n]);
      var x := rolls[n];
      var watcher := UserOfParticipant(g, x.participant);
      var title := First(g.titles, (t: TitleRow) => t.id == x.title);
      var proposer := if title.Some? then UserOfParticipant(g, title.value.proposer) else None;
      if watcher.Some? && proposer.Some? then rest + [Karma.KarmaRow(x.score, watcher.value, proposer.value)]
      else rest
  }

  /** A participant of round `rid` left their roll unrated. */
  predicate Unrated(g: Guild, rid: int, pid: int) {
    exists i :: 0 <= i < |g.rolls| && g.rolls[i].round == rid && g.rolls[i].participant == pid && g.rolls[i].score.None?
  }

  /** The karma rows `_end_round` reads for round `rid`. */
  function RoundRows(g: Guild, rid: int): (r: seq<Karma.KarmaRow>)
    ensures Karma.Known(r, KarmaOf(g))
  {
    KarmaRows(g, Filter(g.rolls, (x: RollRow) => x.round == rid))
  }

  /** The first half of `_end_round`: every participant with an unrated
      roll in the round fails in it and the round is finished. */
  function FinishRound(g: Guild, lr: RoundRow): (r: Guild)
    ensures |r.participants| == |g.participants|
    ensures forall i :: 0 <= i < |g.participants| ==>
      var p, p' := g.participants[i], r.participants[i];
      && p' == p.(failedRound := p'.failedRound)
      && (Unrated(g, lr.id, p.id) ==> p'.failedRound == Some(lr.id))
      && (!Unrated(g, lr.id, p.id) ==> p' == p)
    ensures |r.rounds| == |g.rounds|
    ensures forall i :: 0 <= i < |g.rounds| ==>
      r.rounds[i] == if g.rounds[i].id == lr.id then lr.(isFinished := true) else g.rounds[i]
    ensures r == g.(participants := r.participants, rounds := r.rounds)
  {
    var rolls := Filter(g.rolls, (x: RollRow) => x.round == lr.id);
    var failed := set x | x in rolls && x.score.None? :: x.participant;
    assert forall pid :: pid in failed <==> Unrated(g, lr.id, pid) by {
      forall pid ensures pid in failed <==> Unrated(g, lr.id, pid) {
        if Unrated(g, lr.id, pid) {
          var i :| 0 <= i < |g.rolls| && g.rolls[i].round == lr.id && g.rolls[i].participant == pid && g.rolls[i].score.None?;
          assert g.rolls[i] in rolls;
        }
      }
    }
    g.(participants := Patch(g.participants, (p: ParticipantRow) => p.id in failed,
                             (p: ParticipantRow) => p.(failedRound := Some(lr.id))),
       rounds := Patch(g.rounds, (x: RoundRow) => x.id == lr.id, (x: RoundRow) => lr.(isFinished := true)))
  }

  /** Writes a karma value back to every user row. */
  function Credit(g: Guild, karma: map<int, real>): (r: Guild)
    requires g.users.Keys <= karma.Keys
    ensures r.users.Keys == g.users.Keys
    ensures forall u :: u in g.users ==> r.users[u] == g.users[u].(karma := karma[u])
    ensures r == g.(users := r.users)
  {
    g.(users := map u | u in g.users :: g.users[u].(karma := karma[u]))
  }

  /** `_end_round` as written: the round is finished and its unrated
      participants fail, then the karma loop either raises a KeyError (a
      proposer without a roll of their own) or leaves each user with their
      karma read before the loop plus the delta of only their last nonzero
      row (see `Karma.ApplyAsWritten`). */
  function EndRoundOf(g: Guild, lr: RoundRow): (r: Result<Guild>)
    ensures r.Err? <==> Karma.Orphaned(RoundRows(g, lr.id), RoundRows(g, lr.id))
    ensures r.Err? ==> r.error == KeyMissing
    ensures r.Ok? ==>
      && r.value.participants == FinishRound(g, lr).participants
      && r.value.rounds == FinishRound(g, lr).rounds
      && r.value.users.Keys == g.users.Keys
      && r.value == g.(participants := r.value.participants, rounds := r.value.rounds, users := r.value.users)
    ensures r.Ok? ==>
      var rows := RoundRows(g, lr.id);
      forall u :: u in g.users ==>
        r.value.users[u] == g.users[u].(karma := g.users[u].karma + Karma.LastGain(rows, rows, u))
  {
    var rows := RoundRows(g, lr.id);
    Karma.AsWrittenFails(rows, rows, KarmaOf(g));
    var karma :- Karma.ApplyAsWritten(rows, rows, KarmaOf(g));
    Karma.AsWrittenIsLast(rows, rows, KarmaOf(g));
    Ok(Credit(FinishRound(g, lr), karma))
  }

  /** `_end_round` with the karma loop corrected (see `Karma.Apply`): every
      row's delta is added to the proposer's current karma and a proposer
      without a roll of their own earns no watcher bonus. */
  function EndRoundIntended(g: Guild, lr: RoundRow): (r: Guild)
    ensures r.participants == FinishRound(g, lr).participants && r.rounds == FinishRound(g, lr).rounds
    ensures r.users.Keys == g.users.Keys
    ensures forall u :: u in g.users ==>
      r.users[u] == g.users[u].(karma := Karma.Apply(RoundRows(g, lr.id), RoundRows(g, lr.id), KarmaOf(g))[u])
    ensures r == g.(participants := r.participants, rounds := r.rounds, users := r.users)
  {
    var rows := RoundRows(g, lr.id);
    Credit(FinishRound(g, lr), Karma.Apply(rows, rows, KarmaOf(g)))
  }

  /** `end_round`: ends the last round even past its deadline. */
  function EndRound(g: Guild, now: int): (r: Result<Guild>)
    ensures Fetch(g, true).Err? ==> r == Err(Fetch(g, true).error)
    ensures Fetch(g, true).Ok? ==>
      var lr := FetchLastRound(g, Fetch(g, true).value.id, true, now);
      && (lr.Err? ==> r == Err(lr.error))
      && (lr.Ok? ==> r == EndRoundOf(g, lr.value))
    ensures r.Ok? ==>
      Latest(g.rounds, CurrentRow(g).value.id).Some? && !Latest(g.rounds, CurrentRow(g).value.id).value.isFinished
  {
    var c :- Fetch(g, true);
    var lr :- FetchLastRound(g, c.id, true, now);
    EndRoundOf(g, lr)
  }

  /** `extend_round`: moves the deadline of the unfinished last round by whole days. */
  function ExtendRound(g: Guild, days: int, now: int): (r: Result<Guild>)
    ensures Fetch(g, true).Err? ==> r == Err(Fetch(g, true).error)
    ensures Fetch(g, true).Ok? ==>
      var lr := FetchLastRound(g, Fetch(g, true).value.id, true, now);
      && (lr.Err? ==> r == Err(lr.error))
      && (lr.Ok? ==> r.Ok? && |r.value.rounds| == |g.rounds|)
      && (lr.Ok? ==> forall i :: 0 <= i < |g.rounds| ==>
            r.value.rounds[i] == if g.rounds[i].id == lr.value.id
              then lr.value.(finish := lr.value.finish + days * SecondsPerDay) else g.rounds[i])
    ensures r.Ok? ==> r.value == g.(rounds := r.value.rounds)
  {
    var c :- Fetch(g, true);
    var lr :- FetchLastRound(g, c.id, true, now);
    Ok(g.(rounds := Patch(g.rounds, (x: RoundRow) => x.id == lr.id,
                          (x: RoundRow) => lr.(finish := lr.finish + days * SecondsPerDay))))
  }

  /** The last round of the current challenge, when it is still open. */
  function OpenLastRound(g: Guild): Option<RoundRow>
    requires CurrentRow(g).Some?
  {
    var lr := Latest(g.rounds, CurrentRow(g).value.id);
    if lr.Some? && !lr.value.isFinished then lr else None
  }

  /** `end_challenge`: ends an unfinished last round, stamps the finish time
      and clears the current challenge; a KeyError while ending the round
      aborts the command. */
  function EndChallenge(g: Guild, now: int): (r: Result<Guild>)
    ensures Fetch(g, true).Err? ==> r == Err(Fetch(g, true).error)
    ensures CurrentRow(g).Some? && OpenLastRound(g).Some? && EndRoundOf(g, OpenLastRound(g).value).Err? ==>
      r == Err(KeyMissing)
    ensures r.Ok? <==>
      CurrentRow(g).Some? && (OpenLastRound(g).Some? ==> EndRoundOf(g, OpenLastRound(g).value).Ok?)
    ensures r.Ok? ==> r.value.current.None?
    ensures r.Ok? ==>
      var c := CurrentRow(g).value;
      var g1 := if OpenLastRound(g).Some? then EndRoundOf(g, OpenLastRound(g).value).value else g;
      && r.value.rounds == g1.rounds && r.value.participants == g1.participants && r.value.users == g1.users
      && |r.value.challenges| == |g.challenges|
      && (forall i :: 0 <= i < |g.challenges| ==>
            r.value.challenges[i] == if g.challenges[i].id == c.id then c.(finish := Some(now)) else g.challenges[i])
  {
    var c :- Fetch(g, true);
    var g1 :- match OpenLastRound(g)
      case Some(lr) => EndRoundOf(g, lr)
      case None => Ok(g);
    Ok(g1.(challenges := Patch(g1.challenges, (x: ChallengeRow) => x.id == c.id,
                               (x: ChallengeRow) => c.(finish := Some(now))),
           current := None))
  }

  /** `remove_user`: once the challenge has a round the participant fails in
      the last one; before that the participant row is deleted. Their titles
      stay. */
  function RemoveUser(g: Guild, uid: int): (r: Result<Guild>)
    ensures Fetch(g, true).Err? ==> r == Err(Fetch(g, true).error)
    ensures Fetch(g, true).Ok? ==>
      var c := Fetch(g, true).value;
      var p := FetchParticipant(g, c.id, uid);
      && (p.Err? ==> r == Err(p.error))
      && (p.Ok? && Latest(g.rounds, c.id).Some? ==> r.Ok? && |r.value.participants| == |g.participants|)
      && (p.Ok? && Latest(g.rounds, c.id).Some? ==> forall i :: 0 <= i < |g.participants| ==>
            r.value.participants[i] == if g.participants[i].id == p.value.id
              then p.value.(failedRound := Some(Latest(g.rounds, c.id).value.id)) else g.participants[i])
      && (p.Ok? && Latest(g.rounds, c.id).None? ==>
            r.Ok? && forall x :: x in r.value.participants <==> x in g.participants && x.id != p.value.id)
    ensures r.Ok? ==> r.value == g.(participants := r.value.participants)
  {
    var c :- Fetch(g, true);
    var p :- FetchParticipant(g, c.id, uid);
    match Latest(g.rounds, c.id)
    case Some(lr) =>
      Ok(g.(participants := Patch(g.participants, (x: ParticipantRow) => x.id == p.id,
                                  (x: ParticipantRow) => p.(failedRound := Some(lr.id)))))
    case None =>
      Ok(g.(participants := Filter(g.participants, (x: ParticipantRow) => x.id != p.id)))
  }

  /** The participants a round is started for: not failed, with a user row. */
  function ActiveParticipants(g: Guild, cid: int): (r: seq<ParticipantRow>)
    ensures forall p :: p in r <==> p in g.participants && p.challenge == cid && p.failedRound.None? && p.user in g.users
  {
    Filter(g.participants, (p: ParticipantRow) => p.challenge == cid && p.failedRound.None? && p.user in g.users)
  }

  /** The ids of a list of rows. */
  function ParticipantIds(ps: seq<ParticipantRow>): (r: set<int>)
    ensures forall id :: id in r <==> exists q :: q in ps && q.id == id
  {
    set q | q in ps :: q.id
  }

  function TitleIds(ts: seq<TitleRow>): (r: set<int>)
    ensures forall id :: id in r <==> exists t :: t in ts && t.id == id
  {
    set t | t in ts :: t.id
  }

  /** The titles a list of rolls points at. */
  function RollTitles(xs: seq<RollRow>): (r: set<int>)
    ensures forall id :: id in r <==> exists x :: x in xs && x.title == id
  {
    set x | x in xs :: x.title
  }

  /** The rolls of a new round `rid`: the k-th active participant gets the
      k-th drawn title and no score. */
  function NewRolls(rid: int, active: seq<ParticipantRow>, drawn: seq<TitleRow>): (r: seq<RollRow>)
    requires |drawn| == |active|
    ensures |r| == |active|
    ensures forall k :: 0 <= k < |r| ==> r[k] == RollRow(rid, active[k].id, drawn[k].id, None)
    ensures RollTitles(r) == TitleIds(drawn)
  {
    var r := seq(|active|, k requires 0 <= k < |active| => RollRow(rid, active[k].id, drawn[k].id, None));
    assert RollTitles(r) == TitleIds(drawn) by {
      forall id | id in TitleIds(drawn) ensures id in RollTitles(r) {
        var t :| t in drawn && t.id == id;
        var k :| 0 <= k < |drawn| && drawn[k] == t;
        assert r[k].title == id;
      }
    }
    r
  }

  /** The updates of a successful `start_round`: round `num` of challenge
      `cid` with one roll per active participant for the drawn titles, the
      drawn titles marked used and the participants' progress cleared. */
  function Launch(g: Guild, cid: int, num: int, active: seq<ParticipantRow>, drawn: seq<TitleRow>,
                  days: int, now: int): (r: Guild)
    requires |drawn| == |active|
    ensures r.rounds == g.rounds + [RoundRow(g.nextId, num, cid, now, now + days * SecondsPerDay, false)]
    ensures r.rolls == g.rolls + NewRolls(g.nextId, active, drawn)
    ensures |r.titles| == |g.titles|
    ensures forall i :: 0 <= i < |g.titles| ==>
      r.titles[i] == if g.titles[i].id in TitleIds(drawn) then g.titles[i].(isUsed := true) else g.titles[i]
    ensures |r.participants| == |g.participants|
    ensures forall i :: 0 <= i < |g.participants| ==>
      r.participants[i] == if g.participants[i].id in ParticipantIds(active)
        then g.participants[i].(progress := None, total := None) else g.participants[i]
    ensures r == g.(rounds := r.rounds, rolls := r.rolls, titles := r.titles,
                    participants := r.participants, nextId := g.nextId + 1)
  {
    var rid := g.nextId;
    var drawnIds := TitleIds(drawn);
    var activeIds := ParticipantIds(active);
    g.(rounds := g.rounds + [RoundRow(rid, num, cid, now, now + days * SecondsPerDay, false)],
       rolls := g.rolls + NewRolls(rid, active, drawn),
       titles := Patch(g.titles, (t: TitleRow) => t.id in drawnIds, (t: TitleRow) => t.(isUsed := true)),
       participants := Patch(g.participants, (q: ParticipantRow) => q.id in activeIds,
                             (q: ParticipantRow) => q.(progress := None, total := None)),
       nextId := rid + 1)
  }

  /** The checks of `start_round`, in order: the last round is finished, the
      pool exists, someone is active and the pool has enough unused titles.
      Yields the challenge, the new round's number (`last.num + 1`, or 0 for
      the first round), the active participants and the pool's unused titles. */
  function RoundPlan(g: Guild, pool: string): (r: Result<(ChallengeRow, int, seq<ParticipantRow>, seq<TitleRow>)>)
    ensures r.Ok? ==>
      var (c, num, active, unused) := r.value;
      && CurrentRow(g) == Some(c)
      && (Latest(g.rounds, c.id).None? ==> num == 0)
      && (Latest(g.rounds, c.id).Some? ==> Latest(g.rounds, c.id).value.isFinished && num == Latest(g.rounds, c.id).value.num + 1)
      && PoolOf(g, c.id, pool).Some?
      && active == ActiveParticipants(g, c.id)
      && unused == UnusedTitles(g, PoolOf(g, c.id, pool).value.id)
      && 0 < |active| <= |unused|
  {
    var c :- Fetch(g, true);
    var last := Latest(g.rounds, c.id);
    if last.Some? && !last.value.isFinished then Err(FinishRoundFirst(last.value.num))
    else
      match PoolOf(g, c.id, pool)
      case None => Err(PoolDoesNotExist(pool))
      case Some(p) =>
        var active := ActiveParticipants(g, c.id);
        if |active| == 0 then Err(NotEnoughParticipants)
        else
          var unused := UnusedTitles(g, p.id);
          if |unused| < |active| then Err(NotEnoughTitlesIn(pool))
          else Ok((c, if last.Some? then last.value.num + 1 else 0, active, unused))
  }

  /** `start_round`: after `RoundPlan`'s checks, starts the new round ending
      `days` later, rolls one drawn title per active participant, marks the
      drawn titles used and clears the participants' progress. */
  function StartRound(g: Guild, days: int, pool: string, now: int, rng: nat -> nat): (r: Result<Guild>)
    ensures RoundPlan(g, pool).Err? ==> r == Err(RoundPlan(g, pool).error)
    ensures r.Ok? <==> RoundPlan(g, pool).Ok?
    ensures r.Ok? ==>
      var (c, num, active, unused) := RoundPlan(g, pool).value;
      r.value == Launch(g, c.id, num, active, Draw(unused, |active|, rng, 0), days, now)
  {
    var (c, num, active, unused) :- RoundPlan(g, pool);
    Ok(Launch(g, c.id, num, active, Draw(unused, |active|, rng, 0), days, now))
  }

  /** A round numbered above every round of its challenge becomes the latest. */
  lemma {:induction false} LatestAppend(rs: seq<RoundRow>, x: RoundRow)
    requires forall i :: 0 <= i < |rs| && rs[i].challenge == x.challenge ==> rs[i].num < x.num
    ensures Latest(rs + [x], x.challenge) == Some(x)
    decreases |rs|
  {
    if |rs| == 0 {
      assert Latest([x][1..], x.challenge).None?;
    } else {
      assert (rs + [x])[1..] == rs[1..] + [x];
      LatestAppend(rs[1..], x);
    }
  }

  /** Every title row has its own id. */
  ghost predicate UniqueIds(ts: seq<TitleRow>) {
    forall i, j :: 0 <= i < |ts| && 0 <= j < |ts| && ts[i].id == ts[j].id ==> i == j
  }

  /** A successful `start_round` appends one unfinished round, numbered one
      past the last round (0 for the first), ending `days` after `now`; it
      becomes the challenge's latest round. */
  lemma StartRoundNumbering(g: Guild, days: int, pool: string, now: int, rng: nat -> nat)
    requires StartRound(g, days, pool, now, rng).Ok?
    ensures
      var g' := StartRound(g, days, pool, now, rng).value;
      var c := RoundPlan(g, pool).value.0;
      var last := Latest(g.rounds, c.id);
      var num := if last.Some? then last.value.num + 1 else 0;
      var x := RoundRow(g.nextId, num, c.id, now, now + days * SecondsPerDay, false);
      && CurrentRow(g) == Some(c)
      && (last.None? || last.value.isFinished)
      && g'.rounds == g.rounds + [x]
      && Latest(g'.rounds, c.id) == Some(x)
      && g'.nextId == g.nextId + 1
  {
    var (c, num, active, unused) := RoundPlan(g, pool).value;
    var x := RoundRow(g.nextId, num, c.id, now, now + days * SecondsPerDay, false);
    var g' := StartRound(g, days, pool, now, rng).value;
    var l := Launch(g, c.id, num, active, Draw(unused, |active|, rng, 0), days, now);
    assert g'.rounds == l.rounds && g'.nextId == l.nextId;
    assert l.rounds == g.rounds + [x];
    NextRoundLatest(g.rounds, x);
    assert Latest(g'.rounds, c.id) == Some(x);
  }

  /** A round numbered one past the challenge's latest (0 for its first)
      becomes the latest. */
  lemma NextRoundLatest(rs: seq<RoundRow>, x: RoundRow)
    requires var last := Latest(rs, x.challenge); x.num == if last.Some? then last.value.num + 1 else 0
    ensures Latest(rs + [x], x.challenge) == Some(x)
  {
    var last := Latest(rs, x.challenge);
    forall i | 0 <= i < |rs| && rs[i].challenge == x.challenge ensures rs[i].num < x.num {
      assert last.Some?;
    }
    LatestAppend(rs, x);
  }

  /** `g2` keeps `g`'s rolls and appends, in order, one unscored roll of
      round `g.nextId` per participant of `ps`, each for a title of pool
      `pid` that was unused in `g`. */
  ghost predicate AppendsRolls(g: Guild, g2: Guild, ps: seq<ParticipantRow>, pid: int) {
    && |g2.rolls| == |g.rolls| + |ps|
    && g2.rolls[..|g.rolls|] == g.rolls
    && forall k :: 0 <= k < |ps| ==>
         && g2.rolls[|g.rolls| + k].round == g.nextId
         && g2.rolls[|g.rolls| + k].participant == ps[k].id
         && g2.rolls[|g.rolls| + k].score.None?
         && UnusedIn(g, pid, g2.rolls[|g.rolls| + k].title)
  }

  /** Title `id` is an unused title of pool `pid`. */
  ghost predicate UnusedIn(g: Guild, pid: int, id: int) {
    exists t :: t in g.titles && t.id == id && t.pool == pid && !t.isUsed
  }

  /** A successful `start_round` keeps the old rolls and adds, in roster
      order, one roll of the new round per active participant (not failed,
      in this challenge), unscored, for an unused title of the named pool. */
  lemma StartRoundRolls(g: Guild, days: int, pool: string, now: int, rng: nat -> nat)
    requires StartRound(g, days, pool, now, rng).Ok?
    ensures
      var c := CurrentRow(g).value;
      && PoolOf(g, c.id, pool).Some?
      && AppendsRolls(g, StartRound(g, days, pool, now, rng).value, ActiveParticipants(g, c.id), PoolOf(g, c.id, pool).value.id)
  {
    var (c, num, active, unused) := RoundPlan(g, pool).value;
    var drawn := Draw(unused, |active|, rng, 0);
    DrawnUnused(g, PoolOf(g, c.id, pool).value.id, unused, drawn);
    LaunchRolls(g, c.id, num, active, drawn, days, now, PoolOf(g, c.id, pool).value.id);
  }

  /** The rolls `Launch` appends, one per participant in order, unscored,
      each for the title drawn for it. */
  lemma LaunchRolls(g: Guild, cid: int, num: int, active: seq<ParticipantRow>, drawn: seq<TitleRow>,
                    days: int, now: int, pid: int)
    requires |drawn| == |active|
    requires forall k :: 0 <= k < |drawn| ==> drawn[k] in g.titles && drawn[k].pool == pid && !drawn[k].isUsed
    ensures AppendsRolls(g, Launch(g, cid, num, active, drawn, days, now), active, pid)
  {
    var g' := Launch(g, cid, num, active, drawn, days, now);
    var added := NewRolls(g.nextId, active, drawn);
    assert g'.rolls == g.rolls + added;
    forall k | 0 <= k < |active|
      ensures g'.rolls[|g.rolls| + k] == added[k]
      ensures UnusedIn(g, pid, added[k].title)
    {
      assert drawn[k] in g.titles;
    }
  }

  /** A successful `start_round` clears the progress of exactly the active
      participants, and changes nothing else but rounds, rolls and titles'
      `is_used`. */
  lemma StartRoundProgress(g: Guild, days: int, pool: string, now: int, rng: nat -> nat)
    requires StartRound(g, days, pool, now, rng).Ok?
    ensures
      var g' := StartRound(g, days, pool, now, rng).value;
      var active := ActiveParticipants(g, CurrentRow(g).value.id);
      && |g'.participants| == |g.participants|
      && (forall i :: 0 <= i < |g.participants| ==>
            g'.participants[i] == if g.participants[i].id in ParticipantIds(active)
              then g.participants[i].(progress := None, total := None) else g.participants[i])
      && g' == g.(rounds := g'.rounds, rolls := g'.rolls, titles := g'.titles,
                  participants := g'.participants, nextId := g.nextId + 1)
  {
    var (c, num, active, unused) := RoundPlan(g, pool).value;
    var g' := StartRound(g, days, pool, now, rng).value;
    assert g' == Launch(g, c.id, num, active, Draw(unused, |active|, rng, 0), days, now);
  }

  /** Titles drawn from a pool's unused titles are titles of that pool that
      were unused. */
  lemma DrawnUnused(g: Guild, pid: int, unused: seq<TitleRow>, drawn: seq<TitleRow>)
    requires unused == UnusedTitles(g, pid)
    requires forall k :: 0 <= k < |drawn| ==> drawn[k] in unused
    ensures forall k :: 0 <= k < |drawn| ==> drawn[k] in g.titles && drawn[k].pool == pid && !drawn[k].isUsed
  {
  }

  /** Distinct unused title rows with unique ids make distinct, previously
      unused roll titles; `Launch` marks exactly those used. */
  lemma LaunchTitles(g: Guild, cid: int, num: int, active: seq<ParticipantRow>, drawn: seq<TitleRow>,
                     days: int, now: int)
    requires |drawn| == |active| && UniqueIds(g.titles) && NoDup(drawn)
    requires forall t :: t in drawn ==> t in g.titles && !t.isUsed
    ensures
      var g' := Launch(g, cid, num, active, drawn, days, now);
      var added := NewRolls(g.nextId, active, drawn);
      && (forall a, b :: 0 <= a < b < |added| ==> added[a].title != added[b].title)
      && (forall i :: 0 <= i < |g.titles| ==>
            && g'.titles[i] == g.titles[i].(isUsed := g'.titles[i].isUsed)
            && (g'.titles[i].isUsed <==> g.titles[i].isUsed || g.titles[i].id in RollTitles(added))
            && (g.titles[i].id in RollTitles(added) ==> !g.titles[i].isUsed))
  {
    var added := NewRolls(g.nextId, active, drawn);
    forall a, b | 0 <= a < b < |added| ensures added[a].title != added[b].title {
      assert drawn[a] in g.titles && drawn[b] in g.titles && drawn[a] != drawn[b];
      var i :| 0 <= i < |g.titles| && g.titles[i] == drawn[a];
      var j :| 0 <= j < |g.titles| && g.titles[j] == drawn[b];
    }
    forall i | 0 <= i < |g.titles| && g.titles[i].id in RollTitles(added) ensures !g.titles[i].isUsed {
      var t :| t in drawn && t.id == g.titles[i].id;
      var j :| 0 <= j < |g.titles| && g.titles[j] == t;
    }
  }

  /** With unique title ids, the titles a successful `start_round` rolls are
      pairwise distinct and were unused; afterwards a title is used exactly
      when it was before or it was just rolled. */
  lemma StartRoundTitles(g: Guild, days: int, pool: string, now: int, rng: nat -> nat)
    requires StartRound(g, days, pool, now, rng).Ok?
    requires UniqueIds(g.titles)
    ensures |StartRound(g, days, pool, now, rng).value.rolls| >= |g.rolls|
    ensures
      var g' := StartRound(g, days, pool, now, rng).value;
      var added := g'.rolls[|g.rolls|..];
      && (forall a, b :: 0 <= a < b < |added| ==> added[a].title != added[b].title)
      && |g'.titles| == |g.titles|
      && (forall i :: 0 <= i < |g.titles| ==>
            && g'.titles[i] == g.titles[i].(isUsed := g'.titles[i].isUsed)
            && (g'.titles[i].isUsed <==> g.titles[i].isUsed || g.titles[i].id in RollTitles(added))
            && (g.titles[i].id in RollTitles(added) ==> !g.titles[i].isUsed))
  {
    var (c, num, active, unused) := RoundPlan(g, pool).value;
    var drawn := Draw(unused, |active|, rng, 0);
    var g' := StartRound(g, days, pool, now, rng).value;
    assert g' == Launch(g, c.id, num, active, drawn, days, now);
    assert g'.rolls[|g.rolls|..] == NewRolls(g.nextId, active, drawn);
    assert NoDup(g.titles) by {
      forall i, j | 0 <= i < j < |g.titles| ensures g.titles[i] != g.titles[j] {
        assert g.titles[i].id != g.titles[j].id;
      }
    }
    LaunchTitles(g, c.id, num, active, drawn, days, now);
  }

  /** `start_round` fails, in this order: without a current challenge; with
      an unfinished last round; with an unknown pool; with no active
      participant; with fewer unused titles in the pool than active
      participants. */
  lemma StartRoundErrors(g: Guild, days: int, pool: string, now: int, rng: nat -> nat)
    ensures
      var r := StartRound(g, days, pool, now, rng);
      && (Fetch(g, true).Err? ==> r == Err(Fetch(g, true).error))
      && (Fetch(g, true).Ok? ==>
            var c := Fetch(g, true).value;
            var last := Latest(g.rounds, c.id);
            var open := last.Some? && !last.value.isFinished;
            && (open ==> r == Err(FinishRoundFirst(last.value.num)))
            && (!open && PoolOf(g, c.id, pool).None? ==> r == Err(PoolDoesNotExist(pool)))
            && (!open && PoolOf(g, c.id, pool).Some? ==>
                  var active := ActiveParticipants(g, c.id);
                  var unused := UnusedTitles(g, PoolOf(g, c.id, pool).value.id);
                  && (|active| == 0 ==> r == Err(NotEnoughParticipants))
                  && (|active| > 0 && |unused| < |active| ==> r == Err(NotEnoughTitlesIn(pool)))
                  && (|active| > 0 && |unused| >= |active| ==> r.Ok?)))
  {
  }

  /** `Roll.update`: every roll with `x`'s round and participant becomes `x`. */
  function PutRoll(rolls: seq<RollRow>, x: RollRow): (r: seq<RollRow>)
    ensures |r| == |rolls|
    ensures forall i :: 0 <= i < |rolls| ==>
      r[i] == if rolls[i].round == x.round && rolls[i].participant == x.participant then x else rolls[i]
  {
    Patch(rolls, (y: RollRow) => y.round == x.round && y.participant == x.participant, (y: RollRow) => x)
  }

  /** `Title.update`: every title with `t`'s id becomes `t`. */
  function PutTitle(titles: seq<TitleRow>, t: TitleRow): (r: seq<TitleRow>)
    ensures |r| == |titles|
    ensures forall i :: 0 <= i < |titles| ==> r[i] == if titles[i].id == t.id then t else titles[i]
  {
    Patch(titles, (y: TitleRow) => y.id == t.id, (y: TitleRow) => t)
  }

  /** The gates shared by `rate`, `swap`, `reroll` and `set_title`: a current
      challenge, then an unfinished last round whose deadline has not
      passed, then an active participant row for the user. */
  function OpenFor(g: Guild, uid: int, now: int): (r: Result<(ChallengeRow, RoundRow, ParticipantRow)>)
    ensures Fetch(g, true).Err? ==> r == Err(Fetch(g, true).error)
    ensures Fetch(g, true).Ok? ==>
      var c := Fetch(g, true).value;
      var lr := FetchLastRound(g, c.id, false, now);
      && (lr.Err? ==> r == Err(lr.error))
      && (lr.Ok? ==> var p := FetchParticipant(g, c.id, uid);
            && (p.Err? ==> r == Err(p.error))
            && (p.Ok? ==> r == Ok((c, lr.value, p.value))))
    ensures r.Ok? ==>
      var (c, lr, p) := r.value;
      && CurrentRow(g) == Some(c)
      && Latest(g.rounds, c.id) == Some(lr) && !lr.isFinished && now <= lr.finish
      && ParticipantOf(g, c.id, uid) == Some(p) && p.failedRound.None?
  {
    var c :- Fetch(g, true);
    var lr :- FetchLastRound(g, c.id, false, now);
    var p :- FetchParticipant(g, c.id, uid);
    Ok((c, lr, p))
  }

  /** `rate`: after `OpenFor`'s gates, the user's roll in the last round gets
      the score; a missing roll raises on `None`. */
  function Rate(g: Guild, uid: int, score: real, now: int): (r: Result<Guild>)
    ensures OpenFor(g, uid, now).Err? ==> r == Err(OpenFor(g, uid, now).error)
    ensures OpenFor(g, uid, now).Ok? ==>
      var (c, lr, p) := OpenFor(g, uid, now).value;
      && (RollOf(g, lr.id, p.id).None? ==> r == Err(NoneAttribute))
      && (RollOf(g, lr.id, p.id).Some? ==> r.Ok?)
    ensures r.Ok? ==>
      var (c, lr, p) := OpenFor(g, uid, now).value;
      && r.value == g.(rolls := r.value.rolls)
      && |r.value.rolls| == |g.rolls|
      && RollOf(g, lr.id, p.id).Some?
      && forall i :: 0 <= i < |g.rolls| ==>
           r.value.rolls[i] == if g.rolls[i].round == lr.id && g.rolls[i].participant == p.id
             then RollOf(g, lr.id, p.id).value.(score := Some(score)) else g.rolls[i]
  {
    var (c, lr, p) :- OpenFor(g, uid, now);
    match RollOf(g, lr.id, p.id)
    case None => Err(NoneAttribute)
    case Some(x) =>
      var r := PutRoll(g.rolls, x.(score := Some(score)));
      Ok(g.(rolls := r))
  }

  /** At most one roll per round and participant. */
  ghost predicate UniqueRolls(rolls: seq<RollRow>) {
    forall i, j ::
      0 <= i < |rolls| && 0 <= j < |rolls| && rolls[i].round == rolls[j].round && rolls[i].participant == rolls[j].participant
      ==> rolls[i] == rolls[j]
  }

  /** After a successful `rate` the user no longer counts as unrated in the
      last round, so `_end_round` will not fail them, and every other
      participant's standing in every round is unchanged. */
  lemma RateClearsUnrated(g: Guild, uid: int, score: real, now: int)
    requires Rate(g, uid, score, now).Ok?
    ensures
      var g' := Rate(g, uid, score, now).value;
      var (c, lr, p) := OpenFor(g, uid, now).value;
      && !Unrated(g', lr.id, p.id)
      && (forall rid, pid :: rid != lr.id || pid != p.id ==> (Unrated(g', rid, pid) <==> Unrated(g, rid, pid)))
  {
    var g' := Rate(g, uid, score, now).value;
    var (c, lr, p) := OpenFor(g, uid, now).value;
    forall rid, pid | rid != lr.id || pid != p.id
      ensures Unrated(g', rid, pid) <==> Unrated(g, rid, pid)
    {
      if Unrated(g, rid, pid) {
        var i :| 0 <= i < |g.rolls| && g.rolls[i].round == rid && g.rolls[i].participant == pid && g.rolls[i].score.None?;
        assert g'.rolls[i] == g.rolls[i];
      }
      if Unrated(g', rid, pid) {
        var i :| 0 <= i < |g'.rolls| && g'.rolls[i].round == rid && g'.rolls[i].participant == pid && g'.rolls[i].score.None?;
        assert g'.rolls[i] == g.rolls[i];
      }
    }
  }

  /** `swap`: after `OpenFor`'s gates for both users, their rolls in the last
      round exchange titles; a missing roll raises on `None`. */
  function Swap(g: Guild, u1: int, u2: int, now: int): (r: Result<Guild>)
    ensures OpenFor(g, u1, now).Err? ==> r == Err(OpenFor(g, u1, now).error)
    ensures OpenFor(g, u1, now).Ok? && FetchParticipant(g, OpenFor(g, u1, now).value.0.id, u2).Err? ==>
      r == Err(FetchParticipant(g, OpenFor(g, u1, now).value.0.id, u2).error)
    ensures r.Ok? ==> r.value == g.(rolls := r.value.rolls) && |r.value.rolls| == |g.rolls|
    ensures r.Ok? && UniqueRolls(g.rolls) ==>
      forall i :: 0 <= i < |g.rolls| ==> r.value.rolls[i] == g.rolls[i].(title := r.value.rolls[i].title)
  {
    var (c, lr, p1) :- OpenFor(g, u1, now);
    var p2 :- FetchParticipant(g, c.id, u2);
    match (RollOf(g, lr.id, p1.id), RollOf(g, lr.id, p2.id))
    case (Some(x1), Some(x2)) =>
      Ok(g.(rolls := SwapTitles(g.rolls, x1, x2)))
    case _ => Err(NoneAttribute)
  }

  /** A successful `swap` needs both rolls; with one roll per round and
      participant, the two rolls exchange their titles and keep their
      scores, and no other roll and no title's `is_used` changes. */
  lemma SwapExchanges(g: Guild, u1: int, u2: int, now: int)
    requires Swap(g, u1, u2, now).Ok? && UniqueRolls(g.rolls)
    ensures
      var g' := Swap(g, u1, u2, now).value;
      var (c, lr, p1) := OpenFor(g, u1, now).value;
      var p2 := FetchParticipant(g, c.id, u2).value;
      && RollOf(g, lr.id, p1.id).Some? && RollOf(g, lr.id, p2.id).Some?
      && var t1, t2 := RollOf(g, lr.id, p1.id).value.title, RollOf(g, lr.id, p2.id).value.title;
         && g'.titles == g.titles
         && forall i :: 0 <= i < |g.rolls| ==>
              g'.rolls[i] == if g.rolls[i].round == lr.id && g.rolls[i].participant == p1.id then g.rolls[i].(title := t2)
                             else if g.rolls[i].round == lr.id && g.rolls[i].participant == p2.id then g.rolls[i].(title := t1)
                             else g.rolls[i]
  {
    var (c, lr, p1) := OpenFor(g, u1, now).value;
    var p2 := FetchParticipant(g, c.id, u2).value;
    var x1, x2 := RollOf(g, lr.id, p1.id).value, RollOf(g, lr.id, p2.id).value;
    var g' := Swap(g, u1, u2, now).value;
    forall i | 0 <= i < |g.rolls|
      ensures g'.rolls[i] == if g.rolls[i].round == lr.id && g.rolls[i].participant == p1.id then g.rolls[i].(title := x2.title)
                             else if g.rolls[i].round == lr.id && g.rolls[i].participant == p2.id then g.rolls[i].(title := x1.title)
                             else g.rolls[i]
    {
      if g.rolls[i].round == lr.id && g.rolls[i].participant == p1.id {
        assert g.rolls[i] == x1;
      } else if g.rolls[i].round == lr.id && g.rolls[i].participant == p2.id {
        assert g.rolls[i] == x2;
      }
    }
  }

  /** The gates read nothing that `swap` writes. */
  lemma OpenForIgnoresRolls(g: Guild, rolls: seq<RollRow>, uid: int, now: int)
    ensures OpenFor(g.(rolls := rolls), uid, now) == OpenFor(g, uid, now)
    ensures forall cid :: FetchParticipant(g.(rolls := rolls), cid, uid) == FetchParticipant(g, cid, uid)
  {
    var h := g.(rolls := rolls);
    assert CurrentRow(h) == CurrentRow(g);
    assert forall cid :: HasStarted(h, cid) == HasStarted(g, cid);
    assert forall cid :: ParticipantOf(h, cid, uid) == ParticipantOf(g, cid, uid);
  }

  /** The two updates of `swap`: `x1`'s key gets `x2`'s title, then `x2`'s
      key gets `x1`'s title. */
  function SwapTitles(rolls: seq<RollRow>, x1: RollRow, x2: RollRow): (r: seq<RollRow>)
    ensures |r| == |rolls|
    ensures UniqueRolls(rolls) && x1 in rolls && x2 in rolls ==>
      forall i :: 0 <= i < |rolls| ==> r[i] == rolls[i].(title := r[i].title)
  {
    PutRoll(PutRoll(rolls, x1.(title := x2.title)), x2.(title := x1.title))
  }

  /** One row of a swap: a row with `x2`'s key gets `x1`'s title, else a row
      with `x1`'s key gets `x2`'s title, else it is left alone. */
  lemma SwapTitlesAt(rolls: seq<RollRow>, x1: RollRow, x2: RollRow, i: nat)
    requires i < |rolls|
    ensures SwapTitles(rolls, x1, x2)[i] ==
      if rolls[i].round == x2.round && rolls[i].participant == x2.participant then x2.(title := x1.title)
      else if rolls[i].round == x1.round && rolls[i].participant == x1.participant then x1.(title := x2.title)
      else rolls[i]
  {
    var a := PutRoll(rolls, x1.(title := x2.title));
    assert a[i].round == rolls[i].round && a[i].participant == rolls[i].participant;
  }

  /** With one roll per key, swapping two present rolls rewrites exactly
      those two rows: `x1` gets `x2`'s title and `x2` gets `x1`'s (a roll
      swapped with itself keeps its title). */
  lemma SwapTitlesRows(rolls: seq<RollRow>, x1: RollRow, x2: RollRow)
    requires UniqueRolls(rolls) && x1 in rolls && x2 in rolls
    ensures
      var same := x1.round == x2.round && x1.participant == x2.participant;
      var y1 := x1.(title := if same then x1.title else x2.title);
      var y2 := x2.(title := if same then x2.title else x1.title);
      var s := SwapTitles(rolls, x1, x2);
      forall i :: 0 <= i < |rolls| ==> s[i] == if rolls[i] == x2 then y2 else if rolls[i] == x1 then y1 else rolls[i]
  {
    var same := x1.round == x2.round && x1.participant == x2.participant;
    var y1 := x1.(title := if same then x1.title else x2.title);
    var y2 := x2.(title := if same then x2.title else x1.title);
    var j :| 0 <= j < |rolls| && rolls[j] == x1;
    var k :| 0 <= k < |rolls| && rolls[k] == x2;
    if same { assert x1 == x2; }
    forall i | 0 <= i < |rolls|
      ensures SwapTitles(rolls, x1, x2)[i] == if rolls[i] == x2 then y2 else if rolls[i] == x1 then y1 else rolls[i]
    {
      SwapTitlesAt(rolls, x1, x2, i);
      assert rolls[i].round == x2.round && rolls[i].participant == x2.participant ==> rolls[i] == rolls[k];
      assert rolls[i].round == x1.round && rolls[i].participant == x1.participant ==> rolls[i] == rolls[j];
    }
  }

  /** Swapping keeps every row's round and participant. */
  lemma SwapTitlesKeys(rolls: seq<RollRow>, x1: RollRow, x2: RollRow)
    ensures var s := SwapTitles(rolls, x1, x2);
      forall i :: 0 <= i < |rolls| ==> s[i].round == rolls[i].round && s[i].participant == rolls[i].participant
  {
    forall i | 0 <= i < |rolls| {
      SwapTitlesAt(rolls, x1, x2, i);
    }
  }

  /** With one roll per key, swapping two present rolls and then swapping the
      results back restores the list. */
  lemma SwapTitlesTwice(rolls: seq<RollRow>, x1: RollRow, x2: RollRow)
    requires UniqueRolls(rolls) && x1 in rolls && x2 in rolls
    ensures
      var same := x1.round == x2.round && x1.participant == x2.participant;
      var y1 := x1.(title := if same then x1.title else x2.title);
      var y2 := x2.(title := if same then x2.title else x1.title);
      var s := SwapTitles(rolls, x1, x2);
      && (forall i :: 0 <= i < |s| && s[i].round == x1.round && s[i].participant == x1.participant ==> s[i] == y1)
      && (forall i :: 0 <= i < |s| && s[i].round == x2.round && s[i].participant == x2.participant ==> s[i] == y2)
      && UniqueRolls(s)
      && SwapTitles(s, y1, y2) == rolls
  {
    var same := x1.round == x2.round && x1.participant == x2.participant;
    var y1 := x1.(title := if same then x1.title else x2.title);
    var y2 := x2.(title := if same then x2.title else x1.title);
    var s := SwapTitles(rolls, x1, x2);
    SwapTitlesRows(rolls, x1, x2);
    SwapTitlesKeys(rolls, x1, x2);
    var t := SwapTitles(s, y1, y2);
    forall i | 0 <= i < |rolls| ensures t[i] == rolls[i] {
      SwapTitlesAt(s, y1, y2, i);
    }
  }

  /** `swap` once its gates have passed and both rolls are found. */
  lemma SwapOf(g: Guild, u1: int, u2: int, now: int, x1: RollRow, x2: RollRow)
    requires OpenFor(g, u1, now).Ok?
    requires FetchParticipant(g, OpenFor(g, u1, now).value.0.id, u2).Ok?
    requires RollOf(g, OpenFor(g, u1, now).value.1.id, OpenFor(g, u1, now).value.2.id) == Some(x1)
    requires RollOf(g, OpenFor(g, u1, now).value.1.id, FetchParticipant(g, OpenFor(g, u1, now).value.0.id, u2).value.id) == Some(x2)
    ensures Swap(g, u1, u2, now) == Ok(g.(rolls := SwapTitles(g.rolls, x1, x2)))
  {
  }

  /** A row present under a key that only ever holds that row is the one
      found. */
  lemma RollOfOnly(g: Guild, rid: int, pid: int, y: RollRow, k: nat)
    requires k < |g.rolls| && g.rolls[k] == y && y.round == rid && y.participant == pid
    requires forall i :: 0 <= i < |g.rolls| && g.rolls[i].round == rid && g.rolls[i].participant == pid ==> g.rolls[i] == y
    ensures RollOf(g, rid, pid) == Some(y)
  {
  }

  /** Swapping the same two users twice restores the store. */
  lemma SwapTwice(g: Guild, u1: int, u2: int, now: int)
    requires Swap(g, u1, u2, now).Ok? && UniqueRolls(g.rolls)
    ensures Swap(Swap(g, u1, u2, now).value, u1, u2, now) == Ok(g)
  {
    var (c, lr, p1) := OpenFor(g, u1, now).value;
    var p2 := FetchParticipant(g, c.id, u2).value;
    var x1, x2 := RollOf(g, lr.id, p1.id).value, RollOf(g, lr.id, p2.id).value;
    SwapOf(g, u1, u2, now, x1, x2);
    var g' := g.(rolls := SwapTitles(g.rolls, x1, x2));
    OpenForIgnoresRolls(g, g'.rolls, u1, now);
    SwapTitlesTwice(g.rolls, x1, x2);
    SwapTitlesKeys(g.rolls, x1, x2);
    var same := x1.round == x2.round && x1.participant == x2.participant;
    var y1 := x1.(title := if same then x1.title else x2.title);
    var y2 := x2.(title := if same then x2.title else x1.title);
    var j :| 0 <= j < |g.rolls| && g.rolls[j] == x1;
    var k :| 0 <= k < |g.rolls| && g.rolls[k] == x2;
    RollOfOnly(g', lr.id, p1.id, y1, j);
    RollOfOnly(g', lr.id, p2.id, y2, k);
    SwapOf(g', u1, u2, now, y1, y2);
  }

  /** `_set_title`: a used title is refused; otherwise the roll's old title
      is marked unused, the roll points at the new title and the new title is
      marked used, in that order. A missing roll or old title raises on `None`. */
  function SetTitleOf(g: Guild, roll: Option<RollRow>, t: TitleRow): (r: Result<Guild>)
    ensures t.isUsed ==> r == Err(TitleUsed(t.name))
    ensures !t.isUsed && roll.None? ==> r == Err(NoneAttribute)
    ensures !t.isUsed && roll.Some? ==>
      var prev := First(g.titles, (y: TitleRow) => y.id == roll.value.title);
      && (prev.None? ==> r == Err(NoneAttribute))
      && (prev.Some? ==> r.Ok? && r.value == g.(rolls := r.value.rolls, titles := r.value.titles))
      && (prev.Some? ==> r.value.rolls == PutRoll(g.rolls, roll.value.(title := t.id)))
      && (prev.Some? ==> |r.value.titles| == |g.titles|)
      && (prev.Some? ==> forall i :: 0 <= i < |g.titles| ==>
            r.value.titles[i] == if g.titles[i].id == t.id then t.(isUsed := true)
              else if g.titles[i].id == prev.value.id then prev.value.(isUsed := false)
              else g.titles[i])
  {
    if t.isUsed then Err(TitleUsed(t.name))
    else match roll
      case None => Err(NoneAttribute)
      case Some(x) =>
        match First(g.titles, (y: TitleRow) => y.id == x.title)
        case None => Err(NoneAttribute)
        case Some(prev) =>
          Ok(g.(titles := PutTitle(PutTitle(g.titles, prev.(isUsed := false)), t.(isUsed := true)),
                rolls := PutRoll(g.rolls, x.(title := t.id))))
  }

  /** `reroll`: after `OpenFor`'s gates, the pool must exist and have an
      unused title; the one at `pick` (reduced modulo their number) replaces
      the roll's title through `_set_title`. */
  function Reroll(g: Guild, uid: int, pool: string, now: int, pick: nat): (r: Result<(Guild, TitleRow)>)
    ensures OpenFor(g, uid, now).Err? ==> r == Err(OpenFor(g, uid, now).error)
    ensures OpenFor(g, uid, now).Ok? ==>
      var (c, lr, p) := OpenFor(g, uid, now).value;
      && (PoolOf(g, c.id, pool).None? ==> r == Err(PoolDoesNotExist(pool)))
      && (PoolOf(g, c.id, pool).Some? && |UnusedTitles(g, PoolOf(g, c.id, pool).value.id)| == 0 ==>
            r == Err(NotEnoughTitlesIn(pool)))
      && (PoolOf(g, c.id, pool).Some? && |UnusedTitles(g, PoolOf(g, c.id, pool).value.id)| > 0 ==>
            var unused := UnusedTitles(g, PoolOf(g, c.id, pool).value.id);
            var t := unused[pick % |unused|];
            && t in g.titles && t.pool == PoolOf(g, c.id, pool).value.id && !t.isUsed
            && (r.Ok? <==> SetTitleOf(g, RollOf(g, lr.id, p.id), t).Ok?)
            && (r.Err? ==> r.error == SetTitleOf(g, RollOf(g, lr.id, p.id), t).error)
            && (r.Ok? ==> r.value == (SetTitleOf(g, RollOf(g, lr.id, p.id), t).value, t)))
  {
    var (c, lr, p) :- OpenFor(g, uid, now);
    var roll := RollOf(g, lr.id, p.id);
    match PoolOf(g, c.id, pool)
    case None => Err(PoolDoesNotExist(pool))
    case Some(q) =>
      var unused := UnusedTitles(g, q.id);
      if |unused| == 0 then Err(NotEnoughTitlesIn(pool))
      else
        var t := unused[pick % |unused|];
        var g' :- SetTitleOf(g, roll, t);
        Ok((g', t))
  }

  /** The pool ids of a challenge. */
  predicate PoolOfChallenge(g: Guild, pid: int, cid: int) {
    exists i :: 0 <= i < |g.pools| && g.pools[i].id == pid && g.pools[i].challenge == cid
  }

  /** `Challenge.fetch_title`: a title by name among the challenge's pools. */
  function TitleOf(g: Guild, cid: int, name: string): (r: Option<TitleRow>)
    ensures r.None? <==> forall i :: 0 <= i < |g.titles| ==> !(g.titles[i].name == name && PoolOfChallenge(g, g.titles[i].pool, cid))
    ensures r.Some? ==> r.value in g.titles && r.value.name == name && PoolOfChallenge(g, r.value.pool, cid)
  {
    First(g.titles, (t: TitleRow) => t.name == name && PoolOfChallenge(g, t.pool, cid))
  }

  /** `set_title`: after `OpenFor`'s gates, the named title must exist in the
      challenge; it replaces the roll's title through `_set_title`. */
  function SetTitle(g: Guild, uid: int, name: string, now: int): (r: Result<Guild>)
    ensures OpenFor(g, uid, now).Err? ==> r == Err(OpenFor(g, uid, now).error)
    ensures OpenFor(g, uid, now).Ok? ==>
      var (c, lr, p) := OpenFor(g, uid, now).value;
      && (TitleOf(g, c.id, name).None? ==> r == Err(TitleDoesNotExist(name)))
      && (TitleOf(g, c.id, name).Some? ==> r == SetTitleOf(g, RollOf(g, lr.id, p.id), TitleOf(g, c.id, name).value))
  {
    var (c, lr, p) :- OpenFor(g, uid, now);
    match TitleOf(g, c.id, name)
    case None => Err(TitleDoesNotExist(name))
    case Some(t) => SetTitleOf(g, RollOf(g, lr.id, p.id), t)
  }

  /** The title row with a given id is used. */
  ghost predicate UsedId(ts: seq<TitleRow>, id: int) {
    exists j :: 0 <= j < |ts| && ts[j].id == id && ts[j].isUsed
  }

  /** The `is_used` bookkeeping: title ids and roll keys are unique, every
      rolled title is marked used, and no title is rolled twice. */
  ghost predicate Bookkept(g: Guild) {
    UniqueIds(g.titles) && RollsBookkept(g.titles, g.rolls)
  }

  ghost predicate RollsBookkept(ts: seq<TitleRow>, rolls: seq<RollRow>) {
    && UniqueRolls(rolls)
    && (forall i :: 0 <= i < |rolls| ==> UsedId(ts, rolls[i].title))
    && (forall i, j :: 0 <= i < j < |rolls| ==> rolls[i].title != rolls[j].title)
  }

  /** Exchanging the titles of two present rolls keeps the bookkeeping. */
  lemma SwapTitlesBookkept(ts: seq<TitleRow>, rolls: seq<RollRow>, x1: RollRow, x2: RollRow)
    requires RollsBookkept(ts, rolls) && x1 in rolls && x2 in rolls
    ensures RollsBookkept(ts, SwapTitles(rolls, x1, x2))
  {
    var s := SwapTitles(rolls, x1, x2);
    var k1 :| 0 <= k1 < |rolls| && rolls[k1] == x1;
    var k2 :| 0 <= k2 < |rolls| && rolls[k2] == x2;
    SwapTitlesIndices(rolls, x1, x2, k1, k2);
    SwapTitlesKeys(rolls, x1, x2);
    assert UniqueRolls(s);
    forall i | 0 <= i < |s| ensures UsedId(ts, s[i].title) {
      assert UsedId(ts, rolls[k1].title) && UsedId(ts, rolls[k2].title) && UsedId(ts, rolls[i].title);
    }
  }

  /** With distinct roll titles, the swap exchanges the titles at the two
      rolls' positions and leaves every other position's title alone. */
  lemma SwapTitlesIndices(rolls: seq<RollRow>, x1: RollRow, x2: RollRow, k1: nat, k2: nat)
    requires UniqueRolls(rolls) && (forall i, j :: 0 <= i < j < |rolls| ==> rolls[i].title != rolls[j].title)
    requires k1 < |rolls| && k2 < |rolls| && rolls[k1] == x1 && rolls[k2] == x2
    ensures var s := SwapTitles(rolls, x1, x2);
      && (forall i :: 0 <= i < |rolls| ==> s[i].title == if i == k1 then x2.title else if i == k2 then x1.title else rolls[i].title)
      && (forall i, j :: 0 <= i < j < |s| ==> s[i].title != s[j].title)
  {
    SwapTitlesRows(rolls, x1, x2);
    assert forall i :: 0 <= i < |rolls| && rolls[i] == x1 ==> i == k1;
    assert forall i :: 0 <= i < |rolls| && rolls[i] == x2 ==> i == k2;
  }

  /** Marking `prev` unused and `t` used keeps ids unique and in place, marks
      `t`'s id used, and leaves every other used id used. */
  lemma RetitleTitles(ts: seq<TitleRow>, t: TitleRow, prev: TitleRow)
    requires UniqueIds(ts) && t in ts && prev in ts && t.id != prev.id
    ensures var ts' := PutTitle(PutTitle(ts, prev.(isUsed := false)), t.(isUsed := true));
      && UniqueIds(ts')
      && |ts'| == |ts| && (forall i :: 0 <= i < |ts| ==> ts'[i].id == ts[i].id)
      && UsedId(ts', t.id)
      && (forall id :: id != prev.id && UsedId(ts, id) ==> UsedId(ts', id))
  {
    var ts' := PutTitle(PutTitle(ts, prev.(isUsed := false)), t.(isUsed := true));
    var a :| 0 <= a < |ts| && ts[a] == t;
    assert ts'[a].id == t.id && ts'[a].isUsed;
    forall id | id != prev.id && UsedId(ts, id)
      ensures UsedId(ts', id)
    {
      var j :| 0 <= j < |ts| && ts[j].id == id && ts[j].isUsed;
      assert ts'[j].isUsed;
    }
  }

  /** Pointing roll `k` at a title no roll has keeps roll keys unique and
      roll titles distinct. */
  lemma RetitleRolls(rolls: seq<RollRow>, k: nat, tid: int)
    requires UniqueRolls(rolls) && k < |rolls|
    requires forall i, j :: 0 <= i < j < |rolls| ==> rolls[i].title != rolls[j].title
    requires forall i :: 0 <= i < |rolls| ==> rolls[i].title != tid
    ensures var rolls' := PutRoll(rolls, rolls[k].(title := tid));
      && |rolls'| == |rolls|
      && (forall i :: 0 <= i < |rolls| ==> rolls'[i] == if i == k then rolls[k].(title := tid) else rolls[i])
      && UniqueRolls(rolls')
      && (forall i, j :: 0 <= i < j < |rolls'| ==> rolls'[i].title != rolls'[j].title)
  {
    var x := rolls[k];
    assert forall i :: 0 <= i < |rolls| && i != k ==> rolls[i].round != x.round || rolls[i].participant != x.participant;
  }

  /** `_set_title` on a roll of the store with one of its titles keeps the
      bookkeeping: the new title was unused, so no other roll has it, and
      the old title was the roll's alone. */
  lemma SetTitleOfBookkept(g: Guild, roll: Option<RollRow>, t: TitleRow)
    requires Bookkept(g) && SetTitleOf(g, roll, t).Ok?
    requires roll.Some? ==> roll.value in g.rolls
    requires t in g.titles
    ensures Bookkept(SetTitleOf(g, roll, t).value)
  {
    var x := roll.value;
    var prev := First(g.titles, (y: TitleRow) => y.id == x.title).value;
    var g' := SetTitleOf(g, roll, t).value;
    var k :| 0 <= k < |g.rolls| && g.rolls[k] == x;
    RetitleBookkept(g.titles, g.rolls, k, t, prev);
    assert g'.titles == PutTitle(PutTitle(g.titles, prev.(isUsed := false)), t.(isUsed := true));
    assert g'.rolls == PutRoll(g.rolls, x.(title := t.id));
  }

  /** Moving roll `k` from its title `prev` to the unused title `t`, and
      flipping the two `is_used` flags, keeps the bookkeeping. */
  lemma RetitleBookkept(ts: seq<TitleRow>, rolls: seq<RollRow>, k: nat, t: TitleRow, prev: TitleRow)
    requires UniqueIds(ts) && RollsBookkept(ts, rolls) && k < |rolls|
    requires t in ts && !t.isUsed && prev in ts && prev.id == rolls[k].title
    ensures
      var ts' := PutTitle(PutTitle(ts, prev.(isUsed := false)), t.(isUsed := true));
      UniqueIds(ts') && RollsBookkept(ts', PutRoll(rolls, rolls[k].(title := t.id)))
  {
    assert UsedId(ts, rolls[k].title);
    assert t.id != prev.id;
    assert forall i :: 0 <= i < |rolls| ==> rolls[i].title != t.id by {
      forall i | 0 <= i < |rolls| ensures rolls[i].title != t.id {
        assert UsedId(ts, rolls[i].title);
      }
    }
    RetitleTitles(ts, t, prev);
    RetitleRolls(rolls, k, t.id);
    var ts' := PutTitle(PutTitle(ts, prev.(isUsed := false)), t.(isUsed := true));
    var rolls' := PutRoll(rolls, rolls[k].(title := t.id));
    forall i | 0 <= i < |rolls'| ensures UsedId(ts', rolls'[i].title) {
      if i != k {
        assert rolls[i].title != rolls[k].title;
        assert UsedId(ts, rolls[i].title);
      }
    }
  }

  /** `swap` keeps the bookkeeping: the two titles change places. */
  lemma SwapBookkept(g: Guild, u1: int, u2: int, now: int)
    requires Bookkept(g) && Swap(g, u1, u2, now).Ok?
    ensures Bookkept(Swap(g, u1, u2, now).value)
  {
    var (c, lr, p1) := OpenFor(g, u1, now).value;
    var p2 := FetchParticipant(g, c.id, u2).value;
    var x1, x2 := RollOf(g, lr.id, p1.id).value, RollOf(g, lr.id, p2.id).value;
    SwapTitlesBookkept(g.titles, g.rolls, x1, x2);
  }

  /** `rate` keeps the bookkeeping: it only writes a score. */
  lemma RateBookkept(g: Guild, uid: int, score: real, now: int)
    requires Bookkept(g) && Rate(g, uid, score, now).Ok?
    ensures Bookkept(Rate(g, uid, score, now).value)
  {
    var g' := Rate(g, uid, score, now).value;
    var (c, lr, p) := OpenFor(g, uid, now).value;
    var x := RollOf(g, lr.id, p.id).value;
    assert forall i :: 0 <= i < |g.rolls| ==> g'.rolls[i].title == g.rolls[i].title;
    assert forall i :: 0 <= i < |g.rolls| ==> g'.rolls[i].round == g.rolls[i].round && g'.rolls[i].participant == g.rolls[i].participant;
    forall i, j | 0 <= i < |g.rolls| && 0 <= j < |g.rolls| && g'.rolls[i].round == g'.rolls[j].round
      && g'.rolls[i].participant == g'.rolls[j].participant
      ensures g'.rolls[i] == g'.rolls[j]
    {
      assert g.rolls[i] == g.rolls[j];
    }
  }

  /** Appending rolls of a fresh round, with distinct keys and distinct
      titles that were unused, keeps the bookkeeping once those titles are
      marked used and no title is unmarked. */
  lemma AppendRollsBookkept(ts: seq<TitleRow>, ts': seq<TitleRow>, rolls: seq<RollRow>, added: seq<RollRow>, rid: int)
    requires RollsBookkept(ts, rolls)
    requires forall i :: 0 <= i < |rolls| ==> rolls[i].round < rid
    requires forall k :: 0 <= k < |added| ==> added[k].round == rid && !UsedId(ts, added[k].title) && UsedId(ts', added[k].title)
    requires forall a, b :: 0 <= a < b < |added| ==> added[a].participant != added[b].participant && added[a].title != added[b].title
    requires forall id :: UsedId(ts, id) ==> UsedId(ts', id)
    ensures RollsBookkept(ts', rolls + added)
  {
    var s := rolls + added;
    var n := |rolls|;
    assert forall i :: 0 <= i < |s| ==> s[i] == if i < n then rolls[i] else added[i - n];
    assert forall a, b :: 0 <= a < |added| && 0 <= b < |added| && added[a].participant == added[b].participant ==> a == b;
    assert UniqueRolls(s);
    forall i | 0 <= i < |s| ensures UsedId(ts', s[i].title) {
      if i < n {
        assert UsedId(ts, rolls[i].title);
      } else {
        assert s[i] == added[i - n];
      }
    }
    forall i, j | 0 <= i < j < |s| ensures s[i].title != s[j].title {
      if j < n {
        assert s[i] == rolls[i] && s[j] == rolls[j];
      } else if i >= n {
        assert s[i] == added[i - n] && s[j] == added[j - n];
      } else {
        assert UsedId(ts, rolls[i].title) && s[j] == added[j - n];
      }
    }
  }

  /** `Launch` keeps the bookkeeping when the round id is fresh, the
      participants are distinct and the drawn titles distinct and unused. */
  lemma LaunchBookkept(g: Guild, cid: int, num: int, active: seq<ParticipantRow>, drawn: seq<TitleRow>,
                       days: int, now: int)
    requires Bookkept(g) && Fresh(g) && |drawn| == |active| && NoDup(drawn)
    requires forall a, b :: 0 <= a < b < |active| ==> active[a].id != active[b].id
    requires forall t :: t in drawn ==> t in g.titles && !t.isUsed
    ensures Bookkept(Launch(g, cid, num, active, drawn, days, now))
  {
    var g' := Launch(g, cid, num, active, drawn, days, now);
    var added := NewRolls(g.nextId, active, drawn);
    LaunchTitles(g, cid, num, active, drawn, days, now);
    assert forall i :: 0 <= i < |g.titles| ==> g'.titles[i].id == g.titles[i].id;
    forall i | 0 <= i < |g.rolls| ensures g.rolls[i].round < g.nextId {
      assert g.rolls[i] in g.rolls;
    }
    forall k | 0 <= k < |added| ensures !UsedId(g.titles, added[k].title) && UsedId(g'.titles, added[k].title) {
      assert drawn[k] in g.titles;
      var j :| 0 <= j < |g.titles| && g.titles[j] == drawn[k];
      assert g.titles[j].id in RollTitles(added) by {
        assert added[k] in added;
      }
    }
    forall id | UsedId(g.titles, id) ensures UsedId(g'.titles, id) {
      var j :| 0 <= j < |g.titles| && g.titles[j].id == id && g.titles[j].isUsed;
      assert g'.titles[j].isUsed;
    }
    AppendRollsBookkept(g.titles, g'.titles, g.rolls, added, g.nextId);
  }

  /** Participant rows have their own ids. */
  ghost predicate UniqueParticipants(ps: seq<ParticipantRow>) {
    forall i, j :: 0 <= i < |ps| && 0 <= j < |ps| && ps[i].id == ps[j].id ==> i == j
  }

  /** `start_round` keeps the bookkeeping in a store with fresh ids and
      unique participant ids: each new roll gets a title no roll had. */
  lemma StartRoundBookkept(g: Guild, days: int, pool: string, now: int, rng: nat -> nat)
    requires StartRound(g, days, pool, now, rng).Ok?
    requires Bookkept(g) && Fresh(g) && UniqueParticipants(g.participants)
    ensures Bookkept(StartRound(g, days, pool, now, rng).value)
  {
    var (c, num, active, unused) := RoundPlan(g, pool).value;
    var drawn := Draw(unused, |active|, rng, 0);
    assert StartRound(g, days, pool, now, rng).value == Launch(g, c.id, num, active, drawn, days, now);
    UniqueIdsNoDup(g.titles);
    UniqueParticipantsNoDup(g.participants);
    assert NoDup(unused) && NoDup(active);
    DistinctIdsOf(g.participants, active);
    LaunchBookkept(g, c.id, num, active, drawn, days, now);
  }

  lemma UniqueIdsNoDup(ts: seq<TitleRow>)
    requires UniqueIds(ts)
    ensures NoDup(ts)
  {
    forall i, j | 0 <= i < j < |ts| ensures ts[i] != ts[j] {
      assert ts[i].id != ts[j].id;
    }
  }

  lemma UniqueParticipantsNoDup(ps: seq<ParticipantRow>)
    requires UniqueParticipants(ps)
    ensures NoDup(ps)
  {
    forall i, j | 0 <= i < j < |ps| ensures ps[i] != ps[j] {
      assert ps[i].id != ps[j].id;
    }
  }

  /** Distinct rows taken from rows with unique ids have distinct ids. */
  lemma DistinctIdsOf(ps: seq<ParticipantRow>, sub: seq<ParticipantRow>)
    requires UniqueParticipants(ps) && NoDup(sub) && forall p :: p in sub ==> p in ps
    ensures forall a, b :: 0 <= a < b < |sub| ==> sub[a].id != sub[b].id
  {
    forall a, b | 0 <= a < b < |sub| ensures sub[a].id != sub[b].id {
      assert sub[a] in ps && sub[b] in ps && sub[a] != sub[b];
      var i :| 0 <= i < |ps| && ps[i] == sub[a];
      var j :| 0 <= j < |ps| && ps[j] == sub[b];
    }
  }

  /** `reroll` keeps the bookkeeping. */
  lemma RerollBookkept(g: Guild, uid: int, pool: string, now: int, pick: nat)
    requires Bookkept(g) && Reroll(g, uid, pool, now, pick).Ok?
    ensures Bookkept(Reroll(g, uid, pool, now, pick).value.0)
  {
    var (c, lr, p) := OpenFor(g, uid, now).value;
    var unused := UnusedTitles(g, PoolOf(g, c.id, pool).value.id);
    var t := unused[pick % |unused|];
    SetTitleOfBookkept(g, RollOf(g, lr.id, p.id), t);
  }

  /** `set_title` keeps the bookkeeping. */
  lemma SetTitleBookkept(g: Guild, uid: int, name: string, now: int)
    requires Bookkept(g) && SetTitle(g, uid, name, now).Ok?
    ensures Bookkept(SetTitle(g, uid, name, now).value)
  {
    var (c, lr, p) := OpenFor(g, uid, now).value;
    SetTitleOfBookkept(g, RollOf(g, lr.id, p.id), TitleOf(g, c.id, name).value);
  }

  /** Corrected, ending a round credits each user the sum of the karma
      deltas of the round's rolls whose titles they proposed. */
  lemma EndRoundKarma(g: Guild, lr: RoundRow, u: int)
    requires u in g.users
    ensures
      var rows := RoundRows(g, lr.id);
      EndRoundIntended(g, lr).users[u].karma == g.users[u].karma + Karma.Gain(rows, rows, u)
  {
    var rows := RoundRows(g, lr.id);
    Karma.ApplyIsSum(rows, rows, KarmaOf(g), u);
  }

  /** With no negative score, the corrected end of a round takes no karma away. */
  lemma EndRoundKarmaGrows(g: Guild, lr: RoundRow, u: int)
    requires u in g.users
    requires forall i :: 0 <= i < |g.rolls| && g.rolls[i].score.Some? ==> 0.0 <= g.rolls[i].score.value
    ensures EndRoundIntended(g, lr).users[u].karma >= g.users[u].karma
  {
    var rolls := Filter(g.rolls, (x: RollRow) => x.round == lr.id);
    var rows := KarmaRows(g, rolls);
    EndRoundKarma(g, lr, u);
    forall j | 0 <= j < |rolls| && rolls[j].score.Some? ensures 0.0 <= rolls[j].score.value {
      assert rolls[j] in g.rolls;
    }
    KarmaRowsScores(g, rolls);
    Karma.GainNonNegative(rows, rows, u);
  }

  /** `_end_round` as written does what was meant when no user proposed two
      of the round's rolled titles and every proposer has a roll of their
      own in the round. */
  lemma EndRoundAgrees(g: Guild, lr: RoundRow)
    requires
      var rows := RoundRows(g, lr.id);
      && (forall i, j :: 0 <= i < j < |rows| ==> rows[i].proposer != rows[j].proposer)
      && (forall i :: 0 <= i < |rows| ==> Karma.ByWatcher(rows, rows[i].proposer).Some?)
    ensures EndRoundOf(g, lr) == Ok(EndRoundIntended(g, lr))
  {
    var rows := RoundRows(g, lr.id);
    Karma.AsWrittenAgrees(rows, rows, KarmaOf(g));
  }

  /** Ending a round, extending it, ending the challenge and removing a
      user touch neither titles nor rolls, so they keep the bookkeeping. */
  lemma EndRoundBookkept(g: Guild, now: int)
    requires Bookkept(g) && EndRound(g, now).Ok?
    ensures Bookkept(EndRound(g, now).value)
  {
  }

  lemma ExtendRoundBookkept(g: Guild, days: int, now: int)
    requires Bookkept(g) && ExtendRound(g, days, now).Ok?
    ensures Bookkept(ExtendRound(g, days, now).value)
  {
  }

  lemma EndChallengeBookkept(g: Guild, now: int)
    requires Bookkept(g) && EndChallenge(g, now).Ok?
    ensures Bookkept(EndChallenge(g, now).value)
  {
  }

  lemma RemoveUserBookkept(g: Guild, uid: int)
    requires Bookkept(g) && RemoveUser(g, uid).Ok?
    ensures Bookkept(RemoveUser(g, uid).value)
  {
  }

  /** A user takes part in a challenge through at most one row, as
      `add_user` refuses a second one. */
  ghost predicate OneRowPerMember(ps: seq<ParticipantRow>) {
    forall i, j :: 0 <= i < j < |ps| && ps[i].challenge == ps[j].challenge ==> ps[i].user != ps[j].user
  }

  /** After `remove_user` the user can no longer act in the challenge:
      fetching them as a participant fails and no later round is started
      for them. */
  lemma RemoveUserStops(g: Guild, uid: int)
    requires RemoveUser(g, uid).Ok? && OneRowPerMember(g.participants)
    ensures FetchParticipant(RemoveUser(g, uid).value, CurrentRow(g).value.id, uid).Err?
    ensures forall x :: x in ActiveParticipants(RemoveUser(g, uid).value, CurrentRow(g).value.id) ==> x.user != uid
  {
    var c := CurrentRow(g).value;
    var p := FetchParticipant(g, c.id, uid).value;
    var g' := RemoveUser(g, uid).value;
    var k :| 0 <= k < |g.participants| && g.participants[k] == p;
    forall x | x in g.participants && x.challenge == c.id && x.user == uid
      ensures x == p
    {
      var i :| 0 <= i < |g.participants| && g.participants[i] == x;
    }
    match Latest(g.rounds, c.id)
    case Some(lr) =>
      forall x | x in g'.participants && x.challenge == c.id && x.user == uid
        ensures x.failedRound.Some?
      {
        var i :| 0 <= i < |g'.participants| && g'.participants[i] == x;
      }
    case None =>
      assert forall x :: x in g'.participants && x.challenge == c.id ==> x.user != uid;
  }

  /** The karma rows carry the scores of the rolls they come from. */
  lemma {:induction false} KarmaRowsScores(g: Guild, rolls: seq<RollRow>)
    ensures forall i :: 0 <= i < |KarmaRows(g, rolls)| ==>
      KarmaRows(g, rolls)[i].score.None? || exists j :: 0 <= j < |rolls| && rolls[j].score == KarmaRows(g, rolls)[i].score
    ensures (forall j :: 0 <= j < |rolls| && rolls[j].score.Some? ==> 0.0 <= rolls[j].score.value) ==>
      forall i :: 0 <= i < |KarmaRows(g, rolls)| && KarmaRows(g, rolls)[i].score.Some? ==> 0.0 <= KarmaRows(g, rolls)[i].score.value
  {
    if |rolls| > 0 {
      var n := |rolls| - 1;
      KarmaRowsScores(g, rolls[..n]);
      var rest := KarmaRows(g, rolls[..n]);
      forall i | 0 <= i < |KarmaRows(g, rolls)|
        ensures KarmaRows(g, rolls)[i].score.None? || exists j :: 0 <= j < |rolls| && rolls[j].score == KarmaRows(g, rolls)[i].score
      {
        if i < |rest| && rest[i].score.Some? {
          var j :| 0 <= j < n && rolls[..n][j].score == rest[i].score;
          assert rolls[j].score == rest[i].score;
        } else if KarmaRows(g, rolls)[i].score.Some? {
          assert KarmaRows(g, rolls)[i].score == rolls[n].score;
        }
      }
    }
  }
}

=== FILE: table.dfy ===
/** cogs.py `table_format`: the rows of a chat table laid out in columns,
    each cell padded with spaces to its column's widest cell plus the
    column's spacing, one line per row. */
module Table {
  import opened Results

  /** A cell: text (what `str` gives for it), or a tuple of cells that is
      flattened into several columns. */
  datatype Cell = Text(text: string) | Tuple(items: seq<Cell>)

  /** `flatten`: the texts of a cell, left to right, tuples opened at every
      depth. */
  function Flatten(c: Cell): (r: seq<string>)
    ensures c.Text? ==> r == [c.text]
    decreases c, 1
  {
    match c
    case Text(t) => [t]
    case Tuple(items) => FlattenAll(items)
  }

  /** `flatten(T[0]) + flatten(T[1:])` over the items of a tuple. */
  function FlattenAll(items: seq<Cell>): (r: seq<string>)
    decreases items, 0
  {
    if |items| == 0 then [] else Flatten(items[0]) + FlattenAll(items[1..])
  }

  /** Flattening a tuple is flattening its parts one after the other. */
  lemma {:induction false} FlattenAllAppend(a: seq<Cell>, b: seq<Cell>)
    ensures FlattenAll(a + b) == FlattenAll(a) + FlattenAll(b)
    decreases |a|
  {
    if |a| == 0 {
      assert a + b == b;
    } else {
      assert (a + b)[1..] == a[1..] + b;
      FlattenAllAppend(a[1..], b);
    }
  }

  /** A tuple of texts flattens to the texts themselves. */
  lemma {:induction false} FlattenTexts(ts: seq<string>)
    ensures FlattenAll(seq(|ts|, k requires 0 <= k < |ts| => Text(ts[k]))) == ts
    decreases |ts|
  {
    if |ts| > 0 {
      var cells := seq(|ts|, k requires 0 <= k < |ts| => Text(ts[k]));
      assert cells[1..] == seq(|ts[1..]|, k requires 0 <= k < |ts[1..]| => Text(ts[1..][k]));
      FlattenTexts(ts[1..]);
    }
  }

  /** Nesting a tuple inside a tuple changes nothing. */
  lemma FlattenNested(a: seq<Cell>, b: seq<Cell>, c: seq<Cell>)
    ensures Flatten(Tuple(a + [Tuple(b)] + c)) == Flatten(Tuple(a + b + c))
  {
    FlattenAllAppend(a + [Tuple(b)], c);
    FlattenAllAppend(a, [Tuple(b)]);
    FlattenAllAppend(a + b, c);
    FlattenAllAppend(a, b);
    assert FlattenAll([Tuple(b)]) == FlattenAll(b) + FlattenAll([]);
  }

  /** The widest text of column `i` over the rows, 0 for no rows. */
  function ColWidth(rows: seq<seq<string>>, i: nat): (r: nat)
    requires forall k :: 0 <= k < |rows| ==> i < |rows[k]|
    ensures forall k :: 0 <= k < |rows| ==> |rows[k][i]| <= r
    ensures r == 0 || exists k :: 0 <= k < |rows| && |rows[k][i]| == r
  {
    if |rows| == 0 then 0
    else
      var rest := ColWidth(rows[1..], i);
      assert forall k :: 1 <= k < |rows| ==> rows[k] == rows[1..][k - 1];
      if |rows[0][i]| > rest then |rows[0][i]| else rest
  }

  /** `max_lens`: the width of each of the first `n` columns. */
  function Widths(rows: seq<seq<string>>, n: nat): (r: seq<nat>)
    requires forall k :: 0 <= k < |rows| ==> n <= |rows[k]|
    ensures |r| == n
    ensures forall i :: 0 <= i < n ==> r[i] == ColWidth(rows, i)
    ensures forall i, k :: 0 <= i < n && 0 <= k < |rows| ==> |rows[k][i]| <= r[i]
    ensures forall i :: 0 <= i < n ==> r[i] == 0 || exists k :: 0 <= k < |rows| && |rows[k][i]| == r[i]
  {
    seq(n, i requires 0 <= i < n => ColWidth(rows, i))
  }

  /** `n` spaces; `' ' * n` is empty for a negative `n`. */
  function Spaces(n: int): (r: string)
    ensures |r| == if n < 0 then 0 else n
    ensures forall k :: 0 <= k < |r| ==> r[k] == ' '
  {
    if n <= 0 then "" else Spaces(n - 1) + " "
  }

  /** One cell: its text, then spaces up to the column width plus spacing. */
  function Padded(x: string, width: int, spacing: int): (r: string)
    ensures |x| <= |r| && r[..|x|] == x
    ensures width + spacing >= |x| ==> |r| == width + spacing
    ensures forall k :: |x| <= k < |r| ==> r[k] == ' '
  {
    x + Spaces(width - |x| + spacing)
  }

  /** The cells of one row from column `from` on, each padded. */
  function Cells(row: seq<string>, widths: seq<nat>, spacing: seq<int>, from: nat): (r: string)
    requires |widths| <= |row| && |widths| <= |spacing| && from <= |widths|
    decreases |widths| - from
  {
    if from == |widths| then ""
    else Padded(row[from], widths[from], spacing[from]) + Cells(row, widths, spacing, from + 1)
  }

  /** One output line: the padded cells and a newline. */
  function Line(row: seq<string>, widths: seq<nat>, spacing: seq<int>): (r: string)
    requires |widths| <= |row| && |widths| <= |spacing|
    ensures |r| > 0 && r[|r| - 1] == '\n'
  {
    Cells(row, widths, spacing, 0) + "\n"
  }

  /** The lines of all rows, concatenated. */
  function Lines(rows: seq<seq<string>>, widths: seq<nat>, spacing: seq<int>): (r: string)
    requires forall k :: 0 <= k < |rows| ==> |widths| <= |rows[k]|
    requires |widths| <= |spacing|
  {
    if |rows| == 0 then "" else Line(rows[0], widths, spacing) + Lines(rows[1..], widths, spacing)
  }

  /** The flattened rows. */
  function Rows(data: seq<Cell>): (r: seq<seq<string>>)
    ensures |r| == |data| && forall k :: 0 <= k < |data| ==> r[k] == Flatten(data[k])
  {
    seq(|data|, k requires 0 <= k < |data| => Flatten(data[k]))
  }

  /** `min_col_spacing`, defaulting to 1 for each of `n` columns. */
  function SpacingOf(spacing: Option<seq<int>>, n: nat): (r: seq<int>)
    ensures spacing.Some? ==> r == spacing.value
    ensures spacing.None? ==> |r| == n && forall i :: 0 <= i < n ==> r[i] == 1
  {
    if spacing.Some? then spacing.value else seq(n, _ => 1)
  }

  /** `table_format`: the rows are flattened and the first one fixes the
      number of columns; an empty table, a row with fewer cells or a spacing
      list shorter than the columns is an index error. Spacing defaults to
      1 for every column. */
  function Format(data: seq<Cell>, spacing: Option<seq<int>>): (r: Result<string>)
    ensures |data| == 0 ==> r == Err(IndexOutOfRange)
    ensures |data| > 0 ==>
      var rows := Rows(data);
      var n := |rows[0]|;
      var sp := SpacingOf(spacing, n);
      && (r.Ok? <==> (forall k :: 0 <= k < |rows| ==> n <= |rows[k]|) && n <= |sp|)
      && (r.Err? ==> r.error == IndexOutOfRange)
      && (r.Ok? ==> r.value == Lines(rows, Widths(rows, n), sp))
  {
    if |data| == 0 then Err(IndexOutOfRange)
    else
      var rows := Rows(data);
      var n := |rows[0]|;
      if exists k :: 0 <= k < |rows| && |rows[k]| < n then Err(IndexOutOfRange)
      else
        var sp := SpacingOf(spacing, n);
        if |sp| < n then Err(IndexOutOfRange)
        else Ok(Lines(rows, Widths(rows, n), sp))
  }

  /** How many times `c` occurs in `s`. */
  function Count(s: string, c: char): (r: nat)
    ensures r <= |s|
  {
    if |s| == 0 then 0 else (if s[0] == c then 1 else 0) + Count(s[1..], c)
  }

  lemma {:induction false} CountAppend(a: string, b: string, c: char)
    ensures Count(a + b, c) == Count(a, c) + Count(b, c)
    decreases |a|
  {
    if |a| == 0 {
      assert a + b == b;
    } else {
      assert (a + b)[1..] == a[1..] + b;
      CountAppend(a[1..], b, c);
    }
  }

  lemma {:induction false} SpacesHaveNoNewline(n: int)
    ensures Count(Spaces(n), '\n') == 0
    decreases if n < 0 then 0 else n
  {
    if n > 0 {
      SpacesHaveNoNewline(n - 1);
      CountAppend(Spaces(n - 1), " ", '\n');
    }
  }

  lemma {:induction false} CellsHaveNoNewline(row: seq<string>, widths: seq<nat>, spacing: seq<int>, from: nat)
    requires |widths| <= |row| && |widths| <= |spacing| && from <= |widths|
    requires forall i :: 0 <= i < |row| ==> Count(row[i], '\n') == 0
    ensures Count(Cells(row, widths, spacing, from), '\n') == 0
    decreases |widths| - from
  {
    if from < |widths| {
      CellsHaveNoNewline(row, widths, spacing, from + 1);
      SpacesHaveNoNewline(widths[from] - |row[from]| + spacing[from]);
      CountAppend(row[from], Spaces(widths[from] - |row[from]| + spacing[from]), '\n');
      CountAppend(Padded(row[from], widths[from], spacing[from]), Cells(row, widths, spacing, from + 1), '\n');
    }
  }

  lemma {:induction false} LinesCount(rows: seq<seq<string>>, widths: seq<nat>, spacing: seq<int>)
    requires forall k :: 0 <= k < |rows| ==> |widths| <= |rows[k]|
    requires |widths| <= |spacing|
    requires forall k, i :: 0 <= k < |rows| && 0 <= i < |rows[k]| ==> Count(rows[k][i], '\n') == 0
    ensures Count(Lines(rows, widths, spacing), '\n') == |rows|
    decreases |rows|
  {
    if |rows| > 0 {
      LinesCount(rows[1..], widths, spacing);
      CellsHaveNoNewline(rows[0], widths, spacing, 0);
      CountAppend(Cells(rows[0], widths, spacing, 0), "\n", '\n');
      CountAppend(Line(rows[0], widths, spacing), Lines(rows[1..], widths, spacing), '\n');
    }
  }

  /** `table_format` writes exactly one newline per row, when no cell text
      holds a newline of its own. */
  lemma FormatLineCount(data: seq<Cell>, spacing: Option<seq<int>>)
    requires Format(data, spacing).Ok?
    requires forall k :: 0 <= k < |data| ==> forall x :: x in Flatten(data[k]) ==> Count(x, '\n') == 0
    ensures Count(Format(data, spacing).value, '\n') == |data|
  {
    var rows := Rows(data);
    var n := |rows[0]|;
    var sp := SpacingOf(spacing, n);
    forall k, i | 0 <= k < |rows| && 0 <= i < |rows[k]| ensures Count(rows[k][i], '\n') == 0 {
      assert rows[k][i] in Flatten(data[k]);
    }
    LinesCount(rows, Widths(rows, n), sp);
  }

  /** Where column `i` starts in a line: the widths plus spacings before it. */
  function Offset(widths: seq<nat>, spacing: seq<int>, i: nat): (r: int)
    requires i <= |widths| && |widths| <= |spacing|
  {
    if i == 0 then 0 else Offset(widths, spacing, i - 1) + widths[i - 1] + spacing[i - 1]
  }

  lemma {:induction false} OffsetMonotone(widths: seq<nat>, spacing: seq<int>, from: nat, i: nat)
    requires from <= i <= |widths| && |widths| <= |spacing|
    requires forall j :: 0 <= j < |widths| ==> 0 <= spacing[j]
    ensures Offset(widths, spacing, from) <= Offset(widths, spacing, i)
    decreases i - from
  {
    if from < i {
      OffsetMonotone(widths, spacing, from, i - 1);
    }
  }

  /** With non-negative spacing and every cell within its column's width,
      the cells from column `from` on take exactly their columns' room. */
  lemma {:induction false} CellsLength(row: seq<string>, widths: seq<nat>, spacing: seq<int>, from: nat)
    requires |widths| <= |row| && |widths| <= |spacing| && from <= |widths|
    requires forall j :: 0 <= j < |widths| ==> |row[j]| <= widths[j] && 0 <= spacing[j]
    ensures |Cells(row, widths, spacing, from)| == Offset(widths, spacing, |widths|) - Offset(widths, spacing, from)
    decreases |widths| - from
  {
    if from < |widths| {
      CellsLength(row, widths, spacing, from + 1);
    }
  }

  /** ... and the text of column `i` starts at the column's offset. */
  lemma {:induction false} CellAt(row: seq<string>, widths: seq<nat>, spacing: seq<int>, from: nat, i: nat)
    requires |widths| <= |row| && |widths| <= |spacing| && from <= i < |widths|
    requires forall j :: 0 <= j < |widths| ==> |row[j]| <= widths[j] && 0 <= spacing[j]
    ensures
      var o := Offset(widths, spacing, i) - Offset(widths, spacing, from);
      var s := Cells(row, widths, spacing, from);
      0 <= o && o + |row[i]| <= |s| && s[o..o + |row[i]|] == row[i]
    decreases i - from
  {
    var head := Padded(row[from], widths[from], spacing[from]);
    var tail := Cells(row, widths, spacing, from + 1);
    assert |head| == widths[from] + spacing[from];
    if i == from {
      SliceLeft(head, tail, 0, |row[i]|);
    } else {
      CellAt(row, widths, spacing, from + 1, i);
      OffsetMonotone(widths, spacing, from + 1, i);
      var o' := Offset(widths, spacing, i) - Offset(widths, spacing, from + 1);
      SliceRight(head, tail, o', |row[i]|);
    }
  }

  lemma SliceLeft(a: string, b: string, o: nat, len: nat)
    requires o + len <= |a|
    ensures (a + b)[o..o + len] == a[o..o + len]
  {
  }

  lemma SliceRight(a: string, b: string, o: nat, len: nat)
    requires o + len <= |b|
    ensures (a + b)[|a| + o..|a| + o + len] == b[o..o + len]
  {
  }

  /** One row's line: as long as all the columns plus the newline, with
      the text of column `i` at the column's offset, whenever each cell
      fits its column. */
  lemma LineAligned(row: seq<string>, w: seq<nat>, sp: seq<int>, i: nat)
    requires |w| <= |row| && |w| <= |sp| && i < |w|
    requires forall j :: 0 <= j < |w| ==> |row[j]| <= w[j] && 0 <= sp[j]
    ensures
      var line := Line(row, w, sp);
      var o := Offset(w, sp, i);
      && |line| == Offset(w, sp, |w|) + 1
      && 0 <= o && o + |row[i]| <= |line| && line[o..o + |row[i]|] == row[i]
  {
    CellsLength(row, w, sp, 0);
    CellAt(row, w, sp, 0, i);
    SliceBeforeNewline(Cells(row, w, sp, 0), Offset(w, sp, i), |row[i]|);
  }

  /** Row `k` of the table is laid out aligned: its line is as long as all
      the columns plus the newline, and the text of its column `i` starts at
      the column's offset, the same in every line. */
  ghost predicate AlignedAt(rows: seq<seq<string>>, n: nat, sp: seq<int>, k: nat, i: nat) {
    && (forall j :: 0 <= j < |rows| ==> n <= |rows[j]|) && n <= |sp| && k < |rows| && i < n
    && var w := Widths(rows, n);
       var line := Line(rows[k], w, sp);
       var o := Offset(w, sp, i);
       && |line| == Offset(w, sp, n) + 1
       && 0 <= o && o + |rows[k][i]| <= |line| && line[o..o + |rows[k][i]|] == rows[k][i]
  }

  /** Column alignment over flattened rows of at least `n` cells. */
  lemma RowAligned(rows: seq<seq<string>>, n: nat, sp: seq<int>, k: nat, i: nat)
    requires forall j :: 0 <= j < |rows| ==> n <= |rows[j]|
    requires n <= |sp| && forall j :: 0 <= j < n ==> 0 <= sp[j]
    requires k < |rows| && i < n
    ensures AlignedAt(rows, n, sp, k, i)
  {
    RowFits(rows, n, k);
    LineAligned(rows[k], Widths(rows, n), sp, i);
  }

  /** Every cell of a row is within its column's width. */
  lemma RowFits(rows: seq<seq<string>>, n: nat, k: nat)
    requires forall j :: 0 <= j < |rows| ==> n <= |rows[j]|
    requires k < |rows|
    ensures forall j :: 0 <= j < n ==> |rows[k][j]| <= Widths(rows, n)[j]
  {
    forall j | 0 <= j < n ensures |rows[k][j]| <= Widths(rows, n)[j] {
      assert |rows[k][j]| <= ColWidth(rows, j);
    }
  }

  /** A slice within `s` reads the same after a newline is appended. */
  lemma SliceBeforeNewline(s: string, o: int, len: nat)
    requires 0 <= o && o + len <= |s|
    ensures (s + "\n")[o..o + len] == s[o..o + len]
  {
  }

  /** Column alignment: with non-negative spacing (the default is 1) every
      line of the table is as long as the others, and in every line the
      text of column `i` starts at the same offset. */
  lemma FormatAligned(data: seq<Cell>, spacing: Option<seq<int>>, k: nat, i: nat)
    requires Format(data, spacing).Ok?
    requires spacing.Some? ==> forall j :: 0 <= j < |spacing.value| ==> 0 <= spacing.value[j]
    requires k < |data| && i < |Flatten(data[0])|
    ensures var rows := Rows(data);
      var n := |rows[0]|;
      AlignedAt(rows, n, SpacingOf(spacing, n), k, i)
  {
    FormatShape(data, spacing);
    var rows := Rows(data);
    var n := |rows[0]|;
    SpacingNonNegative(spacing, n);
    RowAligned(rows, n, SpacingOf(spacing, n), k, i);
  }

  /** A formatted table has rows at least as wide as the first and enough
      spacing entries. */
  lemma FormatShape(data: seq<Cell>, spacing: Option<seq<int>>)
    requires Format(data, spacing).Ok?
    ensures |data| > 0
    ensures var rows := Rows(data);
      var n := |rows[0]|;
      (forall j :: 0 <= j < |rows| ==> n <= |rows[j]|) && n <= |SpacingOf(spacing, n)|
  {
  }

  /** Given spacing, or the default of 1, is non-negative when every given
      entry is. */
  lemma SpacingNonNegative(spacing: Option<seq<int>>, n: nat)
    requires spacing.Some? ==> forall j :: 0 <= j < |spacing.value| ==> 0 <= spacing.value[j]
    requires n <= |SpacingOf(spacing, n)|
    ensures forall j :: 0 <= j < n ==> 0 <= SpacingOf(spacing, n)[j]
  {
  }

  /** The k-th line of the output is the k-th row's line. */
  lemma {:induction false} LinesAt(rows: seq<seq<string>>, widths: seq<nat>, spacing: seq<int>, k: nat)
    requires forall j :: 0 <= j < |rows| ==> |widths| <= |rows[j]|
    requires |widths| <= |spacing| && k < |rows|
    ensures
      var before := Lines(rows[..k], widths, spacing);
      var line := Line(rows[k], widths, spacing);
      |before| + |line| <= |Lines(rows, widths, spacing)|
      && Lines(rows, widths, spacing)[|before|..|before| + |line|] == line
    decreases k
  {
    if k == 0 {
      assert rows[..0] == [];
    } else {
      LinesAt(rows[1..], widths, spacing, k - 1);
      assert rows[..k][1..] == rows[1..][..k - 1];
      assert rows[..k][0] == rows[0];
    }
  }
}

=== FILE: xlsx.dfy ===
/** xlsx.py's `XlsxExporter`: writes a challenge as a sheet, one column at a
    time, tracking the widest text of the current column so the column can
    be sized when the exporter moves on. The underlying workbook is a list
    of written cells plus the width recorded for each finished column. */
module Xlsx {
  import opened Results
  import opened Challenges
  import opened Contexts
  import opened Scores
  import opened Sorting

  /** The format dictionary of a cell. */
  datatype Format = Format(bold: bool, bg: Option<string>, center: bool, strike: bool)

  /** `title_format`: bold, centred, on grey. */
  const TitleFormat: Format := Format(true, Some("#C0C0C0"), true, false)
  const Plain: Format := Format(false, None, false, false)

  /** A written value: text, a link shown as text, or a number. */
  datatype Value = Str(s: string) | Link(url: string, s: string) | Num(x: real)

  /** A written cell; `text` is the string whose length counts for the
      column width. */
  datatype Written = Written(row: nat, col: nat, value: Value, text: string, fmt: Format)

  /** The exporter's cursor, the widest text of the current column
      (`max_col_width`), the cells written so far and the width set for
      each finished column. */
  datatype Exporter = Exporter(col: nat, row: nat, width: nat, cells: seq<Written>, widths: seq<nat>)

  const Start: Exporter := Exporter(0, 0, 2, [], [])

  /** The exporter's bookkeeping is sound: a finished column's width is
      recorded and fits each of its texts, the running width fits the
      current column's texts, the current column's cells sit above the
      cursor, and no two cells share a position. */
  ghost predicate Sound(e: Exporter) {
    && e.width >= 2
    && |e.widths| == e.col
    && (forall k :: 0 <= k < |e.widths| ==> e.widths[k] >= 2)
    && (forall i :: 0 <= i < |e.cells| ==>
          || (e.cells[i].col < e.col && |e.cells[i].text| <= e.widths[e.cells[i].col])
          || (e.cells[i].col == e.col && e.cells[i].row < e.row && |e.cells[i].text| <= e.width))
    && (forall i, j :: 0 <= i < j < |e.cells| ==>
          e.cells[i].row != e.cells[j].row || e.cells[i].col != e.cells[j].col)
  }

  lemma StartSound()
    ensures Sound(Start) && Start.cells == []
  {
  }

  function Max(a: nat, b: nat): nat { if a >= b then a else b }

  /** Puts one cell at the cursor and moves down, widening the column to fit
      `text`. */
  function Put(e: Exporter, value: Value, text: string, fmt: Format): (r: Exporter)
    ensures r.col == e.col && r.row == e.row + 1 && r.widths == e.widths
    ensures r.cells == e.cells + [Written(e.row, e.col, value, text, fmt)]
    ensures r.width >= e.width && r.width >= |text|
    ensures Sound(e) ==> Sound(r)
  {
    Exporter(e.col, e.row + 1, Max(e.width, |text|), e.cells + [Written(e.row, e.col, value, text, fmt)], e.widths)
  }

  /** `write`. */
  function Write(e: Exporter, s: string, fmt: Format): (r: Exporter)
    ensures r == Put(e, Str(s), s, fmt)
  {
    Put(e, Str(s), s, fmt)
  }

  /** `write_url`: a link when there is a url, plain text otherwise; either
      way the shown text is what counts for the width. */
  function WriteUrl(e: Exporter, url: Option<string>, s: string, fmt: Format): (r: Exporter)
    ensures r == Put(e, if url.Some? then Link(url.value, s) else Str(s), s, fmt)
  {
    if url.Some? then Put(e, Link(url.value, s), s, fmt) else Write(e, s, fmt)
  }

  /** `write_number`; `show` is Python's `str` on a float. */
  function WriteNumber(e: Exporter, x: real, show: real -> string, fmt: Format): (r: Exporter)
    ensures r == Put(e, Num(x), show(x), fmt)
  {
    Put(e, Num(x), show(x), fmt)
  }

  /** The format of a score cell: centred, on the score's colour. */
  function ScoreFormat(score: Option<real>): Format {
    Format(false, Some(ScoreColor(score)), true, false)
  }

  /** `write_score`: `-` for no score, else the number. */
  function WriteScore(e: Exporter, score: Option<real>, show: real -> string): (r: Exporter)
    ensures |r.cells| == |e.cells| + 1
    ensures r.cells[|e.cells|].value == (if score.None? then Str("-") else Num(score.value))
    ensures r.cells[|e.cells|].fmt.bg == Some(ScoreColor(score))
    ensures r.cells[|e.cells|].fmt.center
    ensures r == Put(e, r.cells[|e.cells|].value, r.cells[|e.cells|].text, ScoreFormat(score))
  {
    if score.None? then Write(e, "-", ScoreFormat(score))
    else WriteNumber(e, score.value, show, ScoreFormat(score))
  }

  /** `next_col`: records the column's width and starts the next column at
      the top with the minimum width 2. */
  function NextCol(e: Exporter): (r: Exporter)
    ensures r.col == e.col + 1 && r.row == 0 && r.width == 2 && r.cells == e.cells
    ensures r.widths == e.widths + [e.width]
    ensures Sound(e) ==> Sound(r)
  {
    Exporter(e.col + 1, 0, 2, e.cells, e.widths + [e.width])
  }

  /** Shape shared by the column writers: same column, `n` cells further
      down, older cells kept. */
  ghost predicate Extends(e: Exporter, r: Exporter, n: nat) {
    && r.col == e.col && r.row == e.row + n && r.widths == e.widths
    && |r.cells| == |e.cells| + n && r.cells[..|e.cells|] == e.cells
  }

  /** A run of `write_score` calls down the current column. */
  function WriteScores(e: Exporter, scores: seq<Option<real>>, show: real -> string): (r: Exporter)
    ensures Extends(e, r, |scores|)
    ensures forall k :: 0 <= k < |scores| ==> ScoreWritten(r.cells[|e.cells| + k], scores[k], e.row + k)
    ensures Sound(e) ==> Sound(r)
    decreases |scores|
  {
    if |scores| == 0 then e
    else
      var e1 := WriteScore(e, scores[0], show);
      var r := WriteScores(e1, scores[1..], show);
      assert r.cells[..|e.cells|] == r.cells[..|e1.cells|][..|e.cells|];
      assert r.cells[|e.cells|] == r.cells[..|e1.cells|][|e.cells|];
      ScoresShift(r.cells, |e.cells|, e.row, scores);
      r
  }

  /** The cell `write_score` writes for `score` in row `row`. */
  ghost predicate ScoreWritten(w: Written, score: Option<real>, row: int) {
    && w.value == (if score.None? then Str("-") else Num(score.value))
    && w.fmt == ScoreFormat(score)
    && w.row == row
  }

  /** A score cell followed by the cells of the remaining scores is the
      cells of all the scores. */
  lemma ScoresShift(cells: seq<Written>, base: nat, row: int, scores: seq<Option<real>>)
    requires 0 < |scores| && base + |scores| <= |cells|
    requires ScoreWritten(cells[base], scores[0], row)
    requires forall k :: 0 <= k < |scores| - 1 ==> ScoreWritten(cells[base + 1 + k], scores[1..][k], row + 1 + k)
    ensures forall k :: 0 <= k < |scores| ==> ScoreWritten(cells[base + k], scores[k], row + k)
  {
    forall k | 1 <= k < |scores|
      ensures ScoreWritten(cells[base + k], scores[k], row + k)
    {
      assert scores[k] == scores[1..][k - 1] && base + k == base + 1 + (k - 1);
    }
  }

  /** A participant entry of `sorted_participants`: (name, user id). */
  type Named = (string, UserId)

  /** `user_col`: a user's colour; KeyError for an unknown user. */
  function UserColor(ctx: Context, uid: UserId): (r: Result<string>)
    ensures r.Ok? <==> uid in ctx.users
    ensures r.Ok? ==> r.value == ctx.users[uid].color
    ensures r.Err? ==> r.error == KeyMissing
  {
    if uid in ctx.users then Ok(ctx.users[uid].color) else Err(KeyMissing)
  }

  /** The list comprehension before the sort: each participant's name and
      id, in roster order. */
  function NamesOf(ctx: Context, ps: seq<UserId>): (r: Result<seq<Named>>)
    ensures r.Ok? <==> forall k :: 0 <= k < |ps| ==> ps[k] in ctx.users
    ensures r.Err? ==> r.error == KeyMissing
    ensures r.Ok? ==> |r.value| == |ps|
    ensures r.Ok? ==> forall k :: 0 <= k < |ps| ==> r.value[k] == (ctx.users[ps[k]].name, ps[k])
  {
    if |ps| == 0 then Ok([])
    else if ps[0] !in ctx.users then Err(KeyMissing)
    else
      var rest :- NamesOf(ctx, ps[1..]);
      Ok([(ctx.users[ps[0]].name, ps[0])] + rest)
  }

  function NameKey(x: Named): string { x.0 }

  /** `sorted_participants`: the participants by name, ties in roster order. */
  function SortedParticipants(ctx: Context, c: Challenge): (r: Result<seq<Named>>)
    ensures r.Ok? <==> forall k :: 0 <= k < |c.participants| ==> c.participants[k] in ctx.users
    ensures r.Ok? ==> NamesOf(ctx, c.participants).Ok? && r.value == SortBy(NamesOf(ctx, c.participants).value, NameKey)
  {
    var named :- NamesOf(ctx, c.participants);
    Ok(SortBy(named, NameKey))
  }

  /** The sorted participants are ordered by name, are exactly the roster's
      participants with their names, and keep roster order among equal
      names. */
  lemma SortedParticipantsOrder(ctx: Context, c: Challenge)
    requires SortedParticipants(ctx, c).Ok?
    ensures SortedBy(SortedParticipants(ctx, c).value, NameKey)
    ensures multiset(SortedParticipants(ctx, c).value) == multiset(NamesOf(ctx, c.participants).value)
    ensures forall x :: x in SortedParticipants(ctx, c).value <==>
      x.1 in c.participants && x.0 == ctx.users[x.1].name
    ensures forall name :: WithKey(SortedParticipants(ctx, c).value, NameKey, name)
                        == WithKey(NamesOf(ctx, c.participants).value, NameKey, name)
  {
    var named := NamesOf(ctx, c.participants).value;
    SortByProperties(named, NameKey);
    forall x
      ensures x in SortedParticipants(ctx, c).value <==> x in named
    {
      assert x in SortedParticipants(ctx, c).value <==> x in multiset(named);
    }
    forall x: Named | x.1 in c.participants && x.0 == ctx.users[x.1].name
      ensures x in named
    {
      var k :| 0 <= k < |c.participants| && c.participants[k] == x.1;
      assert named[k] == x;
    }
  }

  /** `export_users`: the header, then each name on its user's colour. */
  function ExportUsers(e: Exporter, ctx: Context, sorted: seq<Named>): (r: Result<Exporter>)
    ensures r.Ok? <==> forall k :: 0 <= k < |sorted| ==> sorted[k].1 in ctx.users
    ensures r.Ok? ==> Extends(e, r.value, |sorted| + 1)
    ensures r.Ok? ==> r.value.cells[|e.cells|].value == Str("Participants")
    ensures r.Ok? ==> forall k :: 0 <= k < |sorted| ==>
      r.value.cells[|e.cells| + 1 + k].value == Str(sorted[k].0) &&
      r.value.cells[|e.cells| + 1 + k].fmt.bg == Some(ctx.users[sorted[k].1].color)
    ensures r.Ok? && Sound(e) ==> Sound(r.value)
  {
    var e1 := Write(e, "Participants", TitleFormat);
    var r :- WriteNames(e1, ctx, sorted);
    assert r.cells[..|e.cells|] == r.cells[..|e1.cells|][..|e.cells|];
    Ok(r)
  }

  function WriteNames(e: Exporter, ctx: Context, sorted: seq<Named>): (r: Result<Exporter>)
    ensures r.Ok? <==> forall k :: 0 <= k < |sorted| ==> sorted[k].1 in ctx.users
    ensures r.Ok? ==> Extends(e, r.value, |sorted|)
    ensures r.Ok? ==> forall k :: 0 <= k < |sorted| ==>
      r.value.cells[|e.cells| + k].value == Str(sorted[k].0) &&
      r.value.cells[|e.cells| + k].fmt.bg == Some(ctx.users[sorted[k].1].color)
    ensures r.Ok? && Sound(e) ==> Sound(r.value)
    decreases |sorted|
  {
    if |sorted| == 0 then Ok(e)
    else
      var color :- UserColor(ctx, sorted[0].1);
      var e1 := Write(e, sorted[0].0, Format(false, Some(color), false, false));
      var r :- WriteNames(e1, ctx, sorted[1..]);
      assert r.cells[..|e.cells|] == r.cells[..|e1.cells|][..|e.cells|];
      assert r.cells[|e.cells|] == r.cells[..|e1.cells|][|e.cells|];
      Ok(r)
  }

  /** What `export_round` writes for one participant. */
  datatype Entry = Failed | Rolled(title: string, url: Option<string>, bg: string, struck: bool)

  /** The cell of participant `uid` in round `idx`: FAILED after the round
      they failed in; otherwise their roll's title, struck through on red in
      the round they failed in, else on the proposer's colour. The roll, the
      title and the proposer are dictionary lookups. */
  function Classify(ctx: Context, c: Challenge, idx: nat, uid: UserId): (r: Result<Entry>)
    requires idx < |c.rounds|
  {
    if uid in c.failed && idx > c.failed[uid] then Ok(Failed)
    else if uid !in c.rounds[idx].rolls then Err(KeyMissing)
    else
      var title := c.rounds[idx].rolls[uid].title;
      if title !in c.titles then Err(KeyMissing)
      else
        var info := c.titles[title];
        var color :- UserColor(ctx, info.proposer);
        var struck := uid in c.failed && idx == c.failed[uid];
        Ok(Rolled(title, info.url, if struck then Red else color, struck))
  }

  /** Which entry a participant gets, and when the lookups fail. */
  lemma ClassifyCases(ctx: Context, c: Challenge, idx: nat, uid: UserId)
    requires idx < |c.rounds|
    ensures var r := Classify(ctx, c, idx, uid);
      && (r == Ok(Failed) <==> uid in c.failed && c.failed[uid] < idx)
      && (r.Err? <==>
            (uid !in c.failed || idx <= c.failed[uid]) &&
            (uid !in c.rounds[idx].rolls
             || c.rounds[idx].rolls[uid].title !in c.titles
             || c.titles[c.rounds[idx].rolls[uid].title].proposer !in ctx.users))
      && (r.Ok? && r.value.Rolled? ==>
            var title := c.rounds[idx].rolls[uid].title;
            && r.value.title == title
            && r.value.url == c.titles[title].url
            && (r.value.struck <==> uid in c.failed && c.failed[uid] == idx)
            && r.value.bg == (if r.value.struck then Red else ctx.users[c.titles[title].proposer].color))
  {
  }

  /** The format `export_round` gives an entry. */
  function EntryFormat(x: Entry): Format {
    match x
    case Failed => Format(false, Some(Red), true, false)
    case Rolled(_, _, bg, struck) => if struck then Format(false, Some(Red), false, true) else Format(false, Some(bg), false, false)
  }

  function WriteEntry(e: Exporter, x: Entry): (r: Exporter)
    ensures |r.cells| == |e.cells| + 1
    ensures r.cells[|e.cells|].value == (if x.Failed? then Str("FAILED") else if x.url.Some? then Link(x.url.value, x.title) else Str(x.title))
    ensures r == Put(e, r.cells[|e.cells|].value, r.cells[|e.cells|].text, EntryFormat(x))
  {
    match x
    case Failed => Write(e, "FAILED", EntryFormat(x))
    case Rolled(title, url, _, _) => WriteUrl(e, url, title, EntryFormat(x))
  }

  /** The title column of round `idx`, down the sorted participants. */
  function WriteEntries(e: Exporter, ctx: Context, c: Challenge, idx: nat, sorted: seq<Named>): (r: Result<Exporter>)
    requires idx < |c.rounds|
    ensures r.Ok? <==> forall k :: 0 <= k < |sorted| ==> Classify(ctx, c, idx, sorted[k].1).Ok?
    ensures r.Ok? ==> Extends(e, r.value, |sorted|)
    ensures r.Ok? ==> forall k :: 0 <= k < |sorted| ==>
      r.value.cells[|e.cells| + k].fmt == EntryFormat(Classify(ctx, c, idx, sorted[k].1).value)
    ensures r.Ok? && Sound(e) ==> Sound(r.value)
    decreases |sorted|
  {
    if |sorted| == 0 then Ok(e)
    else
      var x :- Classify(ctx, c, idx, sorted[0].1);
      var e1 := WriteEntry(e, x);
      var r :- WriteEntries(e1, ctx, c, idx, sorted[1..]);
      assert r.cells[..|e.cells|] == r.cells[..|e1.cells|][..|e.cells|];
      assert r.cells[|e.cells|] == r.cells[..|e1.cells|][|e.cells|];
      Ok(r)
  }

  /** Each participant's score in a round, `None` without a roll. */
  function RoundScores(rnd: Round, sorted: seq<Named>): (r: seq<Option<real>>)
    ensures |r| == |sorted|
    ensures forall k :: 0 <= k < |sorted| ==>
      r[k] == (if sorted[k].1 in rnd.rolls then rnd.rolls[sorted[k].1].score else None)
  {
    seq(|sorted|, k requires 0 <= k < |sorted| =>
      if sorted[k].1 in rnd.rolls then rnd.rolls[sorted[k].1].score else None)
  }

  /** `export_round`: the round's title column under the header `heading`
      (the source formats it from the index and the round's dates), then
      the score column. */
  function ExportRound(e: Exporter, ctx: Context, c: Challenge, sorted: seq<Named>, idx: nat,
                       heading: string, show: real -> string): (r: Result<Exporter>)
    requires idx < |c.rounds|
    ensures r.Ok? <==> forall k :: 0 <= k < |sorted| ==> Classify(ctx, c, idx, sorted[k].1).Ok?
    ensures r.Ok? ==> r.value.col == e.col + 1 && r.value.row == |sorted| + 1
    ensures r.Ok? && Sound(e) ==> Sound(r.value)
  {
    var e1 := Write(e, heading, TitleFormat);
    var e2 :- WriteEntries(e1, ctx, c, idx, sorted);
    var e3 := Write(NextCol(e2), "Score", TitleFormat);
    Ok(WriteScores(e3, RoundScores(c.rounds[idx], sorted), show))
  }

  /** A participant's score in every round, `None` where they have no roll. */
  function ScoresOf(rounds: seq<Round>, uid: UserId): (r: seq<Option<real>>)
    ensures |r| == |rounds|
    ensures forall k :: 0 <= k < |rounds| ==>
      r[k] == (if uid in rounds[k].rolls then rounds[k].rolls[uid].score else None)
  {
    seq(|rounds|, k requires 0 <= k < |rounds| =>
      if uid in rounds[k].rolls then rounds[k].rolls[uid].score else None)
  }

  /** The `stats` list of `export_stats`: min, max and average per sorted
      participant. */
  function StatsOf(c: Challenge, sorted: seq<Named>): (r: seq<(Option<real>, Option<real>, Option<real>)>)
    ensures |r| == |sorted|
    ensures forall k :: 0 <= k < |sorted| ==> r[k] == Summarize(ScoresOf(c.rounds, sorted[k].1))
  {
    seq(|sorted|, k requires 0 <= k < |sorted| => Summarize(ScoresOf(c.rounds, sorted[k].1)))
  }

  /** The exported min, max and average of a participant summarize the
      scores they were given over the rounds. */
  lemma StatsSummarize(c: Challenge, sorted: seq<Named>, k: nat)
    requires k < |sorted|
    ensures
      var scores := ScoresOf(c.rounds, sorted[k].1);
      var s := StatsOf(c, sorted)[k];
      (|scores| == 0 ==> s == (None, None, None)) &&
      (|scores| > 0 ==> Summarizes(s.0, s.1, s.2, Present(scores)))
  {
    var scores := ScoresOf(c.rounds, sorted[k].1);
    ExportsAgree(scores);
    if |scores| > 0 {
      ExportedStats(scores);
    }
  }

  /** One stats column: the header and the `i`-th statistic of everyone. */
  function StatColumn(e: Exporter, name: string, column: seq<Option<real>>, show: real -> string): (r: Exporter)
    ensures r.col == e.col + 1 && r.row == 0
    ensures Sound(e) ==> Sound(r)
  {
    NextCol(WriteScores(Write(e, name, TitleFormat), column, show))
  }

  /** Statistic `i` of a triple: 0 the minimum, 1 the maximum, 2 the
      average. */
  function StatAt(s: (Option<real>, Option<real>, Option<real>), i: nat): Option<real> {
    if i == 0 then s.0 else if i == 1 then s.1 else s.2
  }

  /** The loop of `export_stats` from name `i` on. */
  function StatColumnsFrom(e: Exporter, stats: seq<(Option<real>, Option<real>, Option<real>)>, i: nat,
                           show: real -> string): (r: Exporter)
    requires i <= 3
    ensures r.col == e.col + (3 - i) && (i < 3 ==> r.row == 0)
    ensures Sound(e) ==> Sound(r)
    decreases 3 - i
  {
    if i == 3 then e
    else
      var column := seq(|stats|, k requires 0 <= k < |stats| => StatAt(stats[k], i));
      StatColumnsFrom(StatColumn(e, ["Min", "Max", "Avg"][i], column, show), stats, i + 1, show)
  }

  /** `export_stats`: the Min, Max and Avg columns. */
  function ExportStats(e: Exporter, c: Challenge, sorted: seq<Named>, show: real -> string): (r: Exporter)
    ensures r.col == e.col + 3 && r.row == 0
    ensures Sound(e) ==> Sound(r)
  {
    StatColumnsFrom(e, StatsOf(c, sorted), 0, show)
  }

  /** The unused titles of a pool, each on its proposer's colour; the title
      and the proposer are dictionary lookups. */
  function WriteUnused(e: Exporter, ctx: Context, c: Challenge, titles: seq<string>): (r: Result<Exporter>)
    ensures r.Ok? <==> forall k :: 0 <= k < |titles| ==>
      titles[k] in c.titles && c.titles[titles[k]].proposer in ctx.users
    ensures r.Ok? ==> Extends(e, r.value, |titles|)
    ensures r.Ok? ==> forall k :: 0 <= k < |titles| ==>
      r.value.cells[|e.cells| + k].text == titles[k]
    ensures r.Ok? && Sound(e) ==> Sound(r.value)
    decreases |titles|
  {
    if |titles| == 0 then Ok(e)
    else if titles[0] !in c.titles then Err(KeyMissing)
    else
      var info := c.titles[titles[0]];
      var color :- UserColor(ctx, info.proposer);
      var e1 := WriteUrl(e, info.url, titles[0], Format(false, Some(color), false, false));
      var r :- WriteUnused(e1, ctx, c, titles[1..]);
      assert r.cells[..|e.cells|] == r.cells[..|e1.cells|][..|e.cells|];
      assert r.cells[|e.cells|] == r.cells[..|e1.cells|][|e.cells|];
      Ok(r)
  }

  /** `export_pool`: the header, then the pool's unused titles. */
  function ExportPool(e: Exporter, ctx: Context, c: Challenge, p: PoolEntry): (r: Result<Exporter>)
    ensures r.Ok? <==> forall k :: 0 <= k < |p.pool.unusedTitles| ==>
      p.pool.unusedTitles[k] in c.titles && c.titles[p.pool.unusedTitles[k]].proposer in ctx.users
    ensures r.Ok? ==> Extends(e, r.value, |p.pool.unusedTitles| + 1)
    ensures r.Ok? ==> r.value.cells[|e.cells|].value == Str(p.name + " (unused titles)")
    ensures r.Ok? ==> forall k :: 0 <= k < |p.pool.unusedTitles| ==>
      r.value.cells[|e.cells| + 1 + k].text == p.pool.unusedTitles[k]
    ensures r.Ok? && Sound(e) ==> Sound(r.value)
  {
    var e1 := Write(e, p.name + " (unused titles)", TitleFormat);
    var r :- WriteUnused(e1, ctx, c, p.pool.unusedTitles);
    assert r.cells[..|e.cells|] == r.cells[..|e1.cells|][..|e.cells|];
    Ok(r)
  }

  /** The loop over the rounds, each followed by a column break. */
  function ExportRounds(e: Exporter, ctx: Context, c: Challenge, sorted: seq<Named>, from: nat,
                        heading: nat -> string, show: real -> string): (r: Result<Exporter>)
    requires from <= |c.rounds|
    ensures r.Ok? <==> forall i, k :: from <= i < |c.rounds| && 0 <= k < |sorted| ==>
      Classify(ctx, c, i, sorted[k].1).Ok?
    ensures r.Ok? ==> r.value.col == e.col + 2 * (|c.rounds| - from) && r.value.row == (if from == |c.rounds| then e.row else 0)
    ensures r.Ok? && Sound(e) ==> Sound(r.value)
    decreases |c.rounds| - from
  {
    if from == |c.rounds| then Ok(e)
    else
      ResolvesSplit(ctx, c, sorted, from);
      var e1 :- ExportRound(e, ctx, c, sorted, from, heading(from), show);
      ExportRounds(NextCol(e1), ctx, c, sorted, from + 1, heading, show)
  }

  /** Every entry from round `from` on resolves exactly when round `from`'s
      do and every entry from the next round on does. */
  lemma ResolvesSplit(ctx: Context, c: Challenge, sorted: seq<Named>, from: nat)
    requires from < |c.rounds|
    ensures (forall i, k :: from <= i < |c.rounds| && 0 <= k < |sorted| ==> Classify(ctx, c, i, sorted[k].1).Ok?) <==>
            (forall k :: 0 <= k < |sorted| ==> Classify(ctx, c, from, sorted[k].1).Ok?) &&
            (forall i, k :: from + 1 <= i < |c.rounds| && 0 <= k < |sorted| ==> Classify(ctx, c, i, sorted[k].1).Ok?)
  {
  }

  /** The loop over the pools, each followed by two column breaks. */
  function ExportPools(e: Exporter, ctx: Context, c: Challenge, pools: seq<PoolEntry>): (r: Result<Exporter>)
    ensures r.Ok? <==> forall j, k :: 0 <= j < |pools| && 0 <= k < |pools[j].pool.unusedTitles| ==>
      pools[j].pool.unusedTitles[k] in c.titles && c.titles[pools[j].pool.unusedTitles[k]].proposer in ctx.users
    ensures r.Ok? ==> r.value.col == e.col + 2 * |pools|
    ensures r.Ok? && Sound(e) ==> Sound(r.value)
    decreases |pools|
  {
    if |pools| == 0 then Ok(e)
    else
      KnownSplit(ctx, c, pools);
      var e1 :- ExportPool(e, ctx, c, pools[0]);
      ExportPools(NextCol(NextCol(e1)), ctx, c, pools[1..])
  }

  /** Every unused title of every pool is known, with a known proposer,
      exactly when that holds of the first pool and of the rest. */
  lemma KnownSplit(ctx: Context, c: Challenge, pools: seq<PoolEntry>)
    requires |pools| > 0
    ensures (forall j, k :: 0 <= j < |pools| && 0 <= k < |pools[j].pool.unusedTitles| ==>
               pools[j].pool.unusedTitles[k] in c.titles && c.titles[pools[j].pool.unusedTitles[k]].proposer in ctx.users) <==>
            (forall k :: 0 <= k < |pools[0].pool.unusedTitles| ==>
               pools[0].pool.unusedTitles[k] in c.titles && c.titles[pools[0].pool.unusedTitles[k]].proposer in ctx.users) &&
            (forall j, k :: 0 <= j < |pools[1..]| && 0 <= k < |pools[1..][j].pool.unusedTitles| ==>
               pools[1..][j].pool.unusedTitles[k] in c.titles && c.titles[pools[1..][j].pool.unusedTitles[k]].proposer in ctx.users)
  {
    assert forall j :: 1 <= j < |pools| ==> pools[j] == pools[1..][j - 1];
  }

  /** What a sheet needs of the context: every participant is a known user,
      every participant's entry resolves in every round, and every unused
      title of every pool is a known title with a known proposer. */
  ghost predicate Exportable(ctx: Context, c: Challenge) {
    && (forall k :: 0 <= k < |c.participants| ==> c.participants[k] in ctx.users)
    && (forall i, k :: 0 <= i < |c.rounds| && 0 <= k < |c.participants| ==>
          Classify(ctx, c, i, c.participants[k]).Ok?)
    && (forall j, k :: 0 <= j < |c.pools| && 0 <= k < |c.pools[j].pool.unusedTitles| ==>
          c.pools[j].pool.unusedTitles[k] in c.titles && c.titles[c.pools[j].pool.unusedTitles[k]].proposer in ctx.users)
  }

  /** The sorted participants carry exactly the roster's ids, so a
      condition checked down one is checked down the other. */
  lemma ClassifySorted(ctx: Context, c: Challenge)
    requires SortedParticipants(ctx, c).Ok?
    ensures var sorted := SortedParticipants(ctx, c).value;
      && (forall k :: 0 <= k < |sorted| ==> sorted[k].1 in ctx.users)
      && ((forall i, k :: 0 <= i < |c.rounds| && 0 <= k < |sorted| ==> Classify(ctx, c, i, sorted[k].1).Ok?) <==>
          (forall i, k :: 0 <= i < |c.rounds| && 0 <= k < |c.participants| ==> Classify(ctx, c, i, c.participants[k]).Ok?))
      && (Exportable(ctx, c) <==>
          && (forall i, k :: 0 <= i < |c.rounds| && 0 <= k < |sorted| ==> Classify(ctx, c, i, sorted[k].1).Ok?)
          && (forall j, k :: 0 <= j < |c.pools| && 0 <= k < |c.pools[j].pool.unusedTitles| ==>
                c.pools[j].pool.unusedTitles[k] in c.titles && c.titles[c.pools[j].pool.unusedTitles[k]].proposer in ctx.users))
  {
    var sorted := SortedParticipants(ctx, c).value;
    SortedIds(ctx, c);
    assert (forall k :: 0 <= k < |c.participants| ==> c.participants[k] in ctx.users);
  }

  /** The sorted participants carry exactly the roster's ids, all of them known users. */
  lemma SortedIds(ctx: Context, c: Challenge)
    requires SortedParticipants(ctx, c).Ok?
    ensures var sorted := SortedParticipants(ctx, c).value;
      && (forall k :: 0 <= k < |sorted| ==> sorted[k].1 in c.participants && sorted[k].1 in ctx.users)
      && (forall m :: 0 <= m < |c.participants| ==> c.participants[m] in ctx.users)
      && (forall m :: 0 <= m < |c.participants| ==> exists k :: 0 <= k < |sorted| && sorted[k].1 == c.participants[m])
  {
    var sorted := SortedParticipants(ctx, c).value;
    SortedParticipantsOrder(ctx, c);
    forall k | 0 <= k < |sorted|
      ensures sorted[k].1 in c.participants
    {
      assert sorted[k] in sorted;
    }
    forall m | 0 <= m < |c.participants|
      ensures exists k :: 0 <= k < |sorted| && sorted[k].1 == c.participants[m]
    {
      var x := (ctx.users[c.participants[m]].name, c.participants[m]);
      assert x in sorted;
    }
  }

  /** `export_challenge`: participants, every round, the statistics and the
      pools, starting from a fresh cursor. `heading(i)` is round `i`'s header
      and `show` renders a number. */
  function ExportChallenge(ctx: Context, name: string, heading: nat -> string, show: real -> string): (r: Result<Exporter>)
    ensures name !in ctx.challenges ==> r == Err(KeyMissing)
    ensures r.Ok? <==> name in ctx.challenges && Exportable(ctx, ctx.challenges[name])
  {
    if name !in ctx.challenges then Err(KeyMissing)
    else ExportSheet(ctx, ctx.challenges[name], heading, show)
  }

  /** The sheet of challenge `c`. */
  function ExportSheet(ctx: Context, c: Challenge, heading: nat -> string, show: real -> string): (r: Result<Exporter>)
    ensures r.Ok? <==> Exportable(ctx, c)
    ensures r.Ok? ==> r.value.col == 1 + 2 * |c.rounds| + 4 + 2 * |c.pools| && Sound(r.value)
  {
    var sorted :- SortedParticipants(ctx, c);
    SortedKnown(ctx, c);
    StartSound();
    var e1 := ExportUsers(Start, ctx, sorted).value;
    RoundsExportable(NextCol(e1), ctx, c, heading, show);
    var e2 :- ExportRounds(NextCol(e1), ctx, c, sorted, 0, heading, show);
    var e3 := NextCol(ExportStats(e2, c, sorted, show));
    PoolsExportable(e3, ctx, c);
    ExportPools(e3, ctx, c, c.pools)
  }

  /** The sorted participants are all known users. */
  lemma SortedKnown(ctx: Context, c: Challenge)
    requires SortedParticipants(ctx, c).Ok?
    ensures forall k :: 0 <= k < |SortedParticipants(ctx, c).value| ==> SortedParticipants(ctx, c).value[k].1 in ctx.users
  {
    ClassifySorted(ctx, c);
  }

  /** Writing the rounds fails only for a challenge that is not
      exportable. */
  lemma RoundsExportable(e: Exporter, ctx: Context, c: Challenge, heading: nat -> string, show: real -> string)
    requires SortedParticipants(ctx, c).Ok?
    ensures ExportRounds(e, ctx, c, SortedParticipants(ctx, c).value, 0, heading, show).Err? ==> !Exportable(ctx, c)
  {
    ClassifySorted(ctx, c);
  }

  /** Once the rounds are written, writing the pools succeeds exactly when
      the challenge is exportable, wherever the cursor stands. */
  lemma PoolsExportable(e: Exporter, ctx: Context, c: Challenge)
    requires SortedParticipants(ctx, c).Ok?
    requires var sorted := SortedParticipants(ctx, c).value;
      forall i, k :: 0 <= i < |c.rounds| && 0 <= k < |sorted| ==> Classify(ctx, c, i, sorted[k].1).Ok?
    ensures ExportPools(e, ctx, c, c.pools).Ok? <==> Exportable(ctx, c)
  {
    ClassifySorted(ctx, c);
  }

  /** A sheet lays out one column for the participants, two per round,
      three statistics and a gap, and two per pool; every column gets a
      recorded width at least 2 that fits its texts, and no cell is written
      twice. */
  lemma ExportChallengeLayout(ctx: Context, name: string, heading: nat -> string, show: real -> string)
    requires ExportChallenge(ctx, name, heading, show).Ok?
    ensures
      var c := ctx.challenges[name];
      var e := ExportChallenge(ctx, name, heading, show).value;
      && e.col == 1 + 2 * |c.rounds| + 4 + 2 * |c.pools|
      && Sound(e)
      && forall i :: 0 <= i < |e.cells| && e.cells[i].col < e.col ==> |e.cells[i].text| <= e.widths[e.cells[i].col]
  {
    var e := ExportSheet(ctx, ctx.challenges[name], heading, show).value;
    assert ExportChallenge(ctx, name, heading, show).value == e;
    assert Sound(e);
  }
}
